=== FILE: README.md ===
# Morgen CLI core, modelled in Dafny

The Morgen command-line tool (`gm`) reads and edits calendars, events, tasks
and tags through the Morgen REST API. This project models its core as pure
Dafny functions over an explicit state, and proves properties of them:

- **Cache** (`cache.dfy`): the file-backed TTL cache. A store is the `_meta.json`
  index (key to stored-at time and TTL) plus the payload files, named after the
  key with `/` turned into `--`. Covers get, set, prefix invalidation, clear and
  stats, against an explicit clock.
- **Http** (`http.dfy`): what both clients share. The status mapping of
  `_request` (401, 429, 404, 4xx/5xx, 204), the response envelopes unwrapped by
  `_extract_list` and `_extract_single`, and the `move` payload. The server is
  a function `Origin` from request to response.
- **Client** (`client.dfy`): the current client, `guten_morgen/client.py`. Every
  operation is a function from `(context, cache)` to a `Step`: the value or the
  raised error, the cache afterwards, and the requests sent in order. Covers
  the read-through caches; the multi-account event fan-out with its account and
  calendar filters, grouping and de-duplication of synced copies; the
  multi-source task listing; single reads; mutations with their cache
  invalidation; and `schedule_task`.
- **LegacyClient** (`legacy_client.dfy`): the older `morgen/client.py`, with no
  cache and no validation, related to the current one request by request.
- **Groups**, **LegacyGroups**: resolving `--group`/`--all-calendars` into a
  calendar filter, and matching accounts against `email[:provider]` keys.
- **Models** (`models.dfy`): the validated records (Account, Calendar, Event,
  Task, LabelDef, Space, Tag, TaskList) with their defaults and required
  fields, and dump/validate round trips.
- **Output** (`output.dfy`): field selection, id truncation, participant and
  location displays, event enrichment and task source enrichment (source, url,
  id, status, tag names).
- **Cli** (`cli.dfy`): the pure helpers of the command layer. Covers date
  normalisation, frame and writable-calendar tests, the calendar-filter
  keyword arguments, tag and task-list name resolution, auto-discovery of the
  default calendar, the `tasks list` filter loop, the combined view's task
  buckets, and `next`'s selection and ordering.
- **Errors**, **TimeUtils**: the error hierarchy with its error types and
  default suggestions, the structured error report, and
  `format_duration_human`.

JSON is modelled as a datatype whose objects are ordered key/value lists, so
Python's dict order is kept. Python `None` is `JNull`. A Python exception is a
`Failure(Raised)`: either a `MorgenError` of a given kind, a Click error, or a
"malformed data" error standing for a `TypeError`/`AttributeError` or a
validation error.

## Model

| member | source | states |
|---|---|---|
| Cache.FileName | src/morgen/cache.py:41-43 | a payload file name never contains `/`; a key without `/` is stored as `<key>.json` |
| Cache.FileNameNotInjective | src/morgen/cache.py:41-43 | the key-to-file mapping is not injective: `a/b` and `a--b` share one payload file |
| Cache.Open | src/morgen/cache.py:25-36 | a missing index file, or one that is not valid JSON, opens as an empty index; a valid index is used as read; the payload files are those on disk |
| Cache.Get | src/morgen/cache.py:45-56 | a key with no index entry, an expired entry, or a missing or undecodable payload file reads as `None`; a hit is the payload of a fresh entry |
| Cache.Set | src/morgen/cache.py:58-63 | records `(now, ttl)` for the key and writes the payload file with its UTF-8 size; every other entry and file is unchanged |
| Cache.SetThenGet | src/morgen/cache.py:45-63 | round trip: until `ttl` seconds have passed, a key reads back what was last stored under it |
| Cache.SetThenGetExpired | src/morgen/cache.py:50-51 | once `now > ts + ttl` the key reads as a miss |
| Cache.SetOverwrites | src/morgen/cache.py:58-63 | a second `set` on a key replaces payload, time and TTL |
| Cache.SharedFileAliases | src/morgen/cache.py:41-63 | a `set` under one key is read back under any other fresh key that shares its payload file |
| Cache.Invalidate | src/morgen/cache.py:65-72 | removes exactly the keys equal to the prefix or under `prefix/`, and their files; keeps everything else as it was; writes the index only when something matched |
| Cache.InvalidateNoMatch | src/morgen/cache.py:65-72 | with nothing under the prefix, the store is unchanged and the index is not saved |
| Cache.InvalidateThenGet | src/morgen/cache.py:65-72 | a removed key misses afterwards; a surviving key whose file is not shared with a removed key reads as before |
| Cache.InvalidateIsHierarchical | src/morgen/cache.py:65-72 | for any prefix, a key that continues it with a character other than `/` survives `invalidate(prefix)`, and every key below `prefix/` is dropped |
| Cache.TaskAccountsSurviveTasks | src/morgen/cache.py:65-72 | `invalidate("tasks")` drops `tasks/list` but keeps `task_accounts` |
| Cache.InvalidateCanOrphanSurvivor | src/morgen/cache.py:41-72 | a key kept by `invalidate` can lose its payload file to a removed key that shares it, and then misses |
| Cache.Clear | src/morgen/cache.py:74-79 | empties the index and deletes exactly the payload files of indexed keys |
| Cache.ClearThenGet | src/morgen/cache.py:74-79 | after `clear` every key misses |
| Cache.KeyStatsOf | src/morgen/cache.py:86-95 | a key's age, TTL, remaining time (never negative), expiry flag (remaining time zero) and file size, 0 without a file |
| Cache.StatsOf | src/morgen/cache.py:81-97 | one stats record per indexed key, the entry count and the cache directory |
| Cache.StatsExpiredBeforeGetMisses | src/morgen/cache.py:50-95 | at exactly `now == ts + ttl`, `stats` reports the entry expired while `get` still returns it |
| Errors.NewError | src/guten_morgen/errors.py:9-18 | explicit suggestions replace the class defaults; without them the class defaults apply |
| Errors.ErrorTypesDistinct | src/guten_morgen/errors.py:12-68 | the seven error classes have pairwise distinct `error_type` strings |
| Errors.PlainErrorsHaveNoDefaultSuggestions | src/guten_morgen/errors.py:43-68 | not-found, API and group-not-found errors carry no default suggestions |
| Errors.OutputError | src/guten_morgen/errors.py:71-77 | the report is `{"error": {...}}` with the given type and message; `suggestions` is present exactly when a non-empty list was given; the exit code is passed through |
| Errors.ReportError | src/guten_morgen/cli.py:525 | a caught error is reported as `{"error": …}` with its class's type string and its message, suggestions only when it has some, and exit code 1 |
| Http.MovePayloadSpec | src/guten_morgen/client.py:386-395 | the move body always has the id, and has `after`/`parent` exactly when they are given |
| Http.MapResponse | src/guten_morgen/client.py:104-128 | 401 raises an authentication error, 429 a rate-limit error naming Retry-After, 404 a not-found error naming the path, any other status of 400 or more an API error with status and body; 204 is `None`; below 400 the decoded body is returned |
| Http.SendSucceeds | src/guten_morgen/client.py:104-128 | a request succeeds exactly when the status is below 400 and the body (unless 204) decodes |
| Http.Envelope | src/guten_morgen/client.py:33-47 | a list passes through; for a dict, its `data` member (or the dict itself when there is none) gives its `<key>` member (default `[]`) when it is a dict, itself when it is a list, and `[]` otherwise; any other value gives `[]` |
| Http.EnvelopeShapes | src/guten_morgen/client.py:33-47 | the four list envelopes the API uses (bare list, `data` list, `data.<key>`, `<key>`) all unwrap to their list, and an empty `data` dict to `[]` |
| Http.SingleEnvelope | src/guten_morgen/client.py:50-65 | `None` exactly for a null response; a non-dict passes through; for a dict, its `data` member (or the dict itself) gives its `<key>` member if present, else itself, when it is a dict; a non-dict `data` member gives the whole response |
| Http.SingleEnvelopeShapes | src/guten_morgen/client.py:50-65 | `data.<key>`, `data` and the bare record all unwrap to the record |
| Models.TaskDefaults | src/guten_morgen/models.py:83-107 | a task given only its id validates with every default: empty title, no tags, no labels, no links, no integration |
| Models.RequiredFields | src/guten_morgen/models.py:20-136 | a record without `id` (or a tag without `name`) fails validation |
| Models.TaskRequiresId | src/guten_morgen/models.py:83-87 | a task with a title but no id does not validate |
| Models.AccountDefaults | src/guten_morgen/models.py:20-31 | an account given only its id validates with no email, no integration and no groups, so it is neither calendar- nor task-capable |
| Models.TagRequiresName | src/guten_morgen/models.py:131-136 | a tag without a name is rejected; with one it validates with no colour |
| Models.AccountRoundTrip | src/guten_morgen/models.py:20-31 | validating a dumped account gives the account back |
| Models.CalendarRoundTrip | src/guten_morgen/models.py:34-44 | validating a dumped calendar gives the calendar back |
| Models.EventRoundTrip | src/guten_morgen/models.py:47-64 | validating a dumped event (metadata under its alias) gives the event back |
| Models.TaskRoundTrip | src/guten_morgen/models.py:83-107 | validating a dumped task gives the task back |
| Models.TagRoundTrip | src/guten_morgen/models.py:131-136 | validating a dumped tag gives the tag back |
| Groups.GroupName | src/guten_morgen/groups.py:96 | a non-empty `--group` wins; otherwise the configured default group |
| Groups.ResolveFilter | src/guten_morgen/groups.py:83-112 | `active_only` is the configured flag unless `--all-calendars`; `all` and no group give an unrestricted filter; an unknown group raises with the sorted available names (or the setup hint); a known group gives its accounts and calendars |
| Groups.DefaultAllIsAName | src/guten_morgen/groups.py:92-105 | a default group named `all` is looked up as a name (and fails when not configured), unlike `--group all` |
| Groups.AgreesWithLegacy | src/guten_morgen/groups.py:83-112 | both versions resolve the same filter or both raise; only the no-groups hint differs |
| Groups.PyIn | src/guten_morgen/groups.py:135-136 | Python `in`: list membership, substring, dict key; it raises on `None`, booleans and numbers |
| Groups.MatchAccount | src/guten_morgen/groups.py:115-136 | a provider in the key must equal `integrationId`; then `preferredEmail` equal to the email matches, else the email's membership in `emails` decides |
| Groups.MatchAccountSpec | src/guten_morgen/groups.py:115-136 | on an account whose `emails` is a list, matching succeeds and is "provider agrees and (preferred email or listed email)" |
| Groups.MatchesViaEmails | src/guten_morgen/groups.py:132-136 | an account without a preferred email matches through its `emails` list |
| Groups.ExtendsLegacyMatch | src/guten_morgen/groups.py:115-136 | every legacy match is still a match; without `emails` both versions agree |
| Groups.DumpedAccountsMatchByPreferredEmail | src/guten_morgen/groups.py:132-136 | on a dumped `Account`, which has no `emails` field, matching is the legacy rule: the `emails` fallback never applies there |
| LegacyGroups.Lookup | src/morgen/groups.py:98-105 | a group is found exactly when its name is configured, with its configuration |
| LegacyGroups.GroupName | src/morgen/groups.py:94 | a non-empty `--group` wins; otherwise the configured default group |
| LegacyGroups.ResolveFilter | src/morgen/groups.py:81-110 | as the current version, with the `.config.toml` hint when no group is configured |
| LegacyGroups.UnrestrictedUnlessGrouped | src/morgen/groups.py:89-96 | without a group name (explicit or default), or with `all`, no account or calendar restriction applies |
| LegacyGroups.SplitKey | src/morgen/groups.py:119-121 | the key splits at its first `:` into an email with no `:` and an optional provider, and the parts rebuild the key |
| LegacyGroups.MatchAccount | src/morgen/groups.py:113-127 | a match is `preferredEmail` equal to the email and, if a provider is given, `integrationId` equal to it |
| LegacyGroups.EmailOnlyKeyIgnoresProvider | src/morgen/groups.py:119-127 | a key without a provider does not depend on the account's integration |
| Client.CacheGet | src/guten_morgen/client.py:91-95 | with caching off every read misses |
| Client.CacheSet | src/guten_morgen/client.py:96-99 | with caching off nothing is stored; otherwise it is a cache `set` |
| Client.CacheInvalidate | src/guten_morgen/client.py:100-102 | with caching off nothing happens; otherwise it is a cache `invalidate` |
| Client.ValidateList | src/guten_morgen/client.py:33-47 | a non-iterable list raises; otherwise each item is validated in order and the first invalid one raises (through `Seqs.MapAll`, which returns the first failing item's error) |
| Client.ValidateDump | src/guten_morgen/client.py:132-140 | validating a list of dumped records gives the records back, which is what a cache hit relies on |
| Client.ExtractSingle | src/guten_morgen/client.py:50-65 | a null response is `None`; otherwise the unwrapped record is validated |
| Client.CachedList | src/guten_morgen/client.py:132-140 | a fresh entry is validated and returned without a request; on a miss the one request is sent, an error propagates, and a result is validated and cached as its dump |
| Client.CachedListHitsAfterMiss | src/guten_morgen/client.py:132-140 | after a successful miss, a second call within the TTL sends nothing and returns the same records |
| Client.ListAccounts | src/guten_morgen/client.py:132-140 | at most the one account request; with caching off, always that request |
| Client.ListCalendars | src/guten_morgen/client.py:154-162 | at most the one calendar request; with caching off, always that request |
| Client.ListTags | src/guten_morgen/client.py:447-455 | at most the one tag request |
| Client.TaskListParamsSpec | src/guten_morgen/client.py:336-347 | the task listing always sends `limit` and sends `updatedAfter` exactly when it is given and non-empty |
| Client.ListTasks | src/guten_morgen/client.py:336-347 | at most the one task-list request, with those parameters |
| Client.ListTaskAccounts | src/guten_morgen/client.py:142-150 | at most the account request |
| Client.TaskAccountsSpec | src/guten_morgen/client.py:142-150 | a fresh `task_accounts` entry answers without a request; otherwise the (cached) account list is read and its task-capable accounts kept in order |
| Client.EventsKey | src/guten_morgen/client.py:174-178 | event cache keys live under `events/` |
| Client.EventsKeyIgnoresOrder | src/guten_morgen/client.py:174-178 | the key hashes the sorted calendar ids, so the same calendars in another order give the same key |
| Client.ListEvents | src/guten_morgen/client.py:166-191 | at most the one events request; a fresh cache entry sends nothing and leaves the cache as it was |
| Client.ListEventsPermutedHits | src/guten_morgen/client.py:166-191 | after a successful miss, the same calendars in another order are served from the cache |
| Client.GroupByAccountSpec | src/guten_morgen/client.py:228-234 | for `GroupByAccount`, grouping keeps, per account, the ids of its calendars in listing order |
| Client.FilterAccounts | src/guten_morgen/client.py:217-219 | a non-empty key list keeps, in order, the accounts matching some key; otherwise all accounts |
| Client.FilterCalendars | src/guten_morgen/client.py:220-226 | a non-empty name list keeps exactly the named calendars; otherwise `active_only` keeps those active by default; otherwise all |
| Client.FilterCalendarsConcat | src/guten_morgen/client.py:220-226 | the filter decides calendar by calendar: it distributes over concatenation and keeps or drops a single calendar by the same test, so the listing order is kept |
| Client.FetchEventsRequests | src/guten_morgen/client.py:236-244 | for `FetchEvents`, the fan-out loop: with caching off, the fan-out requests the calendar-capable accounts that have calendars, in account order, stops at the first failure, and on success has sent the whole plan |
| Client.FetchEventsGathers | src/guten_morgen/client.py:236-244 | with caching off, the fan-out's value is the independent `EventsGathered`: each queried account's events, requested and validated directly, concatenated in account order, or the first failure |
| Client.NonCalendarAccountsSkipped | src/guten_morgen/client.py:236-239 | an account without the calendars capability is never queried |
| Client.Dedup | src/guten_morgen/client.py:246-247 | exactly the events whose title lacks "(via Morgen)" are kept |
| Client.DedupConcat | src/guten_morgen/client.py:246-247 | dedup distributes over concatenation and keeps a single event exactly when it is not a synced copy, so order and repeats of the kept events are the input's |
| Client.EventsFanout | src/guten_morgen/client.py:217-247 | a successful result never holds a synced copy |
| Client.EventsFanoutSpec | src/guten_morgen/client.py:217-247 | with caching off: filter accounts, filter and group calendars, fan out; the planned requests are sent in account order; the result is `EventsGathered` (the per-account events concatenated in account order) with synced copies dropped, or its first failure |
| Client.ListAllEvents | src/guten_morgen/client.py:193-247 | a successful result never holds a synced copy |
| Client.ListAllEventsSpec | src/guten_morgen/client.py:193-247 | with caching off, the account and calendar lists are requested first, then the fan-out runs on them |
| Client.AccountContribution | src/guten_morgen/client.py:318-328 | a per-account listing that is not a dict raises |
| Client.NativeStep | src/guten_morgen/client.py:285-296 | the native listing is one uncached request when the native source is wanted, and nothing otherwise |
| Client.ValidateRawSpec | src/guten_morgen/client.py:330-334 | validation succeeds exactly when every task, label definition and space validates; an invalid task is reported first; nothing is dropped |
| Client.ExternalTasks | src/guten_morgen/client.py:298-334 | the external part sends only the account request and per-account listings |
| Client.AccountsTasks | src/guten_morgen/client.py:298-328 | every request is a listing for one of the task accounts |
| Client.FetchTasksRequests | src/guten_morgen/client.py:298-328 | with caching off, the selected accounts are listed in order, stopping at the first failure, all of them on success |
| Client.FetchTasksGathers | src/guten_morgen/client.py:298-328 | with caching off, the result concatenates the selected accounts' tasks, label definitions and spaces in account order |
| Client.TaskFailurePropagates | src/guten_morgen/client.py:298-328 | one failing selected account makes the whole listing fail |
| Client.NativeRequestedIffNativeSource | src/guten_morgen/client.py:285-296 | the native listing is requested exactly when no source or the native source is asked for |
| Client.OtherSourcesSkipNative | src/guten_morgen/client.py:285-296 | for any other source the native listing is not requested |
| Client.ExternalTasksSkipNative | src/guten_morgen/client.py:298-334 | the external part never sends the native listing |
| Client.FetchTasksSendsAccountReqs | src/guten_morgen/client.py:298-328 | the fan-out only sends per-account listings for the given accounts |
| Client.CachedSingle | src/guten_morgen/client.py:349-360 | a fresh entry answers without a request; on a miss the one request is sent; a failed request raises its error and caches nothing; an empty response raises not-found and caches nothing; otherwise the result is the validated unwrapped record (the `_extract_single` record), a validation error raises and caches nothing, and a record is cached for five minutes |
| Client.GetTask | src/guten_morgen/client.py:349-360 | at most the one `/tasks/` request for that id; on a miss, a failed request raises its error and a non-empty reply gives the task validated from its `data.task`, `data` or bare form |
| Client.GetTag | src/guten_morgen/client.py:457-468 | at most the one `/tags/` request for that id; on a miss, a failed request raises its error and a non-empty reply gives the tag validated from its `data.tag`, `data` or bare form |
| Client.GetTaskHitsAfterMiss | src/guten_morgen/client.py:349-360 | a fetched task is served from the cache for the next five minutes |
| Client.TaskKeysShareNamespace | src/guten_morgen/client.py:349-360 | a task id equal to an account id reads that account's cached listing, fails validation, and sends no request |
| Client.Mutate | src/guten_morgen/client.py:249-264 | a mutation sends its request; a raised error leaves the cache untouched; otherwise the prefix is invalidated and the response read |
| Client.EventMutations | src/guten_morgen/client.py:249-264 | `CreateEvent`, `UpdateEvent` and `DeleteEvent` each send one POST to their endpoint with the event body; a raised error keeps the cache; otherwise `events` is invalidated and the reply read as an event, a deletion returning nothing |
| Client.TaskMutations | src/guten_morgen/client.py:362-372 | `CreateTask` and `UpdateTask` each send one POST to their endpoint with the task body; a raised error keeps the cache; otherwise `tasks` is invalidated and the reply read as a task |
| Client.TaskByIdMutations | src/guten_morgen/client.py:374-400 | `CloseTask`, `ReopenTask`, `MoveTask` and `DeleteTask` each send one POST to their endpoint with `{"id": id}` (a move with its payload); a raised error keeps the cache; otherwise `tasks` is invalidated and the reply read as a task, a deletion returning nothing |
| Client.TagMutations | src/guten_morgen/client.py:470-486 | `CreateTag`, `UpdateTag` and `DeleteTag` each send one POST to their endpoint; a raised error keeps the cache; otherwise `tags` is invalidated and the reply read as a tag, a deletion returning nothing |
| Client.MutationDropsPrefix | src/guten_morgen/client.py:249-264 | after a successful mutation no key under its prefix hits |
| Client.TaskMutationDropsTaskReads | src/guten_morgen/client.py:374-378 | after a successful close, the task listing and the single task miss |
| Client.RejectedMutationKeepsCache | src/guten_morgen/client.py:255-259 | a rejected update leaves the cache as it was and raises |
| Client.ScheduleEventDataSpec | src/guten_morgen/client.py:417-441 | the event is titled after the task or "Untitled task", lasts the explicit minutes, else the task's estimate, else 30 minutes, and links back to the task in its metadata |
| Client.ScheduleTask | src/guten_morgen/client.py:402-443 | a failed task read is the result, with the read's cache; otherwise the `/events/create` request follows the read, with the given time zone or else the local one, and as in `create_event` a successful create returns the unwrapped event and invalidates `events`, while a failed one raises and keeps the cache |
| LegacyClient.ListRead | src/morgen/client.py:18-33 | a list read is the request's error or the unwrapped envelope list |
| LegacyClient.DeleteEvent | src/morgen/client.py:125-127 | the deletion returns nothing when the request goes through and its error otherwise |
| LegacyClient.DeleteById | src/morgen/client.py:174-176 | `delete_task`, and `delete_tag` at lines 200-202 (the model's `DeleteTask` and `DeleteTag` call it with their paths), posts `{"id": id}` and returns nothing when the request goes through and its error otherwise |
| LegacyClient.CalendarsAndTagsAgree | src/morgen/client.py:88-91 | both clients read calendars (and, as at lines 180-183, tags) with the same request and agree on errors and contents |
| LegacyClient.WritesAgree | src/morgen/client.py:115-202 | every older write sends the current client's request; where the older one returns the reply body the current one reads it as the record; both fail alike; deletions succeed alike |
| LegacyClient.SingleReadsAgree | src/morgen/client.py:139-188 | the older `get_task` and `get_tag` send the current client's request and fail alike on a raised error |
| LegacyClient.CurrentListValidatesLegacy | src/morgen/client.py:81-91 | with caching off, the current client sends the same request and validates exactly the list the older client returns |
| LegacyClient.AccountsAgree | src/morgen/client.py:81-84 | both clients read accounts with the same request and agree on errors and contents |
| LegacyClient.EventsAgree | src/morgen/client.py:95-113 | both clients send the same events request whatever the calendar order |
| LegacyClient.TasksAgree | src/morgen/client.py:131-137 | both clients send the same task-list request, including `updatedAfter` |
| LegacyClient.GetTaskNoContent | src/morgen/client.py:139-142 | on an empty reply the older `get_task` returns `None` while the current one raises not-found |
| LegacyClient.MoveFailsAlike | src/morgen/client.py:164-172 | a move fails in the current client exactly when it fails in the older one, with the same error |
| Output.DictGet | src/morgen/output.py:124-126 | `get` succeeds exactly on a dict |
| Output.Items | src/morgen/output.py:121 | iteration succeeds exactly on an iterable value |
| Output.Values | src/morgen/output.py:121 | a dict's values in order |
| Output.CollectConcat | src/morgen/output.py:120-128 | collecting names distributes over concatenation, so order is kept |
| Output.JoinNames | src/morgen/output.py:129 | joining succeeds exactly when every name is a string |
| Output.FormatDisplay | src/morgen/output.py:118-119 | (`FormatParticipants` and `FormatLocations` are this display with `ParticipantName` and `LocationName`): an empty or missing map displays as ""; a non-empty non-dict raises |
| Output.ParticipantName | src/morgen/output.py:122-128 | a resource or a non-dict contributes nothing; otherwise the name, else the email, when non-empty |
| Output.LocationName | src/morgen/output.py:137-142 | a dict location contributes its non-empty name |
| Output.ResourcesNotListed | src/morgen/output.py:124-125 | adding a resource participant does not change the display |
| Output.FormatDisplayObj | src/morgen/output.py:118-129 | a non-empty map displays as its values' names joined |
| Output.ParticipantsExample | src/morgen/output.py:112-129 | Alice, a room and Bob (email only) display as "Alice, bob@example.com" |
| Output.ExampleNames | src/morgen/output.py:122-128 | a named participant gives its name, a resource nothing, an unnamed one its email |
| Output.WithDisplay | src/morgen/output.py:150-152 | the two display fields are set; every other key reads as before |
| Output.EnrichEvents | src/morgen/output.py:146-154 | one enriched copy per event, in order; it raises exactly when some event's display raises |
| Output.EnrichEventSpec | src/morgen/output.py:146-154 | an enriched event is its input plus the participant and location displays |
| Output.ResolveLabelFirst | src/morgen/output.py:157-162 | the first label carrying the id gives its value; with none, `None` |
| Output.ResolveLabel | src/morgen/output.py:157-162 | a label list of dicts is searched without raising; with no label carrying the id the result is `None` |
| Output.FindValueFirst | src/morgen/output.py:172-175 | the first value entry equal to the value under Python's `==` gives its `label`, after entries with other values |
| Output.FindValue | src/morgen/output.py:172-175 | no match exactly when no value entry equals the value under Python's `==` (`True` is `1`) |
| Output.ResolveLabelDisplay | src/morgen/output.py:165-168 | `None` maps to `None` |
| Output.DisplayFallsBack | src/morgen/output.py:169-176 | without a definition for the id, the raw value is the display |
| Output.DisplayFirst | src/morgen/output.py:165-176 | for `DisplayIn`, the definition search: after definitions with another id or listing no match, the first definition with the id that lists the value gives the matching entry's label; when every definition is passed over the raw value is returned |
| Output.DisplayMapsListedValue | src/morgen/output.py:169-175 | a one-entry definition listing the value maps it to its label |
| Output.StatusFrom | src/morgen/output.py:210-216 | with no status ids, no status |
| Output.NoStatusLabels | src/morgen/output.py:208-216 | with neither status label the status is `None` |
| Output.StatusFromFirst | src/morgen/output.py:208-216 | the first status id whose label resolves to a value gives the status, through that id's definitions; when every id resolves to `None` the status is `None`; a label search that raises makes the status raise |
| Output.StateWins | src/morgen/output.py:210-216 | the first `state` label, wherever it sits, decides when it has a value, before any Notion status label |
| Output.NotionStatusWithoutState | src/morgen/output.py:210-216 | with no `state` label, the first Notion status label with a value gives the status |
| Output.TagTableSpec | src/morgen/output.py:191 | for `TagTable`, the tag table knows an id exactly when some tag with both keys has an id equal to it as a dict key (so `True` and `1` are one key), and gives the last such tag's name |
| Output.TagNames | src/morgen/output.py:219 | the names are those of listed ids found in the table, each id looked up as Python hashes it; when every id is known there is one name per id, in order |
| Output.BoolIsOneExample | src/morgen/output.py:171-219 | a task tag `true` finds the tag with id `1`, and a label value `1` finds the definition entry of value `true` |
| Output.TagNamesDropUnknown | src/morgen/output.py:219 | unknown ids are dropped and known ones kept in order |
| Output.TagNamesOne | src/morgen/output.py:219 | one id gives its name when the table has it and nothing otherwise |
| Output.TagNamesConcat | src/morgen/output.py:219 | the names of a concatenation are the concatenated names, so with `TagNamesOne` unknown ids are dropped and the rest kept in request order |
| Output.SourceUrl | src/morgen/output.py:200-203 | a task without links has no source url; with a dict of links, a falsy `original` gives none and a truthy dict `original` gives its `href` (or `None`); a `links` or truthy `original` that is not a dict raises |
| Output.SourceUrlOfLink | src/morgen/output.py:200-203 | a task linked to its original gets that link's `href`; an empty `original` or empty `links` gives none |
| Output.TaskSourceOf | src/morgen/output.py:196-198 | the source is the integration id, "morgen" by default |
| Output.WithSource | src/morgen/output.py:198-219 | the five source fields are set; every other key reads as before |
| Output.EnrichTasks | src/morgen/output.py:179-222 | one enriched copy per task, in order; it raises exactly when some task's enrichment raises |
| Output.NativeTaskSource | src/morgen/output.py:194-219 | a plain native task gets source "morgen" and no url, id, status or tag names |
| Output.Pick | src/morgen/output.py:76-77 | the picked entries are exactly the dict's entries with listed keys |
| Output.PickGet | src/morgen/output.py:76-77 | a listed key reads as before, an unlisted key is gone |
| Output.PickIdempotent | src/morgen/output.py:76-77 | picking twice is picking once |
| Output.PickJson | src/morgen/output.py:68-72 | picking succeeds exactly on a dict |
| Output.SelectFields | src/morgen/output.py:64-73 | a scalar passes through; a dict without `results` is picked; a `results` envelope keeps its other keys and its `results` become the picked items, one per item in order; a list becomes its picked items in order; it succeeds exactly when every item picked is a dict |
| Output.PickAllIdempotent | src/morgen/output.py:71-72 | picking every item twice is picking once |
| Output.SelectFieldsIdempotent | src/morgen/output.py:64-73 | selecting the same fields again changes nothing |
| Output.TruncateIds | src/morgen/output.py:87-109 | scalars pass through; lists and dicts keep their shape and keys |
| Output.TruncateIdsIdempotent | src/morgen/output.py:87-109 | shortening twice is shortening once |
| Output.TruncatedIdsAreShort | src/morgen/output.py:87-109 | afterwards no id at any depth is longer than the limit |
| Cli.CutOffset | src/guten_morgen/cli.py:631-632 | the cut is a prefix of the value, and the whole value when there is no `+` from index 10 on |
| Cli.NormalizeDue | src/guten_morgen/cli.py:620-637 | the result never exceeds 19 characters |
| Cli.NormalizeEarliestStart | src/guten_morgen/cli.py:640-651 | the result never exceeds 19 characters |
| Cli.EarliestPlain | src/guten_morgen/cli.py:640-651 | a bare date or full local timestamp, with or without a trailing `Z`, becomes the timestamp, a bare date at 00:00:00 |
| Cli.EarliestOffset | src/guten_morgen/cli.py:640-651 | a bare date or full local timestamp with a `+hh:mm` offset loses the offset whether or not a `Z` follows, the two being dropped independently; a bare date then gets 00:00:00 |
| Cli.DueDateOnly | src/guten_morgen/cli.py:634-635 | a bare date is due at 23:59:59 that day |
| Cli.DueUtc | src/guten_morgen/cli.py:629-630 | a UTC timestamp loses its `Z` |
| Cli.DueOffset | src/guten_morgen/cli.py:631-632 | a `+hh:mm` offset is dropped |
| Cli.DueUnchanged | src/guten_morgen/cli.py:620-637 | a complete local timestamp is unchanged |
| Cli.NormalizeDueIdempotent | src/guten_morgen/cli.py:620-637 | normalising twice is normalising once |
| Cli.OffsetBeforeZ | src/guten_morgen/cli.py:629-651 | the two normalisers part on a bare date with an offset and a `Z`: only the second removes the offset |
| Cli.FrameEventOfModel | src/guten_morgen/cli.py:600-603 | for `IsFrameEvent`, a validated event is a frame exactly when its metadata has `frameFilterMql` |
| Cli.IsWritable | src/guten_morgen/cli.py:611-617 | a rights dict decides by `mayWriteAll` or `mayWriteOwn`; otherwise `writable` decides |
| Cli.WritableOfModel | src/guten_morgen/cli.py:611-617 | without rights, a validated calendar is writable exactly when `writable` is true |
| Cli.FilterKwargs | src/guten_morgen/cli.py:117-126 | each keyword is passed exactly when the filter has that restriction |
| Cli.FilterKwargsRoundTrip | src/guten_morgen/cli.py:117-126 | the keywords carry the filter unchanged to `list_all_events` |
| Cli.TableSpec | src/guten_morgen/cli.py:656-657 | a name table holds a key exactly when some entry has it, with the last such entry's value |
| Cli.ResolveTagNamesSpec | src/guten_morgen/cli.py:654-658 | a name resolves to the id of the last tag with that name, ignoring ASCII case, and to nothing when no tag has it |
| Cli.ResolveTagNames | src/guten_morgen/cli.py:654-658 | at most one id per name; when every name is known, one id per name in the order asked, each the table's id for the lower-cased name |
| Cli.ResolveTagNamesConcat | src/guten_morgen/cli.py:654-658 | resolving a concatenation concatenates the results, so with `ResolveTagNamesSpec` unknown names are dropped and the rest kept in the order asked |
| Cli.ResolveTagNamesIgnoresCase | src/guten_morgen/cli.py:654-658 | resolving lower-cased names gives the same ids |
| Cli.ResolveListName | src/guten_morgen/cli.py:661-670 | a known name resolves to its list's id; an unknown one raises naming the available lists |
| Cli.ChosenAccount | src/guten_morgen/cli.py:684-686 | the first calendar-capable account, or the first account when there is none |
| Cli.AutoDiscover | src/guten_morgen/cli.py:673-699 | no accounts raises; otherwise it succeeds exactly when the chosen account owns a calendar, returning only that account's calendars, writable ones when there are any |
| Cli.DiscoveredIds | src/guten_morgen/cli.py:690-697 | the returned ids name the account's writable calendars, or all its calendars when none is writable |
| Cli.WithOverdue | src/guten_morgen/cli.py:1063-1066 | `--overdue` replaces the due-before bound with now |
| Cli.KeepIffSatisfies | src/guten_morgen/cli.py:1069-1103 | for `Keep`, the loop keeps a task exactly when it meets status, strict day bounds, a due date when bounded, priority, tag and list |
| Cli.FilterTasks | src/guten_morgen/cli.py:1068-1103 | the kept tasks are exactly those meeting the filter, in input order |
| Cli.OverdueTasksAreLate | src/guten_morgen/cli.py:1063-1080 | with `--overdue` every kept task is due on a day before today |
| Cli.TagIdFilter | src/guten_morgen/cli.py:1044-1050 | the tag filter is the non-empty ids some name resolves to |
| Cli.BucketsFollowDays | src/guten_morgen/cli.py:1665-1675 | for `BucketOf` and a proper range, a dated task is overdue exactly before the start day and outside exactly after the end day |
| Cli.Buckets | src/guten_morgen/cli.py:1661-1677 | the three lists keep input order; unscheduled is exactly the undated tasks; no task is in two lists |
| Cli.BucketsDisjoint | src/guten_morgen/cli.py:1667-1677 | a task lands in at most one bucket |
| Cli.SortByStart | src/guten_morgen/cli.py:1573 | ordered by start, a permutation of the input, and stable: the events with any one start keep their input order |
| Cli.SortTiesExample | src/guten_morgen/cli.py:1573 | two events with the same start stay in input order |
| Cli.Upcoming | src/guten_morgen/cli.py:1567-1575 | only events starting now or later, without frames if asked, ordered by start; with a count, the Python slice `[:count]` of the sorted shown events, so `min(count, shown)` of them for a non-negative count; without one, all of them |
| Cli.Shown | src/guten_morgen/cli.py:1567-1572 | an event is shown exactly when it is listed, starts at or after now's first 19 characters, and is not a frame when frames are excluded |
| Cli.ShownPermutation | src/guten_morgen/cli.py:1567-1572 | permuting the listing permutes the events shown |
| Cli.UpcomingIgnoresInputOrder | src/guten_morgen/cli.py:1567-1575 | with distinct start keys, the order of the listing does not change what `next` shows |
| TimeUtils.FormatDurationHuman | src/guten_morgen/time_utils.py:83-91 | below an hour (negatives included) the minutes with `m`; whole hours as `<h>h`; otherwise `<h>h<m>m` with a remainder between 1 and 59 |
| TimeUtils.FormatShapes | src/guten_morgen/time_utils.py:83-91 | built from hours and a remainder below 60: `<m>m`, `<h>h` or `<h>h<m>m` |
| TimeUtils.ParseFormat | src/guten_morgen/time_utils.py:83-91 | the display reads back to the minutes it was made from, negatives included |
| TimeUtils.FormatInjective | src/guten_morgen/time_utils.py:83-91 | distinct durations display differently |
| Text.LowerIdempotent | src/guten_morgen/cli.py:656-657 | lower-casing twice is lower-casing once |
| Text.SortPermutationInvariant | src/morgen/groups.py:99 | `sorted` depends only on the elements, not their order |
| Text.Sort | src/morgen/groups.py:99 | `sorted`: an ordered permutation of the input |
| Seqs.FilterConcat | src/guten_morgen/cli.py:1068-1103 | filtering distributes over concatenation |
| Seqs.FilterIdempotent | src/guten_morgen/cli.py:1068-1103 | filtering twice is filtering once |
| Seqs.MapAll | src/guten_morgen/client.py:33-47 | mapping a raising function succeeds exactly when it succeeds on every item, with one result per item in order; a failure is the error of the first failing item, every earlier item succeeding |

## Left out

- `render`, `format_json`, `format_jsonl`, `format_csv_str`, `format_table` and `apply_jq` in `src/morgen/output.py`: text rendering and the foreign `jq` library.
- The rest of `src/guten_morgen/cli.py`: Click command plumbing, config/auth loading, retries and markup. Only the pure helpers and the filter, bucket and `next` steps are modelled.
- The fetch in `tasks list` (`src/guten_morgen/cli.py:1035`): it passes `updated_after` to `list_all_tasks`, whose keyword-only parameters (`src/guten_morgen/client.py:268-273`) are `source` and `limit` alone, so as written that call raises `TypeError`. The model's `Client.ListAllTasks` takes `source` and `limit`, and `Cli.FilterTasks` takes the task list as input.
- Free-slot computation (`compute_free_slots`) is not part of this model.
- `end_of_next_day`, `today_range`, `this_week_range`, `this_month_range` and `get_local_timezone`: clock and local time zone. The clock is the explicit `now`/`nowIso` and the local zone the explicit `localTz`.
- The clock inside one client operation: `Client.Ctx` carries one instant per operation, while the cache reads `time.time()` at every `get` and `set` (`src/morgen/cache.py:50`, `:61`). So an entry cannot expire between two reads of one fan-out in the model.
- `guten_morgen/cache.py` and `guten_morgen/output.py` are not part of this model. The `src/morgen` versions are modelled instead, so `enrich_tasks` has no `task_lists` argument and no `list_name` field.
- `list_task_lists`: its listing is taken as an input of `Cli.ResolveListName`.
- I/O: the network is the `Origin` function from request to response. Disk reads and writes are the explicit `Store`. `close`, stderr and `sys.exit` are left out; `Errors.OutputError` returns the payload and the exit code instead.
- Http.SendSucceeds: errors raised by the transport itself (a time-out after `settings.timeout`, a connection failure) are not modelled; `Origin` always answers with a status. In Python such an error is not a `MorgenError`, escapes the command, and aborts a fan-out after the earlier accounts' cache writes.
- Floating-point numbers are not modelled: JSON numbers are integers.
- Concurrency between processes sharing a cache directory is not modelled.
- Hashing: MD5 (event cache keys) and SHA-256 (`truncate_ids`) are function parameters, not implementations.
- Pydantic: validation is modelled for the fields the core reads. Coercion (a number given as a string, say) is not modelled, and extra fields are ignored as the models configure.
- Cache.KeyStatsOf: ages are whole seconds. The rounding of `round(age, 1)` over float timestamps is not modelled.
- Text.Lower: lower-cases ASCII letters only. Python's `str.lower` also folds other scripts.
- Output.TagTableSpec: ids are keys of any JSON type, with `True`/`False` merged into `1`/`0` as Python hashes them. Python raises `TypeError` on a list or dict id (unhashable); `Output.TagTable` does not model that.
- Output.FindValue: Python's `==` is modelled on scalars (`True == 1`, `False == 0`). A list or dict value is compared structurally, so a nested `True` against `1`, or two dicts differing only in key order, count as different here though Python finds them equal.
- Output.TruncateIds: the contract states only the shape. Its meaning is given by `TruncateIdsIdempotent` and `TruncatedIdsAreShort`.
- Client.ExternalTasks: the contract states only which requests are sent. The gathered values are stated by `FetchTasksGathers` and `ValidateRawSpec`.
- Client.ListAllTasks: no contract of its own. Its request and result properties are stated by `NativeRequestedIffNativeSource`, `FetchTasksRequests` and `FetchTasksGathers`.
- Client.ListTaskAccounts: the contract states only the request. The cache and filter behaviour is in `TaskAccountsSpec`.
- Cli.UpcomingIgnoresInputOrder: requires distinct start keys. The sort is stable (`Cli.SortByStart`, `Cli.SortTiesExample`), so with ties the input order does matter.
- Cli.NormalizeDueIdempotent: stated only for values without `Z` or `+`. A date with an offset and a trailing `Z` (see `Cli.OffsetBeforeZ`) is not idempotent.
- Cli.Upcoming: a missing start compares as "". `next` sorts by the dumped `start` key, which is present on every dumped event.
- Cli.FilterTasks: filters validated `Task` records rather than enriched dicts. The fields it reads (`progress`, `due`, `priority`, `tags`, `taskListId`) are the same.
- Text.ParseNat: total, but meaningful only on strings of digits. It is the reference reader behind `TimeUtils.ParseFormat`.
- Cache.Open: only a missing index file or one that is not valid JSON opens empty. A read error (permissions, invalid UTF-8) raises in Python and is not modelled; nor is an index that is valid JSON of the wrong shape, which Python keeps and trips over later.
- Cache.Get: a payload file that cannot be read (permissions, invalid UTF-8) raises in Python; the model has only missing and not-valid-JSON payloads, which both miss.
- Per-account task failures: the source propagates them (see `Client.TaskFailurePropagates`); they are not isolated per account.

=== FILE: cache.dfy ===
/** The file-backed TTL cache. A store is its metadata index (key ->
    stored-at time and TTL, the `_meta.json` file) together with the payload
    files of its directory, addressed by a file name derived from the key.
    The clock is an explicit `now` (whole seconds). */
module Cache {
  import opened Wrappers
  import opened Json
  import Text

  // TTL policy, in seconds.
  const TtlAccounts: nat := 604800     // 7 days
  const TtlCalendars: nat := 604800    // 7 days
  const TtlTags: nat := 86400          // 24 hours
  const TtlEvents: nat := 1800         // 30 minutes
  const TtlTasks: nat := 1800          // 30 minutes
  const TtlSingle: nat := 300          // 5 minutes (get by id)
  const TtlTaskAccounts: nat := 604800 // 7 days

  /** One record of the metadata index. */
  datatype Entry = Entry(ts: int, ttl: int)

  /** A payload file: what `json.loads` makes of it (`None` when it is not
      valid JSON) and its size in bytes. */
  datatype Blob = Blob(content: Option<Json>, size: nat)

  datatype Store = Store(meta: map<string, Entry>, files: map<string, Blob>)

  /** The payload file of a key: `/` becomes `--`, plus the `.json` suffix. */
  function FileName(key: string): (r: string)
    ensures '/' !in r
    ensures '/' !in key ==> r == key + ".json"
  {
    Text.ReplaceChar(key, '/', "--") + ".json"
  }

  /** Two different keys can share one payload file. */
  lemma FileNameNotInjective()
    ensures "a/b" != "a--b" && FileName("a/b") == FileName("a--b")
  {
    assert Text.ReplaceChar("a/b", '/', "--") == "a--b";
  }

  /** Opening a store: an index file that is missing or is not valid JSON
      is an empty index; a readable index is taken as it is. */
  function Open(index: Option<map<string, Entry>>, files: map<string, Blob>): (s: Store)
    ensures index.None? ==> s.meta == map[]
    ensures index.Some? ==> s.meta == index.value
    ensures s.files == files
  {
    Store(if index.Some? then index.value else map[], files)
  }

  /** An entry is expired once `now` is strictly past `ts + ttl`. */
  predicate Expired(e: Entry, now: int) {
    now > e.ts + e.ttl
  }

  /** `get(key)`: the stored payload if the key is indexed, not expired, and its
      file exists and decodes; otherwise `None` (a JSON `null`). Reading never
      changes the store. */
  function Get(s: Store, key: string, now: int): (r: Json)
    ensures key !in s.meta ==> r == JNull
    ensures key in s.meta && Expired(s.meta[key], now) ==> r == JNull
    ensures (FileName(key) !in s.files || s.files[FileName(key)].content.None?) ==> r == JNull
    ensures r != JNull ==>
      (key in s.meta && !Expired(s.meta[key], now)
       && FileName(key) in s.files && s.files[FileName(key)].content == Some(r))
  {
    if key !in s.meta then JNull
    else if Expired(s.meta[key], now) then JNull
    else
      var name := FileName(key);
      if name !in s.files then JNull
      else match s.files[name].content
        case None => JNull
        case Some(j) => j
  }

  /** `set(key, data, ttl)`: writes the payload file, then records
      `(now, ttl)` in the index. */
  function Set(s: Store, key: string, data: Json, ttl: int, now: int): (s': Store)
    ensures s'.meta == s.meta[key := Entry(now, ttl)]
    ensures s'.files == s.files[FileName(key) := Blob(Some(data), Utf8Length(Encode(data)))]
  {
    Store(s.meta[key := Entry(now, ttl)],
          s.files[FileName(key) := Blob(Some(data), Utf8Length(Encode(data)))])
  }

  /** The keys `invalidate(prefix)` removes: the prefix itself and everything
      below it in the `/` hierarchy. */
  predicate Under(key: string, prefix: string) {
    key == prefix || Text.StartsWith(key, prefix + "/")
  }

  /** The outcome of `invalidate`: the new store and whether the index was
      written back. */
  datatype Invalidation = Invalidation(store: Store, saved: bool)

  /** `invalidate(prefix)`: drops every index entry under `prefix` and unlinks
      its payload file; the index is saved only when something was removed. */
  function Invalidate(s: Store, prefix: string): (r: Invalidation)
    ensures forall k :: k in r.store.meta <==> k in s.meta && !Under(k, prefix)
    ensures forall k :: k in r.store.meta ==> r.store.meta[k] == s.meta[k]
    ensures forall f :: f in r.store.files <==>
      f in s.files && !(exists k :: k in s.meta && Under(k, prefix) && FileName(k) == f)
    ensures forall f :: f in r.store.files ==> r.store.files[f] == s.files[f]
    ensures r.saved <==> exists k :: k in s.meta && Under(k, prefix)
    ensures !r.saved ==> r.store == s
  {
    var removed := set k | k in s.meta && Under(k, prefix);
    var names := set k | k in removed :: FileName(k);
    var s' := Store(map k | k in s.meta && k !in removed :: s.meta[k],
                    map f | f in s.files && f !in names :: s.files[f]);
    if removed == {} then
      assert s'.meta == s.meta;
      assert s'.files == s.files;
      Invalidation(s, false)
    else
      Invalidation(s', true)
  }

  /** `clear()`: unlinks the payload file of every indexed key and empties the
      index. Files that no indexed key names are left alone. */
  function Clear(s: Store): (s': Store)
    ensures s'.meta == map[]
    ensures forall f :: f in s'.files <==> f in s.files && !(exists k :: k in s.meta && FileName(k) == f)
    ensures forall f :: f in s'.files ==> s'.files[f] == s.files[f]
  {
    var names := set k | k in s.meta :: FileName(k);
    Store(map[], map f | f in s.files && f !in names :: s.files[f])
  }

  /** The per-key part of `stats()`. */
  datatype KeyStats = KeyStats(ageSeconds: int, ttl: int, remainingSeconds: int, expired: bool, sizeBytes: nat)

  datatype Stats = Stats(entries: nat, cacheDir: string, keys: map<string, KeyStats>)

  function KeyStatsOf(s: Store, key: string, now: int): (r: KeyStats)
    requires key in s.meta
    ensures r.ageSeconds == now - s.meta[key].ts
    ensures r.ttl == s.meta[key].ttl
    ensures r.remainingSeconds >= 0
    ensures r.remainingSeconds == if s.meta[key].ttl - r.ageSeconds > 0 then s.meta[key].ttl - r.ageSeconds else 0
    ensures r.expired <==> s.meta[key].ttl - r.ageSeconds <= 0
    ensures r.sizeBytes == if FileName(key) in s.files then s.files[FileName(key)].size else 0
  {
    var e := s.meta[key];
    var age := now - e.ts;
    var remaining := e.ttl - age;
    var name := FileName(key);
    KeyStats(age, e.ttl, if remaining > 0 then remaining else 0, remaining <= 0,
             if name in s.files then s.files[name].size else 0)
  }

  /** `stats()`: one record per indexed key. */
  function StatsOf(s: Store, dir: string, now: int): (r: Stats)
    ensures r.entries == |s.meta|
    ensures r.keys.Keys == s.meta.Keys
    ensures r.cacheDir == dir
    ensures forall k :: k in r.keys ==> r.keys[k] == KeyStatsOf(s, k, now)
  {
    var keys := map k | k in s.meta :: KeyStatsOf(s, k, now);
    assert keys.Keys == s.meta.Keys;
    Stats(|keys|, dir, keys)
  }

  // ----- Properties -----

  /** Round trip: within its TTL, a key reads back the payload last stored
      under it (a stored `null` reads back as `null`, which callers cannot
      tell from a miss). */
  lemma SetThenGet(s: Store, key: string, data: Json, ttl: int, t: int, now: int)
    requires now <= t + ttl
    ensures Get(Set(s, key, data, ttl, t), key, now) == data
  {
  }

  /** Expiry: once `now` is past `t + ttl`, the key reads as a miss. */
  lemma SetThenGetExpired(s: Store, key: string, data: Json, ttl: int, t: int, now: int)
    requires now > t + ttl
    ensures Get(Set(s, key, data, ttl, t), key, now) == JNull
  {
  }

  /** A second `set` on the same key overwrites payload, time and TTL. */
  lemma SetOverwrites(s: Store, key: string, d1: Json, ttl1: int, t1: int, d2: Json, ttl2: int, t2: int, now: int)
    requires now <= t2 + ttl2
    ensures var s2 := Set(Set(s, key, d1, ttl1, t1), key, d2, ttl2, t2);
      s2.meta[key] == Entry(t2, ttl2) && Get(s2, key, now) == d2
  {
  }

  /** A `set` under one key is visible under every other key that shares its
      payload file, as long as that key's index entry is fresh. */
  lemma SharedFileAliases(s: Store, k1: string, k2: string, data: Json, ttl: int, t: int, now: int)
    requires FileName(k1) == FileName(k2) && k1 != k2
    requires k2 in s.meta && !Expired(s.meta[k2], now)
    ensures Get(Set(s, k1, data, ttl, t), k2, now) == data
  {
  }

  /** `invalidate` with nothing under the prefix changes nothing and does not
      write the index. */
  lemma InvalidateNoMatch(s: Store, prefix: string)
    requires forall k :: k in s.meta ==> !Under(k, prefix)
    ensures Invalidate(s, prefix) == Invalidation(s, false)
  {
  }

  /** Every removed key reads as a miss afterwards; every surviving key whose
      payload file is not shared with a removed key reads as before. */
  lemma InvalidateThenGet(s: Store, prefix: string, key: string, now: int)
    ensures Under(key, prefix) ==> Get(Invalidate(s, prefix).store, key, now) == JNull
    ensures !Under(key, prefix)
      && (forall k :: k in s.meta && Under(k, prefix) ==> FileName(k) != FileName(key))
      ==> Get(Invalidate(s, prefix).store, key, now) == Get(s, key, now)
  {
  }

  /** `invalidate(prefix)` follows the `/`-separated hierarchy, not the raw
      string prefix: a key that continues the prefix with any character
      other than `/` survives, while every key below `prefix/` goes. */
  lemma {:induction false} InvalidateIsHierarchical(s: Store, prefix: string, ch: char, rest: string, below: string)
    requires ch != '/'
    requires prefix + [ch] + rest in s.meta
    ensures prefix + [ch] + rest in Invalidate(s, prefix).store.meta
    ensures prefix + "/" + below !in Invalidate(s, prefix).store.meta
  {
    var key := prefix + [ch] + rest;
    assert key[|prefix|] == ch;
    assert |key| > |prefix|;
    assert !Text.StartsWith(key, prefix + "/") by {
      if |prefix + "/"| <= |key| {
        assert (prefix + "/")[|prefix|] == '/';
      }
    }
    assert Text.StartsWith(prefix + "/" + below, prefix + "/");
  }

  /** The instance the source's keys meet: `invalidate("tasks")` keeps
      `task_accounts` and drops `tasks/list`. */
  lemma TaskAccountsSurviveTasks(s: Store)
    requires "task_accounts" in s.meta
    ensures "task_accounts" in Invalidate(s, "tasks").store.meta
    ensures "tasks/list" !in Invalidate(s, "tasks").store.meta
  {
    assert "task_accounts" == "task" + ['_'] + "accounts";
    assert "tasks/list" == "tasks" + "/" + "list";
    assert "task_accounts" != "tasks";
    assert "task_accounts"[4] != "tasks/"[4];
  }

  /** Because payload files can be shared, `invalidate` can also drop the
      payload of a key it keeps: `a--b` survives `invalidate("a")` in the
      index but its file, shared with `a/b`, is gone. */
  lemma InvalidateCanOrphanSurvivor(s: Store, now: int)
    requires "a/b" in s.meta && "a--b" in s.meta
    ensures "a--b" in Invalidate(s, "a").store.meta
    ensures Get(Invalidate(s, "a").store, "a--b", now) == JNull
  {
    FileNameNotInjective();
    assert Under("a/b", "a");
    assert !Under("a--b", "a");
  }

  /** After `clear()`, the index is empty and every key misses. */
  lemma ClearThenGet(s: Store, key: string, now: int)
    ensures Clear(s).meta == map[]
    ensures Get(Clear(s), key, now) == JNull
  {
  }

  /** At exactly `now == ts + ttl`, `stats` already reports the entry as
      expired while `get` still returns its payload. */
  lemma StatsExpiredBeforeGetMisses(s: Store, key: string, data: Json, ttl: int, t: int)
    requires data != JNull
    ensures var s' := Set(s, key, data, ttl, t);
      KeyStatsOf(s', key, t + ttl).expired && Get(s', key, t + ttl) == data
  {
  }
}

=== FILE: cli.dfy ===
/** The pure helpers of the current command-line tool: date normalisation,
    calendar rights, account and calendar discovery, name resolution, the
    task-list filter, the due-date buckets of the combined views, and the
    choice of upcoming events. The client calls these helpers make (listing
    accounts, calendars, tags and task lists) are their inputs here. */
module Cli {
  import opened Wrappers
  import opened Json
  import opened Errors
  import opened Models
  import Text
  import Seqs
  import L = LegacyGroups

  // ----- Date normalisation -----

  /** The value cut at the first `+` at or after index 10, when there is
      one (a `+hh:mm` offset). */
  function CutOffset(s: string): (r: string)
    ensures r <= s
    ensures '+' !in s[Min(10, |s|)..] ==> r == s
  {
    match Text.IndexFrom(s, '+', 10)
    case Some(i) => s[..i]
    case None =>
      assert '+' !in s[Min(10, |s|)..] by {
        forall j | Min(10, |s|) <= j < |s| ensures s[j] != '+' { }
      }
      s
  }

  function Min(a: int, b: int): int {
    if a < b then a else b
  }

  /** `_normalize_due(due)`: drop a trailing `Z`, or else an offset; a bare
      date gets the end of the day; then keep at most 19 characters. */
  function NormalizeDue(due: string): (r: string)
    ensures |r| <= 19
  {
    var stripped := if Text.EndsWith(due, "Z") then Text.Prefix(due, -1) else CutOffset(due);
    var full := if |stripped| == 10 then stripped + "T23:59:59" else stripped;
    Text.Prefix(full, 19)
  }

  /** `_normalize_earliest_start(val)`: as `NormalizeDue`, but the `Z` and
      the offset are dropped independently and a bare date gets midnight. */
  function NormalizeEarliestStart(val: string): (r: string)
    ensures |r| <= 19
  {
    var noZ := if Text.EndsWith(val, "Z") then Text.Prefix(val, -1) else val;
    var stripped := CutOffset(noZ);
    var full := if |stripped| == 10 then stripped + "T00:00:00" else stripped;
    Text.Prefix(full, 19)
  }

  /** A bare date `YYYY-MM-DD` is due at the end of that day. */
  lemma DueDateOnly(date: string)
    requires |date| == 10 && !Text.EndsWith(date, "Z")
    ensures NormalizeDue(date) == date + "T23:59:59"
  {
    assert date[Min(10, |date|)..] == [];
  }

  /** A UTC timestamp loses its `Z`. */
  lemma DueUtc(stamp: string)
    requires |stamp| == 19
    ensures NormalizeDue(stamp + "Z") == stamp
  {
    assert Text.EndsWith(stamp + "Z", "Z");
    assert Text.Prefix(stamp + "Z", -1) == stamp;
  }

  /** A timestamp with a `+hh:mm` offset loses the offset. */
  lemma DueOffset(stamp: string, offset: string)
    requires |stamp| == 19 && '+' !in stamp[10..]
    requires |offset| > 0 && offset[0] == '+' && !Text.EndsWith(offset, "Z")
    ensures NormalizeDue(stamp + offset) == stamp
  {
    var s := stamp + offset;
    assert !Text.EndsWith(s, "Z") by {
      assert s[|s| - 1] == offset[|offset| - 1];
      assert offset[|offset| - 1..] == s[|s| - 1..];
    }
    forall j | 10 <= j < 19 ensures s[j] != '+' {
      assert s[j] == stamp[10..][j - 10];
    }
    assert s[19] == '+';
    assert Text.IndexFrom(s, '+', 10) == Some(19);
    assert s[..19] == stamp;
  }

  /** A complete local timestamp passes through unchanged. */
  lemma DueUnchanged(stamp: string)
    requires |stamp| == 19 && !Text.EndsWith(stamp, "Z") && '+' !in stamp[10..]
    ensures NormalizeDue(stamp) == stamp
  {
  }

  /** A value with neither `Z` nor `+` normalises to itself the second
      time. */
  lemma NormalizeDueIdempotent(due: string)
    requires 'Z' !in due && '+' !in due
    ensures NormalizeDue(NormalizeDue(due)) == NormalizeDue(due)
  {
    assert !Text.EndsWith(due, "Z") by {
      if |due| > 0 { assert due[|due| - 1] in due; }
    }
    assert CutOffset(due) == due by {
      assert '+' !in due[Min(10, |due|)..] by {
        forall j | Min(10, |due|) <= j < |due| ensures due[j] != '+' {
          assert due[j] in due;
        }
      }
    }
    var r := NormalizeDue(due);
    var full := if |due| == 10 then due + "T23:59:59" else due;
    assert r == Text.Prefix(full, 19);
    assert 'Z' !in r && '+' !in r by {
      forall c | c in r ensures c != 'Z' && c != '+' {
        assert c in full;
        if |due| == 10 {
          assert c in due || c in "T23:59:59";
        }
      }
    }
    assert !Text.EndsWith(r, "Z") by {
      if |r| > 0 { assert r[|r| - 1] in r; }
    }
    assert CutOffset(r) == r by {
      assert '+' !in r[Min(10, |r|)..] by {
        forall j | Min(10, |r|) <= j < |r| ensures r[j] != '+' {
          assert r[j] in r;
        }
      }
    }
    assert |r| != 10;
  }

  /** A bare date or a full local timestamp, with or without a trailing
      `Z`, normalises to the timestamp, a bare date at midnight. */
  lemma EarliestPlain(stamp: string, zulu: bool)
    requires |stamp| == 10 || |stamp| == 19
    requires '+' !in stamp[10..] && !Text.EndsWith(stamp, "Z")
    ensures NormalizeEarliestStart(stamp + (if zulu then "Z" else "")) ==
      if |stamp| == 10 then stamp + "T00:00:00" else stamp
  {
    var v := stamp + (if zulu then "Z" else "");
    if zulu {
      assert Text.EndsWith(v, "Z");
      assert Text.Prefix(v, -1) == stamp;
    } else {
      assert v == stamp;
    }
    assert CutOffset(stamp) == stamp by {
      forall j | Min(10, |stamp|) <= j < |stamp| ensures stamp[j] != '+' {
        assert stamp[j] == stamp[10..][j - 10];
      }
    }
  }

  /** A bare date or a full local timestamp followed by a `+hh:mm` offset,
      with or without a trailing `Z`, loses the offset and the `Z`; a bare
      date then gets midnight. */
  lemma EarliestOffset(stamp: string, offset: string, zulu: bool)
    requires |stamp| == 10 || |stamp| == 19
    requires '+' !in stamp[10..]
    requires |offset| > 0 && offset[0] == '+' && !Text.EndsWith(offset, "Z")
    ensures NormalizeEarliestStart(stamp + offset + (if zulu then "Z" else "")) ==
      if |stamp| == 10 then stamp + "T00:00:00" else stamp
  {
    var t := stamp + offset;
    var v := t + (if zulu then "Z" else "");
    if zulu {
      assert Text.EndsWith(v, "Z");
      assert Text.Prefix(v, -1) == t;
    } else {
      assert v == t;
      assert !Text.EndsWith(t, "Z") by {
        assert t[|t| - 1] == offset[|offset| - 1];
        assert offset[|offset| - 1..] == t[|t| - 1..];
      }
    }
    forall j | 10 <= j < |stamp| ensures t[j] != '+' {
      assert t[j] == stamp[10..][j - 10];
    }
    assert t[|stamp|] == '+';
    assert Text.IndexFrom(t, '+', 10) == Some(|stamp|);
    assert t[..|stamp|] == stamp;
  }

  /** The two normalisers part on a bare date carrying both an offset and
      a trailing `Z`: the `elif` in `_normalize_due` keeps the offset, the
      earliest-start normaliser drops both. */
  lemma OffsetBeforeZ(date: string, offset: string)
    requires |date| == 10 && '+' !in date
    requires 0 < |offset| <= 9 && offset[0] == '+'
    ensures NormalizeDue(date + offset + "Z") == date + offset
    ensures NormalizeEarliestStart(date + offset + "Z") == date + "T00:00:00"
  {
    var s := date + offset + "Z";
    assert Text.EndsWith(s, "Z");
    assert Text.Prefix(s, -1) == date + offset;
    var t := date + offset;
    forall j | 0 <= j < 10 ensures t[j] != '+' {
      assert t[j] in date;
    }
    assert t[10] == '+';
    assert Text.IndexFrom(t, '+', 10) == Some(10);
    assert t[..10] == date;
  }

  // ----- Calendar rights and frames -----

  /** `_is_frame_event(event)`: a Morgen time-blocking frame. */
  predicate IsFrameEvent(event: Fields) {
    var meta := GetOr(event, MetadataAlias, JNull);
    meta.JObj? && Has(meta.fields, "frameFilterMql")
  }

  /** A validated event is a frame exactly when its metadata names a frame
      filter. */
  lemma FrameEventOfModel(e: Event)
    ensures IsFrameEvent(EventToJson(e).fields) <==> e.metadata.Some? && Has(e.metadata.value, "frameFilterMql")
  {
    var f := EventToJson(e).fields;
    GetAt(f, 8, MetadataAlias);
  }

  /** A right granted in a `myRights` dict. */
  predicate MayWrite(rights: Fields, right: string) {
    Truthy(GetOr(rights, right, JNull))
  }

  /** `_is_writable(cal)`: a `myRights` dict decides when there is one, the
      older `writable` flag otherwise. */
  function IsWritable(cal: Fields): (r: bool)
    ensures var rights := GetOr(cal, "myRights", JNull);
      rights.JObj? ==> (r <==> MayWrite(rights.fields, "mayWriteAll") || MayWrite(rights.fields, "mayWriteOwn"))
    ensures !GetOr(cal, "myRights", JNull).JObj? ==> (r <==> Truthy(GetOr(cal, "writable", JNull)))
  {
    var rights := GetOr(cal, "myRights", JNull);
    if rights.JObj? then Truthy(Or(GetOr(rights.fields, "mayWriteAll", JNull), GetOr(rights.fields, "mayWriteOwn", JNull)))
    else Truthy(GetOr(cal, "writable", JNull))
  }

  /** For a validated calendar: without a rights dict, only `writable:
      true` makes it writable; an unset flag does not. */
  lemma WritableOfModel(c: Calendar)
    requires !c.myRights.JObj?
    ensures IsWritable(CalendarToJson(c).fields) <==> c.writable == Some(true)
  {
    var f := CalendarToJson(c).fields;
    GetAt(f, 6, "myRights");
    GetAt(f, 4, "writable");
  }

  // ----- Filter keywords -----

  /** A keyword argument's value. */
  datatype Kwarg = Strs(strs: seq<string>) | Flag(flag: bool)

  /** `_filter_kwargs(cf)`: only the restrictions the filter actually has
      are passed, so the client's defaults apply to the rest. */
  function FilterKwargs(cf: L.CalendarFilter): (r: seq<(string, Kwarg)>)
    ensures "account_keys" in Keys(r) <==> cf.accountKeys.Some?
    ensures "calendar_names" in Keys(r) <==> cf.calendarNames.Some?
    ensures "active_only" in Keys(r) <==> cf.activeOnly
  {
    var a: seq<(string, Kwarg)> := if cf.accountKeys.Some? then [("account_keys", Strs(cf.accountKeys.value))] else [];
    var b: seq<(string, Kwarg)> := if cf.calendarNames.Some? then [("calendar_names", Strs(cf.calendarNames.value))] else [];
    var c: seq<(string, Kwarg)> := if cf.activeOnly then [("active_only", Flag(true))] else [];
    assert Keys(a) == if cf.accountKeys.Some? then ["account_keys"] else [];
    assert Keys(b) == if cf.calendarNames.Some? then ["calendar_names"] else [];
    assert Keys(c) == if cf.activeOnly then ["active_only"] else [];
    assert Keys(a + b + c) == Keys(a) + Keys(b) + Keys(c);
    a + b + c
  }

  /** The value of keyword `name`, if passed. */
  function Lookup(kw: seq<(string, Kwarg)>, name: string): (r: Option<Kwarg>)
    ensures r.Some? <==> name in Keys(kw)
  {
    if |kw| == 0 then None
    else if kw[0].0 == name then Some(kw[0].1)
    else
      var rest := Lookup(kw[1..], name);
      assert name in Keys(kw) <==> name in Keys(kw[1..]) by {
        assert Keys(kw) == [kw[0].0] + Keys(kw[1..]);
      }
      rest
  }

  /** The filter `list_all_events` sees: its parameters after the keyword
      arguments and its defaults (`None`, `None`, `False`). */
  function ReceivedFilter(kw: seq<(string, Kwarg)>): L.CalendarFilter {
    var keys := Lookup(kw, "account_keys");
    var names := Lookup(kw, "calendar_names");
    var active := Lookup(kw, "active_only");
    L.CalendarFilter(
      if keys.Some? && keys.value.Strs? then Some(keys.value.strs) else None,
      if names.Some? && names.value.Strs? then Some(names.value.strs) else None,
      active.Some? && active.value.Flag? && active.value.flag)
  }

  /** The keyword arguments carry the resolved filter over unchanged. */
  lemma FilterKwargsRoundTrip(cf: L.CalendarFilter)
    ensures ReceivedFilter(FilterKwargs(cf)) == cf
  {
    KwargsCarryKeys(cf);
    KwargsCarryNames(cf);
    KwargsCarryActive(cf);
  }

  /** The `account_keys` keyword, as passed. */
  lemma KwargsCarryKeys(cf: L.CalendarFilter)
    ensures var v := Lookup(FilterKwargs(cf), "account_keys");
      (if v.Some? && v.value.Strs? then Some(v.value.strs) else None) == cf.accountKeys
  {
    var kw := FilterKwargs(cf);
    if cf.accountKeys.Some? {
      assert kw[0] == ("account_keys", Strs(cf.accountKeys.value));
    } else {
      assert Lookup(kw, "account_keys").None?;
    }
  }

  /** The `calendar_names` keyword, as passed. */
  lemma KwargsCarryNames(cf: L.CalendarFilter)
    ensures var v := Lookup(FilterKwargs(cf), "calendar_names");
      (if v.Some? && v.value.Strs? then Some(v.value.strs) else None) == cf.calendarNames
  {
    var a: seq<(string, Kwarg)> := if cf.accountKeys.Some? then [("account_keys", Strs(cf.accountKeys.value))] else [];
    var b: seq<(string, Kwarg)> := if cf.calendarNames.Some? then [("calendar_names", Strs(cf.calendarNames.value))] else [];
    var c: seq<(string, Kwarg)> := if cf.activeOnly then [("active_only", Flag(true))] else [];
    var kw := FilterKwargs(cf);
    if cf.calendarNames.Some? {
      assert kw == a + (b + c);
      LookupSkip(a, b + c, "calendar_names");
    } else {
      assert Lookup(kw, "calendar_names").None?;
    }
  }

  /** The `active_only` keyword, as passed. */
  lemma KwargsCarryActive(cf: L.CalendarFilter)
    ensures var v := Lookup(FilterKwargs(cf), "active_only");
      (v.Some? && v.value.Flag? && v.value.flag) == cf.activeOnly
  {
    var a: seq<(string, Kwarg)> := if cf.accountKeys.Some? then [("account_keys", Strs(cf.accountKeys.value))] else [];
    var b: seq<(string, Kwarg)> := if cf.calendarNames.Some? then [("calendar_names", Strs(cf.calendarNames.value))] else [];
    var c: seq<(string, Kwarg)> := if cf.activeOnly then [("active_only", Flag(true))] else [];
    var kw := FilterKwargs(cf);
    if cf.activeOnly {
      assert kw == (a + b) + c;
      LookupSkip(a + b, c, "active_only");
    } else {
      assert Lookup(kw, "active_only").None?;
    }
  }

  /** Entries under other names do not hide a later one. */
  lemma {:induction false} LookupSkip(pre: seq<(string, Kwarg)>, post: seq<(string, Kwarg)>, name: string)
    requires forall i :: 0 <= i < |pre| ==> pre[i].0 != name
    ensures Lookup(pre + post, name) == Lookup(post, name)
    decreases |pre|
  {
    if |pre| > 0 {
      assert (pre + post)[1..] == pre[1..] + post;
      LookupSkip(pre[1..], post, name);
    } else {
      assert pre + post == post;
    }
  }

  // ----- Name tables -----

  /** `{key(x): val(x) for x in xs}`: a later entry with the same key
      overrides an earlier one. */
  function Table<T>(xs: seq<T>, key: T -> string, val: T -> string): map<string, string>
    decreases |xs|
  {
    if |xs| == 0 then map[]
    else Table(xs[..|xs| - 1], key, val)[key(xs[|xs| - 1]) := val(xs[|xs| - 1])]
  }

  /** Reference: the value of the last entry whose key is `k`. */
  function LastWithKey<T>(xs: seq<T>, key: T -> string, val: T -> string, k: string): Option<string> {
    if |xs| == 0 then None
    else
      var later := LastWithKey(xs[1..], key, val, k);
      if later.Some? then later
      else if key(xs[0]) == k then Some(val(xs[0]))
      else None
  }

  lemma {:induction false} LastWithKeySnoc<T>(xs: seq<T>, x: T, key: T -> string, val: T -> string, k: string)
    ensures LastWithKey(xs + [x], key, val, k) == if key(x) == k then Some(val(x)) else LastWithKey(xs, key, val, k)
    decreases |xs|
  {
    if |xs| > 0 {
      assert (xs + [x])[1..] == xs[1..] + [x];
      LastWithKeySnoc(xs[1..], x, key, val, k);
    } else {
      assert ([] + [x])[1..] == [];
    }
  }

  /** The table holds a key exactly when some entry has it, with the value
      of the last such entry. */
  lemma {:induction false} TableSpec<T>(xs: seq<T>, key: T -> string, val: T -> string, k: string)
    ensures k in Table(xs, key, val) <==> LastWithKey(xs, key, val, k).Some?
    ensures k in Table(xs, key, val) ==> Some(Table(xs, key, val)[k]) == LastWithKey(xs, key, val, k)
    decreases |xs|
  {
    if |xs| > 0 {
      var init := xs[..|xs| - 1];
      TableSpec(init, key, val, k);
      assert xs == init + [xs[|xs| - 1]];
      LastWithKeySnoc(init, xs[|xs| - 1], key, val, k);
    }
  }

  function TagKey(t: Tag): string { Text.Lower(t.name) }
  function TagIdOf(t: Tag): string { t.id }

  /** `_resolve_tag_names(client, names)`: the ids of the named tags, in
      the order asked, matching names case-insensitively; unknown names are
      dropped. */
  function ResolveTagNames(tags: seq<Tag>, names: seq<string>): (r: seq<string>)
    ensures |r| <= |names|
    ensures (forall i :: 0 <= i < |names| ==> Text.Lower(names[i]) in Table(tags, TagKey, TagIdOf)) ==>
      |r| == |names| && forall i :: 0 <= i < |names| ==> r[i] == Table(tags, TagKey, TagIdOf)[Text.Lower(names[i])]
  {
    if |names| == 0 then []
    else
      var table := Table(tags, TagKey, TagIdOf);
      var rest := ResolveTagNames(tags, names[1..]);
      var n := Text.Lower(names[0]);
      if n in table then [table[n]] + rest else rest
  }

  /** What a name resolves to: the id of the last tag whose name equals it
      ignoring case, if any. */
  lemma ResolveTagNamesSpec(tags: seq<Tag>, name: string)
    ensures var r := ResolveTagNames(tags, [name]);
      var last := LastWithKey(tags, TagKey, TagIdOf, Text.Lower(name));
      (last.None? ==> r == []) && (last.Some? ==> r == [last.value])
  {
    TableSpec(tags, TagKey, TagIdOf, Text.Lower(name));
    assert [name][1..] == [];
  }

  /** The ids of a concatenation are the concatenated ids: each name is
      resolved on its own and the order asked is kept. */
  lemma {:induction false} ResolveTagNamesConcat(tags: seq<Tag>, a: seq<string>, b: seq<string>)
    ensures ResolveTagNames(tags, a + b) == ResolveTagNames(tags, a) + ResolveTagNames(tags, b)
    decreases |a|
  {
    if |a| > 0 {
      assert (a + b)[1..] == a[1..] + b;
      assert (a + b)[0] == a[0];
      ResolveTagNamesConcat(tags, a[1..], b);
    } else {
      assert a + b == b;
    }
  }

  /** Case does not matter: resolving the lower-cased names gives the same
      ids. */
  lemma {:induction false} ResolveTagNamesIgnoresCase(tags: seq<Tag>, names: seq<string>)
    ensures ResolveTagNames(tags, LowerAll(names)) == ResolveTagNames(tags, names)
    decreases |names|
  {
    if |names| > 0 {
      Text.LowerIdempotent(names[0]);
      assert LowerAll(names)[1..] == LowerAll(names[1..]);
      ResolveTagNamesIgnoresCase(tags, names[1..]);
    }
  }

  function LowerAll(names: seq<string>): (r: seq<string>)
    ensures |r| == |names| && forall i :: 0 <= i < |names| ==> r[i] == Text.Lower(names[i])
  {
    seq(|names|, i requires 0 <= i < |names| => Text.Lower(names[i]))
  }

  function ListKey(l: TaskList): string { Text.Lower(l.name) }
  function ListIdOf(l: TaskList): string { l.id }

  function ListNames(lists: seq<TaskList>): (r: seq<string>)
    ensures |r| == |lists| && forall i :: 0 <= i < |lists| ==> r[i] == lists[i].name
  {
    seq(|lists|, i requires 0 <= i < |lists| => lists[i].name)
  }

  /** `_resolve_list_name(client, name)`: the id of the task list with that
      name ignoring case; an unknown name is a usage error listing the
      available names. */
  function ResolveListName(lists: seq<TaskList>, name: string): (r: Result<string, Raised>)
    ensures r.Success? <==> LastWithKey(lists, ListKey, ListIdOf, Text.Lower(name)).Some?
    ensures r.Success? ==> Some(r.value) == LastWithKey(lists, ListKey, ListIdOf, Text.Lower(name))
    ensures r.Failure? ==> r.error == Click("Task list '" + name + "' not found. Available: " + Text.Join(ListNames(lists), ", "))
  {
    TableSpec(lists, ListKey, ListIdOf, Text.Lower(name));
    var table := Table(lists, ListKey, ListIdOf);
    if Text.Lower(name) in table then Success(table[Text.Lower(name)])
    else Failure(Click("Task list '" + name + "' not found. Available: " + Text.Join(ListNames(lists), ", ")))
  }

  // ----- Auto-discovery -----

  /** The account `_auto_discover` uses: the first calendar-capable one,
      else the first one. */
  function ChosenAccount(accounts: seq<Account>): (a: Account)
    requires |accounts| > 0
    ensures a in accounts
    ensures (exists i :: 0 <= i < |accounts| && CalendarCapable(accounts[i])) ==>
      exists i :: FirstPassing(accounts, CalendarCapable, i) && accounts[i] == a
    ensures (forall i :: 0 <= i < |accounts| ==> !CalendarCapable(accounts[i])) ==> a == accounts[0]
  {
    var capable := Seqs.Filter(accounts, CalendarCapable);
    if |capable| > 0 then
      FirstOfFilter(accounts, CalendarCapable);
      capable[0]
    else
      assert forall i :: 0 <= i < |accounts| ==> !CalendarCapable(accounts[i]) by {
        forall i | 0 <= i < |accounts| ensures !CalendarCapable(accounts[i]) {
          assert accounts[i] in accounts;
        }
      }
      accounts[0]
  }

  /** The head of a filtered list is the first element that passes. */
  lemma {:induction false} FirstOfFilter<T(!new)>(xs: seq<T>, p: T -> bool)
    requires |Seqs.Filter(xs, p)| > 0
    ensures exists i :: FirstPassing(xs, p, i) && xs[i] == Seqs.Filter(xs, p)[0]
    decreases |xs|
  {
    if |xs| > 0 && !p(xs[0]) {
      assert Seqs.Filter(xs, p) == Seqs.Filter(xs[1..], p);
      FirstOfFilter(xs[1..], p);
      var i :| FirstPassing(xs[1..], p, i) && xs[1..][i] == Seqs.Filter(xs[1..], p)[0];
      assert xs[i + 1] == xs[1..][i];
      assert forall j :: 1 <= j < i + 1 ==> xs[j] == xs[1..][j - 1];
      assert FirstPassing(xs, p, i + 1);
    } else if |xs| > 0 {
      assert Seqs.Filter(xs, p)[0] == xs[0];
      assert FirstPassing(xs, p, 0);
    }
  }

  /** `xs[i]` is the first element that passes `p`. */
  predicate FirstPassing<T>(xs: seq<T>, p: T -> bool, i: int) {
    0 <= i < |xs| && p(xs[i]) && forall j :: 0 <= j < i ==> !p(xs[j])
  }

  function Ids(cals: seq<Calendar>): (r: seq<string>)
    ensures |r| == |cals| && forall i :: 0 <= i < |cals| ==> r[i] == cals[i].id
  {
    seq(|cals|, i requires 0 <= i < |cals| => cals[i].id)
  }

  function OwnedBy(accountId: string): Calendar -> bool {
    (c: Calendar) => c.accountId == Some(accountId)
  }

  predicate Writable(c: Calendar) {
    IsWritable(CalendarToJson(c).fields)
  }

  /** `_auto_discover(client)` on the account and calendar listings: the
      chosen account's id and its writable calendar ids, or all of its
      calendar ids when none is writable. */
  function AutoDiscover(accounts: seq<Account>, calendars: seq<Calendar>): (r: Result<(string, seq<string>), Raised>)
    ensures |accounts| == 0 ==> r == Failure(Morgen(NewError(Base, "No connected accounts found", Some(["Connect an account in Morgen"]))))
    ensures |accounts| > 0 ==> (r.Success? <==> exists c :: c in calendars && c.accountId == Some(ChosenAccount(accounts).id))
    ensures |accounts| > 0 && r.Failure? ==>
      r.error == Morgen(NewError(Base, "No calendars found for account", Some(["Check calendar sync in Morgen"])))
    ensures r.Success? ==> r.value.0 == ChosenAccount(accounts).id && |r.value.1| > 0
    ensures r.Success? ==> forall id :: id in r.value.1 ==>
      exists c :: c in calendars && c.id == id && c.accountId == Some(r.value.0)
    ensures r.Success? && (exists c :: c in calendars && c.accountId == Some(r.value.0) && Writable(c)) ==>
      forall id :: id in r.value.1 ==> exists c :: c in calendars && c.id == id && c.accountId == Some(r.value.0) && Writable(c)
  {
    if |accounts| == 0 then
      Failure(Morgen(NewError(Base, "No connected accounts found", Some(["Connect an account in Morgen"]))))
    else
      var account := ChosenAccount(accounts);
      var own := Seqs.Filter(calendars, OwnedBy(account.id));
      var writable := Seqs.Filter(own, Writable);
      var ids := if |writable| > 0 then Ids(writable) else Ids(own);
      if |ids| == 0 then
        Failure(Morgen(NewError(Base, "No calendars found for account", Some(["Check calendar sync in Morgen"]))))
      else
        DiscoveredIds(calendars, account.id);
        Success((account.id, ids))
  }

  /** The ids `_auto_discover` returns name calendars of the account, and
      writable ones whenever the account has any. */
  lemma DiscoveredIds(calendars: seq<Calendar>, accountId: string)
    ensures
      var own := Seqs.Filter(calendars, OwnedBy(accountId));
      var writable := Seqs.Filter(own, Writable);
      var ids := if |writable| > 0 then Ids(writable) else Ids(own);
      && (forall id :: id in ids ==> exists c :: c in calendars && c.id == id && c.accountId == Some(accountId))
      && ((exists c :: c in calendars && c.accountId == Some(accountId) && Writable(c)) ==>
            forall id :: id in ids ==> exists c :: c in calendars && c.id == id && c.accountId == Some(accountId) && Writable(c))
  {
    var own := Seqs.Filter(calendars, OwnedBy(accountId));
    var writable := Seqs.Filter(own, Writable);
    var ids := if |writable| > 0 then Ids(writable) else Ids(own);
    forall id | id in ids ensures exists c :: c in calendars && c.id == id && c.accountId == Some(accountId) {
      if |writable| > 0 {
        var i :| 0 <= i < |writable| && Ids(writable)[i] == id;
        assert writable[i] in own;
      } else {
        var i :| 0 <= i < |own| && Ids(own)[i] == id;
        assert own[i] in own;
      }
    }
    if exists c :: c in calendars && c.accountId == Some(accountId) && Writable(c) {
      var c :| c in calendars && c.accountId == Some(accountId) && Writable(c);
      assert c in own;
      assert c in writable;
      forall id | id in ids ensures exists c :: c in calendars && c.id == id && c.accountId == Some(accountId) && Writable(c) {
        var i :| 0 <= i < |writable| && Ids(writable)[i] == id;
        assert writable[i] in writable;
      }
    }
  }

  // ----- The task-list filter -----

  /** `--status`: `open`, `completed` or `all`. */
  datatype StatusFilter = OpenOnly | CompletedOnly | AnyStatus

  /** The client-side filters of `tasks list`; an empty `tagIds` means no
      tag filter. */
  datatype TaskFilter = TaskFilter(
    status: StatusFilter,
    dueBefore: Option<string>,
    dueAfter: Option<string>,
    priority: Option<int>,
    tagIds: set<string>,
    listId: Option<string>)

  /** An optional string that is given and not empty (Python truthiness). */
  predicate Given(s: Option<string>) {
    s.Some? && s.value != ""
  }

  /** The date part of a timestamp (`s[:10]`). */
  function Day(s: string): string {
    Text.Prefix(s, 10)
  }

  /** `--overdue` replaces `--due-before` with the current time. */
  function WithOverdue(f: TaskFilter, overdue: bool, nowIso: string): (g: TaskFilter)
    ensures overdue ==> g.dueBefore == Some(nowIso)
    ensures !overdue ==> g == f
  {
    if overdue then f.(dueBefore := Some(nowIso)) else f
  }

  /** One pass of the loop in `tasks_list`: each test that rejects the task
      moves on to the next one. */
  function Keep(t: Task, f: TaskFilter): bool {
    if f.status == OpenOnly && t.progress == Some("completed") then false
    else if f.status == CompletedOnly && t.progress != Some("completed") then false
    else if Given(f.dueBefore) && Given(t.due) && Text.LexLe(Day(f.dueBefore.value), Day(t.due.value)) then false
    else if Given(f.dueAfter) && Given(t.due) && Text.LexLe(Day(t.due.value), Day(f.dueAfter.value)) then false
    else if (Given(f.dueBefore) || Given(f.dueAfter)) && !Given(t.due) then false
    else if f.priority.Some? && t.priority != f.priority then false
    else if |f.tagIds| > 0 && (forall x :: x in t.tags ==> x !in f.tagIds) then false
    else if Given(f.listId) && t.taskListId != f.listId then false
    else true
  }

  /** The filter as a conjunction of requirements on the task: strict day
      comparisons, a due date whenever a due filter is set, any one of the
      tags. */
  predicate Satisfies(t: Task, f: TaskFilter) {
    && (f.status == OpenOnly ==> t.progress != Some("completed"))
    && (f.status == CompletedOnly ==> t.progress == Some("completed"))
    && (Given(f.dueBefore) ==> Given(t.due) && Text.LexLess(Day(t.due.value), Day(f.dueBefore.value)))
    && (Given(f.dueAfter) ==> Given(t.due) && Text.LexLess(Day(f.dueAfter.value), Day(t.due.value)))
    && (f.priority.Some? ==> t.priority == f.priority)
    && (|f.tagIds| > 0 ==> exists x :: x in t.tags && x in f.tagIds)
    && (Given(f.listId) ==> t.taskListId == f.listId)
  }

  /** `!(a >= b)` is `a < b` for strings. */
  lemma NotLeIsLess(a: string, b: string)
    ensures !Text.LexLe(b, a) <==> Text.LexLess(a, b)
  {
    Text.LexTotal(a, b);
    Text.LexLessAsymmetric(a, b);
    Text.LexLessIrreflexive(a);
  }

  /** The loop keeps a task exactly when it meets every requirement. */
  lemma KeepIffSatisfies(t: Task, f: TaskFilter)
    ensures Keep(t, f) <==> Satisfies(t, f)
  {
    if Given(f.dueBefore) && Given(t.due) {
      NotLeIsLess(Day(t.due.value), Day(f.dueBefore.value));
    }
    if Given(f.dueAfter) && Given(t.due) {
      NotLeIsLess(Day(f.dueAfter.value), Day(t.due.value));
    }
  }

  function KeepWith(f: TaskFilter): Task -> bool {
    (t: Task) => Keep(t, f)
  }

  /** The filter loop of `tasks_list`. */
  method FilterTasks(tasks: seq<Task>, f: TaskFilter) returns (kept: seq<Task>)
    ensures kept == Seqs.Filter(tasks, KeepWith(f))
    ensures forall t :: t in kept <==> t in tasks && Satisfies(t, f)
  {
    kept := [];
    var i := 0;
    while i < |tasks|
      invariant 0 <= i <= |tasks|
      invariant kept == Seqs.Filter(tasks[..i], KeepWith(f))
    {
      Seqs.FilterSnoc(tasks[..i], tasks[i], KeepWith(f));
      assert tasks[..i + 1] == tasks[..i] + [tasks[i]];
      if Keep(tasks[i], f) {
        kept := kept + [tasks[i]];
      }
      i := i + 1;
    }
    assert tasks[..i] == tasks;
    forall t | t in tasks ensures Keep(t, f) <==> Satisfies(t, f) {
      KeepIffSatisfies(t, f);
    }
  }

  /** With `--overdue`, every task listed is due on a day before today's. */
  lemma OverdueTasksAreLate(t: Task, f: TaskFilter, nowIso: string)
    requires nowIso != ""
    requires Keep(t, WithOverdue(f, true, nowIso))
    ensures Given(t.due) && Text.LexLess(Day(t.due.value), Day(nowIso))
  {
    KeepIffSatisfies(t, WithOverdue(f, true, nowIso));
  }

  /** Some name resolves to `id`. */
  predicate NamedTagId(tags: seq<Tag>, names: seq<string>, id: string) {
    exists n :: n in names && Text.Lower(n) in Table(tags, TagKey, TagIdOf) && Table(tags, TagKey, TagIdOf)[Text.Lower(n)] == id
  }

  /** The ids `tasks_list` filters by: those of the named tags, ignoring
      case and dropping unknown names and empty ids. */
  function TagIdFilter(tags: seq<Tag>, names: seq<string>): (r: set<string>)
    ensures forall id :: id in r <==> id != "" && NamedTagId(tags, names, id)
  {
    var table := Table(tags, TagKey, TagIdOf);
    set n | n in names && Text.Lower(n) in table && table[Text.Lower(n)] != "" :: table[Text.Lower(n)]
  }

  // ----- Due-date buckets of the combined views -----

  datatype Bucket = Scheduled | Overdue | Unscheduled | Later

  /** Where `_combined_view` puts a task, comparing the day of its due date
      with the days of the range. */
  function BucketOf(t: Task, startDay: string, endDay: string): Bucket {
    if !Given(t.due) then Unscheduled
    else if Text.LexLe(startDay, Day(t.due.value)) && Text.LexLe(Day(t.due.value), endDay) then Scheduled
    else if Text.LexLess(Day(t.due.value), startDay) then Overdue
    else Later
  }

  function InBucket(b: Bucket, startDay: string, endDay: string): Task -> bool {
    (t: Task) => BucketOf(t, startDay, endDay) == b
  }

  /** With a range whose start day is not after its end day, a task with a
      due date is overdue, scheduled or later according to where its day
      falls. */
  lemma BucketsFollowDays(t: Task, startDay: string, endDay: string)
    requires Text.LexLe(startDay, endDay) && Given(t.due)
    ensures BucketOf(t, startDay, endDay) == Overdue <==> Text.LexLess(Day(t.due.value), startDay)
    ensures BucketOf(t, startDay, endDay) == Later <==> Text.LexLess(endDay, Day(t.due.value))
  {
    var d := Day(t.due.value);
    NotLeIsLess(d, startDay);
    NotLeIsLess(endDay, d);
    if Text.LexLess(endDay, d) && Text.LexLe(d, endDay) {
      Text.LexLessAsymmetric(endDay, d);
      Text.LexLessIrreflexive(d);
    }
    if Text.LexLess(d, startDay) && Text.LexLe(startDay, d) {
      Text.LexLessAsymmetric(d, startDay);
      Text.LexLessIrreflexive(d);
    }
    if Text.LexLess(endDay, d) && Text.LexLess(d, startDay) {
      Text.LexLeTransitive(startDay, endDay, d);
      Text.LexLessAsymmetric(d, startDay);
      Text.LexLessIrreflexive(d);
    }
  }

  /** The three lists `_combined_view` fills, in input order; a task due
      after the range is in none of them, any other task in exactly one. */
  method Buckets(tasks: seq<Task>, start: string, end: string) returns (scheduled: seq<Task>, overdue: seq<Task>, unscheduled: seq<Task>)
    ensures scheduled == Seqs.Filter(tasks, InBucket(Scheduled, Day(start), Day(end)))
    ensures overdue == Seqs.Filter(tasks, InBucket(Overdue, Day(start), Day(end)))
    ensures unscheduled == Seqs.Filter(tasks, InBucket(Unscheduled, Day(start), Day(end)))
    ensures forall t :: t in unscheduled <==> t in tasks && !Given(t.due)
    ensures forall t :: t in scheduled ==> t !in overdue && t !in unscheduled
    ensures forall t :: t in overdue ==> t !in unscheduled
  {
    var s, e := Day(start), Day(end);
    scheduled, overdue, unscheduled := [], [], [];
    var i := 0;
    while i < |tasks|
      invariant 0 <= i <= |tasks|
      invariant scheduled == Seqs.Filter(tasks[..i], InBucket(Scheduled, s, e))
      invariant overdue == Seqs.Filter(tasks[..i], InBucket(Overdue, s, e))
      invariant unscheduled == Seqs.Filter(tasks[..i], InBucket(Unscheduled, s, e))
    {
      var t := tasks[i];
      BucketStep(tasks, i, Scheduled, s, e);
      BucketStep(tasks, i, Overdue, s, e);
      BucketStep(tasks, i, Unscheduled, s, e);
      if Given(t.due) {
        var d := Day(t.due.value);
        if Text.LexLe(s, d) && Text.LexLe(d, e) {
          scheduled := scheduled + [t];
        } else if Text.LexLess(d, s) {
          overdue := overdue + [t];
        }
      } else {
        unscheduled := unscheduled + [t];
      }
      i := i + 1;
    }
    assert tasks[..i] == tasks;
    BucketsDisjoint(tasks, s, e);
  }

  /** One more task extends exactly the list of its own bucket. */
  lemma BucketStep(tasks: seq<Task>, i: int, b: Bucket, s: string, e: string)
    requires 0 <= i < |tasks|
    ensures var grown := if BucketOf(tasks[i], s, e) == b then [tasks[i]] else [];
      Seqs.Filter(tasks[..i + 1], InBucket(b, s, e)) == Seqs.Filter(tasks[..i], InBucket(b, s, e)) + grown
  {
    assert tasks[..i + 1] == tasks[..i] + [tasks[i]];
    Seqs.FilterConcat(tasks[..i], [tasks[i]], InBucket(b, s, e));
    assert [tasks[i]][1..] == [];
  }

  /** A task lands in at most one bucket, and the unscheduled bucket holds
      exactly the tasks without a due date. */
  lemma BucketsDisjoint(tasks: seq<Task>, s: string, e: string)
    ensures var sch := Seqs.Filter(tasks, InBucket(Scheduled, s, e));
      var ov := Seqs.Filter(tasks, InBucket(Overdue, s, e));
      var un := Seqs.Filter(tasks, InBucket(Unscheduled, s, e));
      && (forall t :: t in un <==> t in tasks && !Given(t.due))
      && (forall t :: t in sch ==> t !in ov && t !in un)
      && (forall t :: t in ov ==> t !in un)
  {
  }

  // ----- Upcoming events (`next`) -----

  /** The sort key of an event dump, `x.get("start", "")`. */
  function StartKey(e: Event): string {
    e.start.GetOr("")
  }

  predicate SortedByStart(es: seq<Event>) {
    forall i, j :: 0 <= i < j < |es| ==> Text.LexLe(StartKey(es[i]), StartKey(es[j]))
  }

  /** Inserting before the first event that does not start earlier keeps the
      list sorted and keeps equal starts in their original order. */
  function InsertByStart(x: Event, es: seq<Event>): (r: seq<Event>)
    requires SortedByStart(es)
    ensures SortedByStart(r)
    ensures multiset(r) == multiset(es) + multiset{x}
    decreases |es|
  {
    if |es| == 0 then [x]
    else if Text.LexLe(StartKey(x), StartKey(es[0])) then
      StartsFirst(x, es);
      [x] + es
    else
      var rest := InsertByStart(x, es[1..]);
      StartsLater(x, es, rest);
      [es[0]] + rest
  }

  /** An event starting no later than the head goes in front. */
  lemma StartsFirst(x: Event, es: seq<Event>)
    requires SortedByStart(es) && |es| > 0 && Text.LexLe(StartKey(x), StartKey(es[0]))
    ensures SortedByStart([x] + es)
  {
    forall j | 0 < j < |es| ensures Text.LexLe(StartKey(x), StartKey(es[j])) {
      Text.LexLeTransitive(StartKey(x), StartKey(es[0]), StartKey(es[j]));
    }
  }

  /** An event starting after the head goes into the tail, behind the head. */
  lemma StartsLater(x: Event, es: seq<Event>, rest: seq<Event>)
    requires SortedByStart(es) && |es| > 0 && !Text.LexLe(StartKey(x), StartKey(es[0]))
    requires SortedByStart(rest) && multiset(rest) == multiset(es[1..]) + multiset{x}
    ensures SortedByStart([es[0]] + rest)
    ensures multiset([es[0]] + rest) == multiset(es) + multiset{x}
  {
    Text.LexLeTotal(StartKey(x), StartKey(es[0]));
    assert es == [es[0]] + es[1..];
    forall j | 0 <= j < |rest| ensures Text.LexLe(StartKey(es[0]), StartKey(rest[j])) {
      var y := rest[j];
      assert y in multiset(rest);
      if y != x {
        assert y in multiset(es[1..]);
        var k :| 0 <= k < |es[1..]| && es[1..][k] == y;
        assert es[k + 1] == y;
      }
    }
  }

  function AtStart(k: string): Event -> bool {
    (e: Event) => StartKey(e) == k
  }

  /** The events starting at `k`, in list order. */
  function SameStart(es: seq<Event>, k: string): seq<Event> {
    Seqs.Filter(es, AtStart(k))
  }

  /** Insertion puts an event in front of every event with its start, so
      among equal starts it comes first, as if prepended. */
  lemma {:induction false} InsertKeepsTies(x: Event, es: seq<Event>, k: string)
    requires SortedByStart(es)
    ensures SameStart(InsertByStart(x, es), k) == SameStart([x] + es, k)
    decreases |es|
  {
    if |es| > 0 && !Text.LexLe(StartKey(x), StartKey(es[0])) {
      var tail := es[1..];
      var rest := InsertByStart(x, tail);
      assert InsertByStart(x, es) == [es[0]] + rest;
      InsertKeepsTies(x, tail, k);
      ConsTies(es[0], rest, [x] + tail, k);
      SwapTies(x, es[0], tail, k);
      assert [es[0]] + tail == es;
    }
  }

  /** Equal runs stay equal under a common head. */
  lemma ConsTies(y: Event, a: seq<Event>, b: seq<Event>, k: string)
    requires SameStart(a, k) == SameStart(b, k)
    ensures SameStart([y] + a, k) == SameStart([y] + b, k)
  {
    Seqs.FilterConcat([y], a, AtStart(k));
    Seqs.FilterConcat([y], b, AtStart(k));
  }

  /** Two events with different starts can trade places without changing
      any run of equal starts. */
  lemma SwapTies(x: Event, y: Event, t: seq<Event>, k: string)
    requires StartKey(x) != StartKey(y)
    ensures SameStart([y] + ([x] + t), k) == SameStart([x] + ([y] + t), k)
  {
    var p := AtStart(k);
    var ft := Seqs.Filter(t, p);
    var fx, fy := (if p(x) then [x] else []), (if p(y) then [y] else []);
    assert fx == [] || fy == [];
    calc {
      SameStart([y] + ([x] + t), k);
      { Seqs.FilterCons(y, [x] + t, p); }
      fy + Seqs.Filter([x] + t, p);
      { Seqs.FilterCons(x, t, p); }
      fy + (fx + ft);
      fx + (fy + ft);
      { Seqs.FilterCons(y, t, p); }
      fx + Seqs.Filter([y] + t, p);
      { Seqs.FilterCons(x, [y] + t, p); }
      SameStart([x] + ([y] + t), k);
    }
  }

  /** Sorting the tail and inserting the head keeps every run of equal
      starts in input order, given the tail's runs are kept. */
  lemma SortStep(x: Event, rest: seq<Event>, tail: seq<Event>)
    requires SortedByStart(rest)
    requires forall k :: SameStart(rest, k) == SameStart(tail, k)
    ensures forall k :: SameStart(InsertByStart(x, rest), k) == SameStart([x] + tail, k)
  {
    forall k ensures SameStart(InsertByStart(x, rest), k) == SameStart([x] + tail, k) {
      var p := AtStart(k);
      calc {
        SameStart(InsertByStart(x, rest), k);
        { InsertKeepsTies(x, rest, k); }
        Seqs.Filter([x] + rest, p);
        { Seqs.FilterConcat([x], rest, p); }
        Seqs.Filter([x], p) + SameStart(rest, k);
        Seqs.Filter([x], p) + SameStart(tail, k);
        { Seqs.FilterConcat([x], tail, p); }
        SameStart([x] + tail, k);
      }
    }
  }

  /** `list.sort(key=start)`: ordered by start, a permutation, and stable:
      events with the same start keep their input order. */
  function SortByStart(es: seq<Event>): (r: seq<Event>)
    ensures SortedByStart(r)
    ensures multiset(r) == multiset(es)
    ensures |r| == |es|
    ensures forall k :: SameStart(r, k) == SameStart(es, k)
  {
    if |es| == 0 then []
    else
      assert es == [es[0]] + es[1..];
      var rest := SortByStart(es[1..]);
      SortStep(es[0], rest, es[1..]);
      InsertByStart(es[0], rest)
  }

  /** Two events with the same start come out in the order they went in. */
  lemma SortTiesExample(a: Event, b: Event)
    requires StartKey(a) == StartKey(b)
    ensures SortByStart([a, b]) == [a, b]
  {
    var k := StartKey(a);
    var p := AtStart(k);
    var r := SortByStart([a, b]);
    Seqs.FilterAll([a, b], p);
    forall i | 0 <= i < |r| ensures p(r[i]) {
      assert r[i] in multiset([a, b]);
    }
    Seqs.FilterAll(r, p);
  }

  function StartsBy(nowIso: string): Event -> bool {
    (e: Event) => Text.LexLe(Text.Prefix(nowIso, 19), StartKey(e))
  }

  function NotFrame(e: Event): bool {
    !IsFrameEvent(EventToJson(e).fields)
  }

  /** The events `next` shows: those starting at or after now (compared on
      the first 19 characters of now's ISO form), without frames when asked,
      sorted by start, and cut to `count` (a Python slice) when given. */
  function Upcoming(events: seq<Event>, nowIso: string, noFrames: bool, count: Option<int>): (r: seq<Event>)
    ensures forall e :: e in r ==> e in events && Text.LexLe(Text.Prefix(nowIso, 19), StartKey(e))
    ensures noFrames ==> forall e :: e in r ==> NotFrame(e)
    ensures SortedByStart(r)
    ensures count.Some? && count.value >= 0 ==> |r| <= count.value
    ensures count.None? ==> multiset(r) == multiset(Shown(events, nowIso, noFrames))
    ensures count.Some? && count.value >= 0 ==> |r| == Min(count.value, |Shown(events, nowIso, noFrames)|)
    ensures count.None? ==> r == SortByStart(Shown(events, nowIso, noFrames))
    ensures count.Some? ==> r == Text.Prefix(SortByStart(Shown(events, nowIso, noFrames)), count.value)
  {
    var shown := Shown(events, nowIso, noFrames);
    var sorted := SortByStart(shown);
    SameElements(sorted, shown);
    if count.Some? then
      CutSorted(sorted, count.value);
      Text.Prefix(sorted, count.value)
    else sorted
  }

  /** Lists with the same multiset have the same elements. */
  lemma SameElements<T>(a: seq<T>, b: seq<T>)
    requires multiset(a) == multiset(b)
    ensures forall x :: x in a <==> x in b
  {
    assert forall x :: x in a <==> x in multiset(a);
    assert forall x :: x in b <==> x in multiset(b);
  }

  /** A slice of a sorted list is sorted and holds only its elements. */
  lemma CutSorted(es: seq<Event>, n: int)
    requires SortedByStart(es)
    ensures SortedByStart(Text.Prefix(es, n))
    ensures forall e :: e in Text.Prefix(es, n) ==> e in es
  {
    var r := Text.Prefix(es, n);
    assert forall i :: 0 <= i < |r| ==> r[i] == es[i];
  }

  /** The events before sorting and cutting. */
  function Shown(events: seq<Event>, nowIso: string, noFrames: bool): (r: seq<Event>)
    ensures forall e :: e in r <==> e in events && Text.LexLe(Text.Prefix(nowIso, 19), StartKey(e)) && (noFrames ==> NotFrame(e))
  {
    var upcoming := Seqs.Filter(events, StartsBy(nowIso));
    if noFrames then Seqs.Filter(upcoming, NotFrame) else upcoming
  }

  /** Permuting the input permutes the events shown. */
  lemma ShownPermutation(a: seq<Event>, b: seq<Event>, nowIso: string, noFrames: bool)
    requires multiset(a) == multiset(b)
    ensures multiset(Shown(a, nowIso, noFrames)) == multiset(Shown(b, nowIso, noFrames))
  {
    FilterMultiset(a, b, StartsBy(nowIso));
    if noFrames {
      FilterMultiset(Seqs.Filter(a, StartsBy(nowIso)), Seqs.Filter(b, StartsBy(nowIso)), NotFrame);
    }
  }

  /** The order of the input does not matter: permuted listings show the
      same events, provided no two of them start at the same moment. */
  lemma UpcomingIgnoresInputOrder(a: seq<Event>, b: seq<Event>, nowIso: string, noFrames: bool, count: Option<int>)
    requires multiset(a) == multiset(b)
    requires forall x, y :: x in a && y in a && StartKey(x) == StartKey(y) ==> x == y
    ensures Upcoming(a, nowIso, noFrames, count) == Upcoming(b, nowIso, noFrames, count)
  {
    var sa := Shown(a, nowIso, noFrames);
    var sb := Shown(b, nowIso, noFrames);
    ShownPermutation(a, b, nowIso, noFrames);
    var ra, rb := SortByStart(sa), SortByStart(sb);
    SameElements(ra, sa);
    SortedByStartUnique(ra, rb);
  }

  /** Filtering respects permutation. */
  lemma {:induction false} FilterMultiset<T(!new)>(a: seq<T>, b: seq<T>, p: T -> bool)
    requires multiset(a) == multiset(b)
    ensures multiset(Seqs.Filter(a, p)) == multiset(Seqs.Filter(b, p))
  {
    FilterMultisetCount(a, p);
    FilterMultisetCount(b, p);
  }

  /** The filtered multiset is the input multiset restricted to elements
      that pass. */
  lemma {:induction false} FilterMultisetCount<T(!new)>(a: seq<T>, p: T -> bool)
    ensures forall x :: multiset(Seqs.Filter(a, p))[x] == if p(x) then multiset(a)[x] else 0
    decreases |a|
  {
    if |a| > 0 {
      FilterMultisetCount(a[1..], p);
      assert a == [a[0]] + a[1..];
      assert multiset(a) == multiset{a[0]} + multiset(a[1..]);
    }
  }

  /** Two start-sorted lists with the same events, no two of which share a
      start, are equal. */
  lemma {:induction false} SortedByStartUnique(a: seq<Event>, b: seq<Event>)
    requires SortedByStart(a) && SortedByStart(b)
    requires multiset(a) == multiset(b)
    requires forall x, y :: x in a && y in a && StartKey(x) == StartKey(y) ==> x == y
    ensures a == b
    decreases |a|
  {
    assert |a| == |multiset(a)| == |multiset(b)| == |b|;
    if |a| > 0 {
      SameFirstEvent(a, b);
      SameTails(a, b);
      SortedByStartUnique(a[1..], b[1..]);
      assert a == [a[0]] + a[1..];
      assert b == [b[0]] + b[1..];
    }
  }

  /** Dropping the same first event from both lists keeps them comparable. */
  lemma SameTails(a: seq<Event>, b: seq<Event>)
    requires SortedByStart(a) && SortedByStart(b) && |a| > 0 && |b| > 0 && a[0] == b[0]
    requires multiset(a) == multiset(b)
    requires forall x, y :: x in a && y in a && StartKey(x) == StartKey(y) ==> x == y
    ensures SortedByStart(a[1..]) && SortedByStart(b[1..])
    ensures multiset(a[1..]) == multiset(b[1..])
    ensures forall x, y :: x in a[1..] && y in a[1..] && StartKey(x) == StartKey(y) ==> x == y
  {
    SortedTail(a);
    SortedTail(b);
    assert a == [a[0]] + a[1..];
    assert b == [b[0]] + b[1..];
    assert multiset(a[1..]) == multiset(a) - multiset{a[0]};
    assert multiset(b[1..]) == multiset(b) - multiset{b[0]};
    DistinctTail(a);
  }

  lemma SortedTail(a: seq<Event>)
    requires SortedByStart(a) && |a| > 0
    ensures SortedByStart(a[1..])
  {
  }

  lemma DistinctTail(a: seq<Event>)
    requires |a| > 0
    requires forall x, y :: x in a && y in a && StartKey(x) == StartKey(y) ==> x == y
    ensures forall x, y :: x in a[1..] && y in a[1..] && StartKey(x) == StartKey(y) ==> x == y
  {
    assert forall x :: x in a[1..] ==> x in a;
  }

  /** Such lists begin with the same event. */
  lemma SameFirstEvent(a: seq<Event>, b: seq<Event>)
    requires SortedByStart(a) && SortedByStart(b) && |a| > 0 && |b| > 0
    requires multiset(a) == multiset(b)
    requires forall x, y :: x in a && y in a && StartKey(x) == StartKey(y) ==> x == y
    ensures a[0] == b[0]
  {
    assert a[0] in multiset(b);
    assert b[0] in multiset(a);
    var i :| 0 <= i < |b| && b[i] == a[0];
    var j :| 0 <= j < |a| && a[j] == b[0];
    if i > 0 { assert Text.LexLe(StartKey(b[0]), StartKey(b[i])); }
    if j > 0 { assert Text.LexLe(StartKey(a[0]), StartKey(a[j])); }
    Text.LexLeAntisymmetric(StartKey(a[0]), StartKey(b[0]));
  }
}

=== FILE: client.dfy ===
/** The current origin client: typed reads through the TTL cache, the
    multi-account event and task fan-outs, and mutations that invalidate a
    cache prefix. Every operation takes the client context and the cache
    (absent when caching is off) and returns a `Step`: the value or the
    error it raises, the cache afterwards, and the requests it sent in
    order. */
module Client {
  import opened Wrappers
  import opened Json
  import opened Errors
  import opened Models
  import opened Http
  import Text
  import Seqs
  import Cache
  import G = Groups

  /** What the client reaches outside itself: the server, the clock (one
      reading per call), the MD5 hex digest of a string, and the local time
      zone name. */
  datatype Ctx = Ctx(origin: Origin, now: int, md5: string -> string, localTz: string)

  datatype Step<T> = Step(value: Result<T, Raised>, cache: Option<Cache.Store>, sent: seq<Req>)

  // ----- The cache, when there is one -----

  function CacheGet(c: Option<Cache.Store>, key: string, now: int): (r: Json)
    ensures c.None? ==> r == JNull
    ensures c.Some? ==> r == Cache.Get(c.value, key, now)
  {
    if c.Some? then Cache.Get(c.value, key, now) else JNull
  }

  function CacheSet(c: Option<Cache.Store>, key: string, data: Json, ttl: int, now: int): (r: Option<Cache.Store>)
    ensures c.None? <==> r.None?
    ensures c.Some? ==> r == Some(Cache.Set(c.value, key, data, ttl, now))
  {
    if c.Some? then Some(Cache.Set(c.value, key, data, ttl, now)) else None
  }

  function CacheInvalidate(c: Option<Cache.Store>, prefix: string): (r: Option<Cache.Store>)
    ensures c.None? <==> r.None?
    ensures c.Some? ==> r == Some(Cache.Invalidate(c.value, prefix).store)
  {
    if c.Some? then Some(Cache.Invalidate(c.value, prefix).store) else None
  }

  // ----- Validation -----

  /** `[Model.model_validate(x) for x in j]`: `j` must be iterable. */
  function ValidateList<T>(j: Json, parse: Json -> Result<T, Raised>): (r: Result<seq<T>, Raised>)
    ensures Iterate(j).None? ==> r.Failure?
    ensures Iterate(j).Some? ==> r == Seqs.MapAll(Iterate(j).value, parse)
  {
    match Iterate(j)
    case None => Failure(Malformed("not iterable"))
    case Some(items) => Seqs.MapAll(items, parse)
  }

  /** `[x.model_dump() for x in xs]`. */
  function DumpList<T>(xs: seq<T>, dump: T -> Json): (j: Json)
    ensures j.JArr? && |j.items| == |xs|
    ensures forall i :: 0 <= i < |xs| ==> j.items[i] == dump(xs[i])
  {
    JArr(seq(|xs|, i requires 0 <= i < |xs| => dump(xs[i])))
  }

  /** Validating a dump gives back the records, when every record survives
      its own dump. */
  lemma ValidateDump<T>(xs: seq<T>, parse: Json -> Result<T, Raised>, dump: T -> Json)
    requires forall i :: 0 <= i < |xs| ==> parse(dump(xs[i])) == Success(xs[i])
    ensures ValidateList(DumpList(xs, dump), parse) == Success(xs)
  {
    var items := DumpList(xs, dump).items;
    var r := Seqs.MapAll(items, parse);
    assert r.Success?;
    assert r.value == xs;
  }

  /** `_extract_single(data, key, Model)`. */
  function ExtractSingle<T>(data: Json, key: string, parse: Json -> Result<T, Raised>): (r: Result<Option<T>, Raised>)
    ensures data == JNull ==> r == Success(None)
    ensures data != JNull ==> (r.Success? <==> parse(SingleEnvelope(data, key).value).Success?)
    ensures data != JNull && r.Success? ==> r.value == Some(parse(SingleEnvelope(data, key).value).value)
  {
    match SingleEnvelope(data, key)
    case None => Success(None)
    case Some(j) =>
      match parse(j)
      case Failure(e) => Failure(e)
      case Success(x) => Success(Some(x))
  }

  // ----- Cached reads -----

  /** A read-through list: a fresh cache entry is validated and returned
      without a request; otherwise the request is sent, its envelope
      unwrapped and validated, and the dumped records cached. */
  function CachedList<T>(ctx: Ctx, c: Option<Cache.Store>, key: string, ttl: int, req: Req, envKey: string,
                         parse: Json -> Result<T, Raised>, dump: T -> Json): (r: Step<seq<T>>)
    ensures CacheGet(c, key, ctx.now) != JNull ==>
      r == Step(ValidateList(CacheGet(c, key, ctx.now), parse), c, [])
    ensures CacheGet(c, key, ctx.now) == JNull ==> r.sent == [req]
    ensures CacheGet(c, key, ctx.now) == JNull && Send(ctx.origin, req).Failure? ==>
      r == Step(Failure(Send(ctx.origin, req).error), c, [req])
    ensures CacheGet(c, key, ctx.now) == JNull && Send(ctx.origin, req).Success? ==>
      && r.value == ValidateList(Envelope(Send(ctx.origin, req).value, envKey), parse)
      && r.cache == (if r.value.Success? then CacheSet(c, key, DumpList(r.value.value, dump), ttl, ctx.now) else c)
  {
    var hit := CacheGet(c, key, ctx.now);
    if hit != JNull then Step(ValidateList(hit, parse), c, [])
    else
      match Send(ctx.origin, req)
      case Failure(e) => Step(Failure(e), c, [req])
      case Success(data) =>
        match ValidateList(Envelope(data, envKey), parse)
        case Failure(e) => Step(Failure(e), c, [req])
        case Success(xs) => Step(Success(xs), CacheSet(c, key, DumpList(xs, dump), ttl, ctx.now), [req])
  }

  /** Read-through caching pays off: after a call that fetched and cached
      its list, the same call within the TTL sends nothing and returns the
      same records. */
  lemma CachedListHitsAfterMiss<T>(ctx: Ctx, ctx2: Ctx, c: Option<Cache.Store>, key: string, ttl: int, req: Req, envKey: string,
                                   parse: Json -> Result<T, Raised>, dump: T -> Json)
    requires forall x :: parse(dump(x)) == Success(x)
    requires c.Some? && ctx2.now <= ctx.now + ttl
    requires CacheGet(c, key, ctx.now) == JNull
    requires CachedList(ctx, c, key, ttl, req, envKey, parse, dump).value.Success?
    ensures var first := CachedList(ctx, c, key, ttl, req, envKey, parse, dump);
      var second := CachedList(ctx2, first.cache, key, ttl, req, envKey, parse, dump);
      second.sent == [] && second.value == first.value && second.cache == first.cache
  {
    var first := CachedList(ctx, c, key, ttl, req, envKey, parse, dump);
    var xs := first.value.value;
    Cache.SetThenGet(c.value, key, DumpList(xs, dump), ttl, ctx.now, ctx2.now);
    ValidateDump(xs, parse, dump);
  }

  const AccountsReq := GetReq("/integrations/accounts/list", [])
  const CalendarsReq := GetReq("/calendars/list", [])
  const TagsReq := GetReq("/tags/list", [])

  /** `list_accounts()`. */
  function ListAccounts(ctx: Ctx, c: Option<Cache.Store>): (r: Step<seq<Account>>)
    ensures r.sent == [] || r.sent == [AccountsReq]
    ensures c.None? ==> r.sent == [AccountsReq] && r.cache.None?
  {
    CachedList(ctx, c, "accounts", Cache.TtlAccounts, AccountsReq, "accounts", AccountFromJson, AccountToJson)
  }

  /** `list_calendars()`. */
  function ListCalendars(ctx: Ctx, c: Option<Cache.Store>): (r: Step<seq<Calendar>>)
    ensures r.sent == [] || r.sent == [CalendarsReq]
    ensures c.None? ==> r.sent == [CalendarsReq] && r.cache.None?
  {
    CachedList(ctx, c, "calendars", Cache.TtlCalendars, CalendarsReq, "calendars", CalendarFromJson, CalendarToJson)
  }

  /** `list_tags()`. */
  function ListTags(ctx: Ctx, c: Option<Cache.Store>): (r: Step<seq<Tag>>)
    ensures r.sent == [] || r.sent == [TagsReq]
  {
    CachedList(ctx, c, "tags", Cache.TtlTags, TagsReq, "tags", TagFromJson, TagToJson)
  }

  /** The query parameters of a task listing. */
  function TaskListParams(limit: int, updatedAfter: Option<string>): Fields {
    if updatedAfter.Some? && updatedAfter.value != "" then
      [("limit", JInt(limit)), ("updatedAfter", JStr(updatedAfter.value))]
    else [("limit", JInt(limit))]
  }

  /** A task listing always sends `limit`, and sends `updatedAfter` only
      when it is given and not empty. */
  lemma TaskListParamsSpec(limit: int, updatedAfter: Option<string>)
    ensures Get(TaskListParams(limit, updatedAfter), "limit") == Some(JInt(limit))
    ensures Has(TaskListParams(limit, updatedAfter), "updatedAfter") <==> updatedAfter.Some? && updatedAfter.value != ""
    ensures Has(TaskListParams(limit, updatedAfter), "updatedAfter") ==>
      Get(TaskListParams(limit, updatedAfter), "updatedAfter") == Some(JStr(updatedAfter.value))
  {
    var p := TaskListParams(limit, updatedAfter);
    GetAt(p, 0, "limit");
    if updatedAfter.Some? && updatedAfter.value != "" {
      GetAt(p, 1, "updatedAfter");
    } else {
      GetAbsent(p, "updatedAfter");
    }
  }

  /** `list_tasks(limit, updated_after)`: cached under `tasks/list`. */
  function ListTasks(ctx: Ctx, c: Option<Cache.Store>, limit: int, updatedAfter: Option<string>): (r: Step<seq<Task>>)
    ensures r.sent == [] || r.sent == [GetReq("/tasks/list", TaskListParams(limit, updatedAfter))]
  {
    CachedList(ctx, c, "tasks/list", Cache.TtlTasks, GetReq("/tasks/list", TaskListParams(limit, updatedAfter)),
               "tasks", TaskFromJson, TaskToJson)
  }

  /** `list_task_accounts()`: the task-capable accounts, cached on their own
      key on top of the account list's cache. */
  function ListTaskAccounts(ctx: Ctx, c: Option<Cache.Store>): (r: Step<seq<Account>>)
    ensures r.sent == [] || r.sent == [AccountsReq]
  {
    var hit := CacheGet(c, "task_accounts", ctx.now);
    if hit != JNull then Step(ValidateList(hit, AccountFromJson), c, [])
    else
      var s := ListAccounts(ctx, c);
      match s.value
      case Failure(e) => Step(Failure(e), s.cache, s.sent)
      case Success(accounts) =>
        var result := Seqs.Filter(accounts, TaskCapable);
        Step(Success(result), CacheSet(s.cache, "task_accounts", DumpList(result, AccountToJson), Cache.TtlTaskAccounts, ctx.now), s.sent)
  }

  /** A fresh `task_accounts` entry is validated and returned without a
      request; otherwise the account list is read (through its own cache)
      and its task-capable accounts kept, in order. */
  lemma TaskAccountsSpec(ctx: Ctx, c: Option<Cache.Store>)
    ensures var r := ListTaskAccounts(ctx, c);
      CacheGet(c, "task_accounts", ctx.now) != JNull ==>
        r == Step(ValidateList(CacheGet(c, "task_accounts", ctx.now), AccountFromJson), c, [])
    ensures var r := ListTaskAccounts(ctx, c);
      CacheGet(c, "task_accounts", ctx.now) == JNull ==>
        var s := ListAccounts(ctx, c);
        && r.sent == s.sent
        && (s.value.Failure? ==> r.value == s.value)
        && (s.value.Success? ==> r.value == Success(Seqs.Filter(s.value.value, TaskCapable)))
  {
  }

  // ----- Events -----

  /** The cache key of an event listing: `events/` and the first 12 hex
      digits of the MD5 of account, sorted calendar ids, start and end. */
  function EventsKey(md5: string -> string, accountId: string, calendarIds: seq<string>, start: string, end: string): (k: string)
    ensures Text.StartsWith(k, "events/")
  {
    "events/" + Text.Prefix(md5(accountId + ":" + Text.Join(Text.Sort(calendarIds), ",") + ":" + start + ":" + end), 12)
  }

  /** The calendar ids are sorted before they go into the key, so their
      order does not matter. */
  lemma EventsKeyIgnoresOrder(md5: string -> string, accountId: string, ids1: seq<string>, ids2: seq<string>, start: string, end: string)
    requires multiset(ids1) == multiset(ids2)
    ensures EventsKey(md5, accountId, ids1, start, end) == EventsKey(md5, accountId, ids2, start, end)
  {
    Text.SortPermutationInvariant(ids1, ids2);
  }

  /** The request for one account's events; the ids are sent in the order
      given. */
  function EventsReq(accountId: string, calendarIds: seq<string>, start: string, end: string): Req {
    GetReq("/events/list", [("accountId", JStr(accountId)), ("calendarIds", JStr(Text.Join(calendarIds, ","))),
                            ("start", JStr(start)), ("end", JStr(end))])
  }

  /** `list_events(account_id, calendar_ids, start, end)`. */
  function ListEvents(ctx: Ctx, c: Option<Cache.Store>, accountId: string, calendarIds: seq<string>, start: string, end: string): (r: Step<seq<Event>>)
    ensures r.sent == [] || r.sent == [EventsReq(accountId, calendarIds, start, end)]
    ensures CacheGet(c, EventsKey(ctx.md5, accountId, calendarIds, start, end), ctx.now) != JNull ==> r.sent == [] && r.cache == c
  {
    CachedList(ctx, c, EventsKey(ctx.md5, accountId, calendarIds, start, end), Cache.TtlEvents,
               EventsReq(accountId, calendarIds, start, end), "events", EventFromJson, EventToJson)
  }

  /** Listing the same calendars in another order is served from the entry
      the first listing cached: no request, the same events. */
  lemma ListEventsPermutedHits(ctx: Ctx, ctx2: Ctx, c: Option<Cache.Store>, accountId: string, ids1: seq<string>, ids2: seq<string>, start: string, end: string)
    requires c.Some? && ctx2.md5 == ctx.md5 && ctx2.now <= ctx.now + Cache.TtlEvents
    requires multiset(ids1) == multiset(ids2)
    requires CacheGet(c, EventsKey(ctx.md5, accountId, ids1, start, end), ctx.now) == JNull
    requires ListEvents(ctx, c, accountId, ids1, start, end).value.Success?
    ensures var first := ListEvents(ctx, c, accountId, ids1, start, end);
      var second := ListEvents(ctx2, first.cache, accountId, ids2, start, end);
      second.sent == [] && second.value == first.value
  {
    EventsKeyIgnoresOrder(ctx.md5, accountId, ids1, ids2, start, end);
    var key := EventsKey(ctx.md5, accountId, ids1, start, end);
    var first := ListEvents(ctx, c, accountId, ids1, start, end);
    var xs := first.value.value;
    var dumped := DumpList(xs, EventToJson);
    assert first.cache == CacheSet(c, key, dumped, Cache.TtlEvents, ctx.now);
    Cache.SetThenGet(c.value, key, dumped, Cache.TtlEvents, ctx.now, ctx2.now);
    assert CacheGet(first.cache, key, ctx2.now) == dumped;
    forall i | 0 <= i < |xs|
      ensures EventFromJson(EventToJson(xs[i])) == Success(xs[i])
    {
      EventRoundTrip(xs[i]);
    }
    ValidateDump(xs, EventFromJson, EventToJson);
  }

  /** `cal.accountId or ""`. */
  function CalendarAccount(cal: Calendar): string {
    cal.accountId.GetOr("")
  }

  /** `cal.id or cal.calendarId or ""`. */
  function CalendarKey(cal: Calendar): string {
    if cal.id != "" then cal.id else cal.calendarId.GetOr("")
  }

  /** A calendar that is grouped under `aid`. */
  predicate GroupedUnder(cal: Calendar, aid: string) {
    aid != "" && CalendarAccount(cal) == aid && CalendarKey(cal) != ""
  }

  /** Reference: the calendar ids of `aid`, in calendar order. */
  function CalIdsFor(cals: seq<Calendar>, aid: string): seq<string> {
    if |cals| == 0 then []
    else (if GroupedUnder(cals[0], aid) then [CalendarKey(cals[0])] else []) + CalIdsFor(cals[1..], aid)
  }

  /** The grouping loop: `cals_by_account.setdefault(aid, []).append(cid)`
      over the calendars in order, skipping empty account or calendar ids. */
  function GroupByAccount(cals: seq<Calendar>): map<string, seq<string>>
    decreases |cals|
  {
    if |cals| == 0 then map[]
    else
      var m := GroupByAccount(cals[..|cals| - 1]);
      var cal := cals[|cals| - 1];
      var aid := CalendarAccount(cal);
      if aid != "" && CalendarKey(cal) != "" then
        m[aid := (if aid in m then m[aid] else []) + [CalendarKey(cal)]]
      else m
  }

  /** `cals_by_account.get(aid, [])`. */
  function IdsOf(groups: map<string, seq<string>>, aid: string): seq<string> {
    if aid in groups then groups[aid] else []
  }

  lemma {:induction false} CalIdsForSnoc(cals: seq<Calendar>, cal: Calendar, aid: string)
    ensures CalIdsFor(cals + [cal], aid) == CalIdsFor(cals, aid) + (if GroupedUnder(cal, aid) then [CalendarKey(cal)] else [])
    decreases |cals|
  {
    if |cals| == 0 {
      assert CalIdsFor([cal], aid) == (if GroupedUnder(cal, aid) then [CalendarKey(cal)] else []) + CalIdsFor([], aid);
    } else {
      assert (cals + [cal])[1..] == cals[1..] + [cal];
      CalIdsForSnoc(cals[1..], cal, aid);
    }
  }

  /** The grouping yields, for every account id, exactly its calendars' ids
      in calendar order. */
  lemma {:induction false} GroupByAccountSpec(cals: seq<Calendar>, aid: string)
    ensures IdsOf(GroupByAccount(cals), aid) == CalIdsFor(cals, aid)
    decreases |cals|
  {
    if |cals| > 0 {
      var init := cals[..|cals| - 1];
      var cal := cals[|cals| - 1];
      GroupByAccountSpec(init, aid);
      assert cals == init + [cal];
      CalIdsForSnoc(init, cal, aid);
    }
  }

  /** `any(match_account(a.model_dump(), k) for k in account_keys)`. */
  predicate MatchesAnyKey(a: Account, keys: seq<string>) {
    exists k :: k in keys && G.MatchAccount(AccountToJson(a).fields, k) == Success(true)
  }

  /** The account filter: a non-empty key list keeps the accounts matching
      any key; `None` or an empty list keeps all. */
  function FilterAccounts(accounts: seq<Account>, keys: Option<seq<string>>): (r: seq<Account>)
    ensures (keys.None? || keys.value == []) ==> r == accounts
    ensures keys.Some? && keys.value != [] ==> r == Seqs.Filter(accounts, a => MatchesAnyKey(a, keys.value))
  {
    if keys.Some? && keys.value != [] then Seqs.Filter(accounts, a => MatchesAnyKey(a, keys.value))
    else accounts
  }

  /** The calendar filter: a non-empty name whitelist takes priority over
      `active_only`, which keeps calendars active by default. */
  function FilterCalendars(cals: seq<Calendar>, names: Option<seq<string>>, activeOnly: bool): (r: seq<Calendar>)
    ensures names.Some? && names.value != [] ==>
      forall cal :: cal in r <==> cal in cals && cal.name.Some? && cal.name.value in names.value
    ensures (names.None? || names.value == []) && activeOnly ==>
      forall cal :: cal in r <==> cal in cals && cal.isActiveByDefault == Some(true)
    ensures (names.None? || names.value == []) && !activeOnly ==> r == cals
  {
    if names.Some? && names.value != [] then
      Seqs.Filter(cals, (cal: Calendar) => cal.name.Some? && cal.name.value in names.value)
    else if activeOnly then
      Seqs.Filter(cals, (cal: Calendar) => cal.isActiveByDefault == Some(true))
    else cals
  }

  /** The calendar filter decides calendar by calendar, so it keeps the
      input order. */
  lemma FilterCalendarsConcat(a: seq<Calendar>, b: seq<Calendar>, cal: Calendar, names: Option<seq<string>>, activeOnly: bool)
    ensures FilterCalendars(a + b, names, activeOnly) == FilterCalendars(a, names, activeOnly) + FilterCalendars(b, names, activeOnly)
    ensures names.Some? && names.value != [] ==>
      FilterCalendars([cal], names, activeOnly) == if cal.name.Some? && cal.name.value in names.value then [cal] else []
    ensures (names.None? || names.value == []) && activeOnly ==>
      FilterCalendars([cal], names, activeOnly) == if cal.isActiveByDefault == Some(true) then [cal] else []
  {
    assert [cal][1..] == [];
    if names.Some? && names.value != [] {
      Seqs.FilterConcat(a, b, (cal: Calendar) => cal.name.Some? && cal.name.value in names.value);
    } else if activeOnly {
      Seqs.FilterConcat(a, b, (cal: Calendar) => cal.isActiveByDefault == Some(true));
    }
  }

  /** Whether an account's events are requested. */
  predicate Queried(a: Account, groups: map<string, seq<string>>) {
    CalendarCapable(a) && IdsOf(groups, a.id) != []
  }

  /** The fan-out loop: one `list_events` per calendar-capable account with
      calendars, in account order; the first error ends the call. */
  function FetchEvents(ctx: Ctx, c: Option<Cache.Store>, accounts: seq<Account>, groups: map<string, seq<string>>,
                       start: string, end: string): (r: Step<seq<Event>>)
    decreases |accounts|
  {
    if |accounts| == 0 then Step(Success([]), c, [])
    else
      var a := accounts[0];
      if !Queried(a, groups) then FetchEvents(ctx, c, accounts[1..], groups, start, end)
      else
        var s := ListEvents(ctx, c, a.id, IdsOf(groups, a.id), start, end);
        match s.value
        case Failure(e) => Step(Failure(e), s.cache, s.sent)
        case Success(evs) =>
          var rest := FetchEvents(ctx, s.cache, accounts[1..], groups, start, end);
          Step(if rest.value.Success? then Success(evs + rest.value.value) else rest.value, rest.cache, s.sent + rest.sent)
  }

  /** Reference: the requests the fan-out makes with caching off. */
  function PlannedEventsReqs(accounts: seq<Account>, groups: map<string, seq<string>>, start: string, end: string): seq<Req> {
    if |accounts| == 0 then []
    else
      (if Queried(accounts[0], groups) then [EventsReq(accounts[0].id, IdsOf(groups, accounts[0].id), start, end)] else [])
      + PlannedEventsReqs(accounts[1..], groups, start, end)
  }

  /** With caching off, the fan-out requests the planned accounts' events in
      account order, stopping at the first failure: what it sends is a
      prefix of the plan, and all of it when it succeeds. */
  lemma {:induction false} FetchEventsRequests(ctx: Ctx, accounts: seq<Account>, groups: map<string, seq<string>>, start: string, end: string)
    ensures var r := FetchEvents(ctx, None, accounts, groups, start, end);
      && r.cache.None?
      && r.sent <= PlannedEventsReqs(accounts, groups, start, end)
      && (r.value.Success? ==> r.sent == PlannedEventsReqs(accounts, groups, start, end))
    decreases |accounts|
  {
    if |accounts| > 0 {
      FetchEventsRequests(ctx, accounts[1..], groups, start, end);
      var a := accounts[0];
      var rest := FetchEvents(ctx, None, accounts[1..], groups, start, end);
      if Queried(a, groups) {
        var req := EventsReq(a.id, IdsOf(groups, a.id), start, end);
        assert PlannedEventsReqs(accounts, groups, start, end) == [req] + PlannedEventsReqs(accounts[1..], groups, start, end);
        var s := ListEvents(ctx, None, a.id, IdsOf(groups, a.id), start, end);
        assert s.sent == [req] && s.cache.None?;
        var r := FetchEvents(ctx, None, accounts, groups, start, end);
        assert r.sent == [req] || r.sent == [req] + rest.sent;
      }
    }
  }

  /** One queried account's events, fetched directly: the request, the
      envelope's `events` list, validated. */
  function AccountEvents(ctx: Ctx, a: Account, groups: map<string, seq<string>>, start: string, end: string): Result<seq<Event>, Raised> {
    var raw :- Send(ctx.origin, EventsReq(a.id, IdsOf(groups, a.id), start, end));
    ValidateList(Envelope(raw, "events"), EventFromJson)
  }

  /** Reference: the queried accounts' events concatenated in account
      order; the first failure is the result. */
  function EventsGathered(ctx: Ctx, accounts: seq<Account>, groups: map<string, seq<string>>, start: string, end: string): Result<seq<Event>, Raised> {
    if |accounts| == 0 then Success([])
    else if !Queried(accounts[0], groups) then EventsGathered(ctx, accounts[1..], groups, start, end)
    else
      var part :- AccountEvents(ctx, accounts[0], groups, start, end);
      var rest :- EventsGathered(ctx, accounts[1..], groups, start, end);
      Success(part + rest)
  }

  /** With caching off, the fan-out returns exactly the queried accounts'
      events, concatenated in account order, or the first failure. */
  lemma {:induction false} FetchEventsGathers(ctx: Ctx, accounts: seq<Account>, groups: map<string, seq<string>>, start: string, end: string)
    ensures FetchEvents(ctx, None, accounts, groups, start, end).value == EventsGathered(ctx, accounts, groups, start, end)
    decreases |accounts|
  {
    if |accounts| > 0 {
      FetchEventsGathers(ctx, accounts[1..], groups, start, end);
    }
  }

  /** Synced copies carry "(via Morgen)" in their title. */
  predicate IsSyncedCopy(e: Event) {
    Text.Contains(e.title.GetOr(""), "(via Morgen)")
  }

  /** The dedup step: keep the events that are not synced copies, in order. */
  function Dedup(events: seq<Event>): (r: seq<Event>)
    ensures forall e :: e in r <==> e in events && !IsSyncedCopy(e)
    ensures |r| <= |events|
  {
    Seqs.Filter(events, (e: Event) => !IsSyncedCopy(e))
  }

  /** Dedup keeps an event exactly when it is not a synced copy and works
      event by event, so the order of the kept events is the input's. */
  lemma DedupConcat(a: seq<Event>, b: seq<Event>, e: Event)
    ensures Dedup(a + b) == Dedup(a) + Dedup(b)
    ensures Dedup([e]) == if IsSyncedCopy(e) then [] else [e]
  {
    Seqs.FilterConcat(a, b, (e: Event) => !IsSyncedCopy(e));
    assert [e][1..] == [];
  }

  /** The part of `list_all_events` after both lists are in hand: filter,
      group, fan out, drop the synced copies. */
  function EventsFanout(ctx: Ctx, c: Option<Cache.Store>, accounts: seq<Account>, cals: seq<Calendar>, start: string, end: string,
                        accountKeys: Option<seq<string>>, calendarNames: Option<seq<string>>, activeOnly: bool): (r: Step<seq<Event>>)
    ensures r.value.Success? ==> forall e :: e in r.value.value ==> !IsSyncedCopy(e)
  {
    var s := FetchEvents(ctx, c, FilterAccounts(accounts, accountKeys),
                         GroupByAccount(FilterCalendars(cals, calendarNames, activeOnly)), start, end);
    Step(if s.value.Success? then Success(Dedup(s.value.value)) else s.value, s.cache, s.sent)
  }

  /** With caching off, the fan-out requests the queried accounts' events in
      account order and stops at the first failure; on success the result is
      every fetched event that is not a synced copy. */
  lemma EventsFanoutSpec(ctx: Ctx, accounts: seq<Account>, cals: seq<Calendar>, start: string, end: string,
                         accountKeys: Option<seq<string>>, calendarNames: Option<seq<string>>, activeOnly: bool)
    ensures var queried := FilterAccounts(accounts, accountKeys);
      var groups := GroupByAccount(FilterCalendars(cals, calendarNames, activeOnly));
      var f := FetchEvents(ctx, None, queried, groups, start, end);
      var r := EventsFanout(ctx, None, accounts, cals, start, end, accountKeys, calendarNames, activeOnly);
      && r.sent <= PlannedEventsReqs(queried, groups, start, end)
      && (r.value.Success? <==> f.value.Success?)
      && (r.value.Success? ==>
            && r.sent == PlannedEventsReqs(queried, groups, start, end)
            && r.value.value == Dedup(f.value.value))
      && var g := EventsGathered(ctx, queried, groups, start, end);
         r.value == if g.Success? then Success(Dedup(g.value)) else g
  {
    var queried := FilterAccounts(accounts, accountKeys);
    var groups := GroupByAccount(FilterCalendars(cals, calendarNames, activeOnly));
    FetchEventsRequests(ctx, queried, groups, start, end);
    FetchEventsGathers(ctx, queried, groups, start, end);
  }

  /** `list_all_events(start, end, account_keys, calendar_names, active_only)`:
      the account list, the calendar list, then the fan-out. */
  function ListAllEvents(ctx: Ctx, c: Option<Cache.Store>, start: string, end: string,
                         accountKeys: Option<seq<string>>, calendarNames: Option<seq<string>>, activeOnly: bool): (r: Step<seq<Event>>)
    ensures r.value.Success? ==> forall e :: e in r.value.value ==> !IsSyncedCopy(e)
  {
    var s1 := ListAccounts(ctx, c);
    match s1.value
    case Failure(e) => Step(Failure(e), s1.cache, s1.sent)
    case Success(accounts) =>
      var s2 := ListCalendars(ctx, s1.cache);
      match s2.value
      case Failure(e) => Step(Failure(e), s2.cache, s1.sent + s2.sent)
      case Success(cals) =>
        var f := EventsFanout(ctx, s2.cache, accounts, cals, start, end, accountKeys, calendarNames, activeOnly);
        Step(f.value, f.cache, s1.sent + s2.sent + f.sent)
  }

  /** With caching off, the account list and the calendar list are requested
      first, then the fan-out runs on what they returned. */
  lemma ListAllEventsSpec(ctx: Ctx, start: string, end: string,
                          accountKeys: Option<seq<string>>, calendarNames: Option<seq<string>>, activeOnly: bool,
                          accounts: seq<Account>, cals: seq<Calendar>)
    requires ListAccounts(ctx, None).value == Success(accounts)
    requires ListCalendars(ctx, None).value == Success(cals)
    ensures var f := EventsFanout(ctx, None, accounts, cals, start, end, accountKeys, calendarNames, activeOnly);
      var r := ListAllEvents(ctx, None, start, end, accountKeys, calendarNames, activeOnly);
      r.sent == [AccountsReq, CalendarsReq] + f.sent && r.value == f.value
  {
    var f := EventsFanout(ctx, None, accounts, cals, start, end, accountKeys, calendarNames, activeOnly);
    assert ListAllEvents(ctx, None, start, end, accountKeys, calendarNames, activeOnly)
        == Step(f.value, f.cache, [AccountsReq] + [CalendarsReq] + f.sent);
  }

  /** An account without the calendars capability is never queried, even
      when it has calendars. */
  lemma NonCalendarAccountsSkipped(ctx: Ctx, c: Option<Cache.Store>, a: Account, groups: map<string, seq<string>>, start: string, end: string)
    requires !CalendarCapable(a)
    ensures FetchEvents(ctx, c, [a], groups, start, end) == Step(Success([]), c, [])
  {
  }

  // ----- Tasks across sources -----

  /** The unvalidated lists gathered from all task sources. */
  datatype RawTasks = RawTasks(tasks: seq<Json>, labelDefs: seq<Json>, spaces: seq<Json>)

  function Concat(a: RawTasks, b: RawTasks): RawTasks {
    RawTasks(a.tasks + b.tasks, a.labelDefs + b.labelDefs, a.spaces + b.spaces)
  }

  /** The native listing request: only `limit`. */
  function NativeTasksReq(limit: int): Req {
    GetReq("/tasks/list", [("limit", JInt(limit))])
  }

  /** One external account's listing request. */
  function AccountTasksReq(accountId: string, limit: int): Req {
    GetReq("/tasks/list", [("accountId", JStr(accountId)), ("limit", JInt(limit))])
  }

  /** `list.extend(x)` needs an iterable `x`. */
  function Extendable(x: Json): Result<seq<Json>, Raised> {
    match Iterate(x)
    case None => Failure(Malformed("not iterable"))
    case Some(items) => Success(items)
  }

  /** The native tasks inside a native response: a dict's `data` (or the
      dict) gives its `tasks` when it is a dict and is the list when it is a
      list; a bare list is the list; anything else adds nothing. */
  function NativeTasks(data: Json): Result<seq<Json>, Raised> {
    match data
    case JObj(fields) =>
      var inner := GetOr(fields, "data", data);
      (match inner
       case JObj(f) => Extendable(GetOr(f, "tasks", JArr([])))
       case JArr(items) => Success(items)
       case _ => Success([]))
    case JArr(items) => Success(items)
    case _ => Success([])
  }

  /** What one external account contributes, read from the dict cached or
      fetched for it; a value that is not a dict has no `get` and raises. */
  function AccountContribution(inner: Json): (r: Result<RawTasks, Raised>)
    ensures !inner.JObj? ==> r.Failure?
  {
    match inner
    case JObj(f) =>
      var tasks :- Extendable(GetOr(f, "tasks", JArr([])));
      var defs :- Extendable(GetOr(f, "labelDefs", JArr([])));
      var spaces :- Extendable(GetOr(f, "spaces", JArr([])));
      Success(RawTasks(tasks, defs, spaces))
    case _ => Failure(Malformed("task listing"))
  }

  /** Whether an external account is listed for the requested source. */
  predicate Selected(a: Account, source: Option<string>) {
    (source.None? || a.integrationId.GetOr("") == source.value) && a.id != ""
  }

  /** The per-account loop of `list_all_tasks`. The dict unwrapped from a
      response is cached before it is read. */
  function FetchTasks(ctx: Ctx, c: Option<Cache.Store>, accounts: seq<Account>, source: Option<string>, limit: int): (r: Step<RawTasks>)
    decreases |accounts|
  {
    if |accounts| == 0 then Step(Success(RawTasks([], [], [])), c, [])
    else
      var a := accounts[0];
      if !Selected(a, source) then FetchTasks(ctx, c, accounts[1..], source, limit)
      else
        var key := "tasks/" + a.id;
        var hit := CacheGet(c, key, ctx.now);
        var got: Step<Json> :=
          if hit != JNull then Step(Success(hit), c, [])
          else
            var req := AccountTasksReq(a.id, limit);
            match Send(ctx.origin, req)
            case Failure(e) => Step(Failure(e), c, [req])
            case Success(raw) =>
              var inner := if raw.JObj? then GetOr(raw.fields, "data", raw) else JObj([]);
              Step(Success(inner), CacheSet(c, key, inner, Cache.TtlTasks, ctx.now), [req]);
        match got.value
        case Failure(e) => Step(Failure(e), got.cache, got.sent)
        case Success(inner) =>
          match AccountContribution(inner)
          case Failure(e) => Step(Failure(e), got.cache, got.sent)
          case Success(part) =>
            var rest := FetchTasks(ctx, got.cache, accounts[1..], source, limit);
            Step(if rest.value.Success? then Success(Concat(part, rest.value.value)) else rest.value, rest.cache, got.sent + rest.sent)
  }

  /** Whether the native tasks are listed for the requested source. */
  predicate WantsNative(source: Option<string>) {
    source.None? || source == Some(NativeSource)
  }

  /** The native part of `list_all_tasks`: one uncached request when the
      native source is wanted, nothing otherwise. */
  function NativeStep(ctx: Ctx, c: Option<Cache.Store>, source: Option<string>, limit: int): (r: Step<seq<Json>>)
    ensures r.cache == c
    ensures WantsNative(source) ==> r.sent == [NativeTasksReq(limit)]
    ensures !WantsNative(source) ==> r == Step(Success([]), c, [])
  {
    if WantsNative(source) then
      var req := NativeTasksReq(limit);
      match Send(ctx.origin, req)
      case Failure(e) => Step(Failure(e), c, [req])
      case Success(data) => Step(NativeTasks(data), c, [req])
    else Step(Success([]), c, [])
  }

  /** Validating the gathered lists: tasks, then label definitions, then
      spaces; the first invalid item raises. */
  function ValidateRaw(raw: RawTasks): (r: Result<TaskListResponse, Raised>)
  {
    var tasks :- Seqs.MapAll(raw.tasks, TaskFromJson);
    var defs :- Seqs.MapAll(raw.labelDefs, LabelDefFromJson);
    var spaces :- Seqs.MapAll(raw.spaces, SpaceFromJson);
    Success(TaskListResponse(tasks, defs, spaces))
  }

  /** Validation succeeds exactly when every task, label definition and
      space validates; a bad task is reported first; nothing is dropped. */
  lemma ValidateRawSpec(raw: RawTasks)
    ensures ValidateRaw(raw).Success? <==>
      && (forall i :: 0 <= i < |raw.tasks| ==> TaskFromJson(raw.tasks[i]).Success?)
      && (forall i :: 0 <= i < |raw.labelDefs| ==> LabelDefFromJson(raw.labelDefs[i]).Success?)
      && (forall i :: 0 <= i < |raw.spaces| ==> SpaceFromJson(raw.spaces[i]).Success?)
    ensures ValidateRaw(raw).Success? ==> forall i :: 0 <= i < |raw.tasks| ==> TaskFromJson(raw.tasks[i]) == Success(ValidateRaw(raw).value.tasks[i])
    ensures Seqs.MapAll(raw.tasks, TaskFromJson).Failure? ==> ValidateRaw(raw) == Failure(Seqs.MapAll(raw.tasks, TaskFromJson).error)
    ensures ValidateRaw(raw).Success? ==> |ValidateRaw(raw).value.tasks| == |raw.tasks| && |ValidateRaw(raw).value.labelDefs| == |raw.labelDefs| && |ValidateRaw(raw).value.spaces| == |raw.spaces|
  {
  }

  /** The external part of `list_all_tasks`, after the native tasks are in
      hand: the task accounts, their listings, then validation. */
  function ExternalTasks(ctx: Ctx, c: Option<Cache.Store>, source: Option<string>, limit: int, nativeTasks: seq<Json>): (r: Step<TaskListResponse>)
    ensures ExternalSent(r.sent, limit)
  {
    var s := ListTaskAccounts(ctx, c);
    match s.value
    case Failure(e) =>
      ExternalSentJoin(s.sent, [], [], limit);
      assert s.sent + [] == s.sent;
      Step(Failure(e), s.cache, s.sent)
    case Success(accounts) =>
      var t := AccountsTasks(ctx, s.cache, accounts, source, limit, nativeTasks);
      ExternalSentJoin(s.sent, t.sent, accounts, limit);
      Step(t.value, t.cache, s.sent + t.sent)
  }

  /** The task accounts' listings, then validation of everything gathered. */
  function AccountsTasks(ctx: Ctx, c: Option<Cache.Store>, accounts: seq<Account>, source: Option<string>, limit: int,
                         nativeTasks: seq<Json>): (r: Step<TaskListResponse>)
    ensures forall q :: q in r.sent ==> exists a :: a in accounts && q == AccountTasksReq(a.id, limit)
  {
    var f := FetchTasks(ctx, c, accounts, source, limit);
    FetchTasksSendsAccountReqs(ctx, c, accounts, source, limit);
    match f.value
    case Failure(e) => Step(Failure(e), f.cache, f.sent)
    case Success(raw) => Step(ValidateRaw(Concat(RawTasks(nativeTasks, [], []), raw)), f.cache, f.sent)
  }

  /** Every request is the account list or one account's task listing. */
  ghost predicate ExternalSent(sent: seq<Req>, limit: int) {
    forall q :: q in sent ==> q == AccountsReq || exists a: Account :: q == AccountTasksReq(a.id, limit)
  }

  lemma ExternalSentJoin(first: seq<Req>, rest: seq<Req>, accounts: seq<Account>, limit: int)
    requires first == [] || first == [AccountsReq]
    requires forall q :: q in rest ==> exists a :: a in accounts && q == AccountTasksReq(a.id, limit)
    ensures ExternalSent(first + rest, limit)
  {
    forall q | q in first + rest ensures q == AccountsReq || exists a: Account :: q == AccountTasksReq(a.id, limit) {
      if q !in first {
        var a :| a in accounts && q == AccountTasksReq(a.id, limit);
      }
    }
  }

  /** `list_all_tasks(source, limit)`: native tasks first, then the task
      accounts' listings in account order. */
  function ListAllTasks(ctx: Ctx, c: Option<Cache.Store>, source: Option<string>, limit: int): (r: Step<TaskListResponse>)
  {
    var native := NativeStep(ctx, c, source, limit);
    match native.value
    case Failure(e) => Step(Failure(e), native.cache, native.sent)
    case Success(nativeTasks) =>
      var e := ExternalTasks(ctx, native.cache, source, limit, nativeTasks);
      Step(e.value, e.cache, native.sent + e.sent)
  }

  /** Reference: the accounts the fan-out lists, with caching off. */
  function PlannedTaskReqs(accounts: seq<Account>, source: Option<string>, limit: int): seq<Req> {
    if |accounts| == 0 then []
    else
      (if Selected(accounts[0], source) then [AccountTasksReq(accounts[0].id, limit)] else [])
      + PlannedTaskReqs(accounts[1..], source, limit)
  }

  /** With caching off, the task fan-out lists exactly the selected accounts
      in order, stopping at the first failure. */
  lemma {:induction false} FetchTasksRequests(ctx: Ctx, accounts: seq<Account>, source: Option<string>, limit: int)
    ensures var r := FetchTasks(ctx, None, accounts, source, limit);
      && r.cache.None?
      && r.sent <= PlannedTaskReqs(accounts, source, limit)
      && (r.value.Success? ==> r.sent == PlannedTaskReqs(accounts, source, limit))
    decreases |accounts|
  {
    if |accounts| > 0 {
      FetchTasksRequests(ctx, accounts[1..], source, limit);
      var a := accounts[0];
      var rest := FetchTasks(ctx, None, accounts[1..], source, limit);
      if Selected(a, source) {
        var req := AccountTasksReq(a.id, limit);
        assert PlannedTaskReqs(accounts, source, limit) == [req] + PlannedTaskReqs(accounts[1..], source, limit);
        var r := FetchTasks(ctx, None, accounts, source, limit);
        assert r.sent == [req] || r.sent == [req] + rest.sent;
      }
    }
  }

  /** One selected account's contribution, fetched directly. */
  function Contribution(ctx: Ctx, a: Account, limit: int): Result<RawTasks, Raised> {
    var raw :- Send(ctx.origin, AccountTasksReq(a.id, limit));
    AccountContribution(if raw.JObj? then GetOr(raw.fields, "data", raw) else JObj([]))
  }

  /** Reference: the selected accounts' contributions concatenated in
      account order; the first failure is the result. */
  function Gathered(ctx: Ctx, accounts: seq<Account>, source: Option<string>, limit: int): Result<RawTasks, Raised> {
    if |accounts| == 0 then Success(RawTasks([], [], []))
    else if !Selected(accounts[0], source) then Gathered(ctx, accounts[1..], source, limit)
    else
      var part :- Contribution(ctx, accounts[0], limit);
      var rest :- Gathered(ctx, accounts[1..], source, limit);
      Success(Concat(part, rest))
  }

  /** With caching off, the fan-out gathers exactly the selected accounts'
      tasks, label definitions and spaces, concatenated in account order. */
  lemma {:induction false} FetchTasksGathers(ctx: Ctx, accounts: seq<Account>, source: Option<string>, limit: int)
    ensures FetchTasks(ctx, None, accounts, source, limit).value == Gathered(ctx, accounts, source, limit)
    decreases |accounts|
  {
    if |accounts| > 0 {
      FetchTasksGathers(ctx, accounts[1..], source, limit);
    }
  }

  /** Failures are not isolated per account: with caching off, one selected
      account whose listing fails makes the whole fan-out fail. */
  lemma {:induction false} TaskFailurePropagates(ctx: Ctx, accounts: seq<Account>, source: Option<string>, limit: int, i: nat)
    requires i < |accounts| && Selected(accounts[i], source)
    requires Send(ctx.origin, AccountTasksReq(accounts[i].id, limit)).Failure?
    ensures FetchTasks(ctx, None, accounts, source, limit).value.Failure?
    decreases i
  {
    if i > 0 {
      TaskFailurePropagates(ctx, accounts[1..], source, limit, i - 1);
    }
  }

  /** The native listing is requested exactly when no source or the native
      source is asked for. */
  lemma NativeRequestedIffNativeSource(ctx: Ctx, c: Option<Cache.Store>, source: Option<string>, limit: int)
    ensures WantsNative(source) <==> NativeTasksReq(limit) in ListAllTasks(ctx, c, source, limit).sent
  {
    if WantsNative(source) {
      assert ListAllTasks(ctx, c, source, limit).sent[0] == NativeTasksReq(limit);
    } else {
      OtherSourcesSkipNative(ctx, c, source, limit);
    }
  }

  lemma OtherSourcesSkipNative(ctx: Ctx, c: Option<Cache.Store>, source: Option<string>, limit: int)
    requires !WantsNative(source)
    ensures NativeTasksReq(limit) !in ListAllTasks(ctx, c, source, limit).sent
  {
    var e := ExternalTasks(ctx, c, source, limit, []);
    assert NativeStep(ctx, c, source, limit) == Step(Success([]), c, []);
    assert ListAllTasks(ctx, c, source, limit) == Step(e.value, e.cache, [] + e.sent);
    ExternalTasksSkipNative(ctx, c, source, limit, []);
  }

  lemma ExternalTasksSkipNative(ctx: Ctx, c: Option<Cache.Store>, source: Option<string>, limit: int, nativeTasks: seq<Json>)
    ensures NativeTasksReq(limit) !in ExternalTasks(ctx, c, source, limit, nativeTasks).sent
  {
    var sent := ExternalTasks(ctx, c, source, limit, nativeTasks).sent;
    forall q | q in sent ensures q != NativeTasksReq(limit) {
      if q != AccountsReq {
        var a: Account :| q == AccountTasksReq(a.id, limit);
        assert |q.params| == 2;
      } else {
        assert AccountsReq.path != NativeTasksReq(limit).path;
      }
    }
  }

  /** The fan-out only ever sends per-account listings. */
  lemma {:induction false} FetchTasksSendsAccountReqs(ctx: Ctx, c: Option<Cache.Store>, accounts: seq<Account>, source: Option<string>, limit: int)
    ensures forall q :: q in FetchTasks(ctx, c, accounts, source, limit).sent ==>
      exists a :: a in accounts && q == AccountTasksReq(a.id, limit)
    decreases |accounts|
  {
    if |accounts| > 0 {
      var a := accounts[0];
      if !Selected(a, source) {
        FetchTasksSendsAccountReqs(ctx, c, accounts[1..], source, limit);
      } else {
        var key := "tasks/" + a.id;
        var hit := CacheGet(c, key, ctx.now);
        var got: Step<Json> :=
          if hit != JNull then Step(Success(hit), c, [])
          else
            var req := AccountTasksReq(a.id, limit);
            match Send(ctx.origin, req)
            case Failure(e) => Step(Failure(e), c, [req])
            case Success(raw) =>
              var inner := if raw.JObj? then GetOr(raw.fields, "data", raw) else JObj([]);
              Step(Success(inner), CacheSet(c, key, inner, Cache.TtlTasks, ctx.now), [req]);
        FetchTasksSendsAccountReqs(ctx, got.cache, accounts[1..], source, limit);
      }
    }
  }

  // ----- Single reads -----

  /** A read-through single record under `key`, fetched from `req` and
      cached for `TtlSingle`; an empty response is "not found". */
  function CachedSingle<T>(ctx: Ctx, c: Option<Cache.Store>, key: string, req: Req, envKey: string, notFound: string,
                           parse: Json -> Result<T, Raised>, dump: T -> Json): (r: Step<T>)
    ensures CacheGet(c, key, ctx.now) != JNull ==> r == Step(parse(CacheGet(c, key, ctx.now)), c, [])
    ensures CacheGet(c, key, ctx.now) == JNull ==> r.sent == [req]
    ensures CacheGet(c, key, ctx.now) == JNull && Send(ctx.origin, req) == Success(JNull) ==>
      r.value == Failure(Morgen(NewError(NotFound, notFound, None))) && r.cache == c
    ensures r.value.Success? && CacheGet(c, key, ctx.now) == JNull ==>
      r.cache == CacheSet(c, key, dump(r.value.value), Cache.TtlSingle, ctx.now)
    ensures CacheGet(c, key, ctx.now) == JNull && Send(ctx.origin, req).Failure? ==>
      r == Step(Failure(Send(ctx.origin, req).error), c, [req])
    ensures CacheGet(c, key, ctx.now) == JNull && Send(ctx.origin, req).Success? && Send(ctx.origin, req).value != JNull ==>
      && r.value == parse(SingleEnvelope(Send(ctx.origin, req).value, envKey).value)
      && (r.value.Success? <==> ExtractSingle(Send(ctx.origin, req).value, envKey, parse).Success?)
      && (r.value.Success? ==> ExtractSingle(Send(ctx.origin, req).value, envKey, parse).value == Some(r.value.value))
      && (r.value.Failure? ==> r.cache == c)
  {
    var hit := CacheGet(c, key, ctx.now);
    if hit != JNull then Step(parse(hit), c, [])
    else
      match Send(ctx.origin, req)
      case Failure(e) => Step(Failure(e), c, [req])
      case Success(data) =>
        match ExtractSingle(data, envKey, parse)
        case Failure(e) => Step(Failure(e), c, [req])
        case Success(None) => Step(Failure(Morgen(NewError(NotFound, notFound, None))), c, [req])
        case Success(Some(x)) => Step(Success(x), CacheSet(c, key, dump(x), Cache.TtlSingle, ctx.now), [req])
  }

  /** `get_task(task_id)`. */
  function GetTask(ctx: Ctx, c: Option<Cache.Store>, taskId: string): (r: Step<Task>)
    ensures r.sent == [] || r.sent == [GetReq("/tasks/", [("id", JStr(taskId))])]
    ensures var raw := Send(ctx.origin, GetReq("/tasks/", [("id", JStr(taskId))]));
      CacheGet(c, "tasks/" + taskId, ctx.now) == JNull && raw.Success? && raw.value != JNull ==>
        r.value == TaskFromJson(SingleEnvelope(raw.value, "task").value)
    ensures var raw := Send(ctx.origin, GetReq("/tasks/", [("id", JStr(taskId))]));
      CacheGet(c, "tasks/" + taskId, ctx.now) == JNull && raw.Failure? ==> r.value == Failure(raw.error)
  {
    CachedSingle(ctx, c, "tasks/" + taskId, GetReq("/tasks/", [("id", JStr(taskId))]), "task",
                 "Task " + taskId + " not found", TaskFromJson, TaskToJson)
  }

  /** `get_tag(tag_id)`. */
  function GetTag(ctx: Ctx, c: Option<Cache.Store>, tagId: string): (r: Step<Tag>)
    ensures r.sent == [] || r.sent == [GetReq("/tags/", [("id", JStr(tagId))])]
    ensures var raw := Send(ctx.origin, GetReq("/tags/", [("id", JStr(tagId))]));
      CacheGet(c, "tags/" + tagId, ctx.now) == JNull && raw.Success? && raw.value != JNull ==>
        r.value == TagFromJson(SingleEnvelope(raw.value, "tag").value)
    ensures var raw := Send(ctx.origin, GetReq("/tags/", [("id", JStr(tagId))]));
      CacheGet(c, "tags/" + tagId, ctx.now) == JNull && raw.Failure? ==> r.value == Failure(raw.error)
  {
    CachedSingle(ctx, c, "tags/" + tagId, GetReq("/tags/", [("id", JStr(tagId))]), "tag",
                 "Tag " + tagId + " not found", TagFromJson, TagToJson)
  }

  /** A fetched task is served from the cache for the next five minutes. */
  lemma GetTaskHitsAfterMiss(ctx: Ctx, ctx2: Ctx, c: Option<Cache.Store>, taskId: string)
    requires c.Some? && ctx2.now <= ctx.now + Cache.TtlSingle
    requires CacheGet(c, "tasks/" + taskId, ctx.now) == JNull
    requires GetTask(ctx, c, taskId).value.Success?
    ensures var first := GetTask(ctx, c, taskId);
      var second := GetTask(ctx2, first.cache, taskId);
      second.sent == [] && second.value == first.value
  {
    var t := GetTask(ctx, c, taskId).value.value;
    Cache.SetThenGet(c.value, "tasks/" + taskId, TaskToJson(t), Cache.TtlSingle, ctx.now, ctx2.now);
    TaskRoundTrip(t);
  }

  /** Single tasks and per-account task listings share the `tasks/` key
      space: a task whose id is an account id reads that account's cached
      listing, which does not validate as a task, and no request is sent. */
  lemma TaskKeysShareNamespace(ctx: Ctx, s: Cache.Store, accountId: string, listing: Fields)
    requires !Has(listing, "id")
    requires "tasks/" + accountId in s.meta && !Cache.Expired(s.meta["tasks/" + accountId], ctx.now)
    requires Cache.FileName("tasks/" + accountId) in s.files
    requires s.files[Cache.FileName("tasks/" + accountId)].content == Some(JObj(listing))
    ensures GetTask(ctx, Some(s), accountId).value.Failure?
    ensures GetTask(ctx, Some(s), accountId).sent == []
  {
  }

  // ----- Mutations -----

  /** A mutation: the request, then (only if it did not raise) the cache
      prefix is invalidated, then the response is read. */
  function Mutate<T>(ctx: Ctx, c: Option<Cache.Store>, req: Req, prefix: string, read: Json -> Result<T, Raised>): (r: Step<T>)
    ensures r.sent == [req]
    ensures Send(ctx.origin, req).Failure? ==> r.cache == c && r.value == Failure(Send(ctx.origin, req).error)
    ensures Send(ctx.origin, req).Success? ==>
      r.cache == CacheInvalidate(c, prefix) && r.value == read(Send(ctx.origin, req).value)
  {
    match Send(ctx.origin, req)
    case Failure(e) => Step(Failure(e), c, [req])
    case Success(data) => Step(read(data), CacheInvalidate(c, prefix), [req])
  }

  function ReadEvent(data: Json): Result<Option<Event>, Raised> {
    ExtractSingle(data, "event", EventFromJson)
  }

  function ReadTask(data: Json): Result<Option<Task>, Raised> {
    ExtractSingle(data, "task", TaskFromJson)
  }

  function ReadTag(data: Json): Result<Option<Tag>, Raised> {
    ExtractSingle(data, "tag", TagFromJson)
  }

  function Ignore(data: Json): Result<(), Raised> {
    Success(())
  }

  function CreateEvent(ctx: Ctx, c: Option<Cache.Store>, eventData: Json): Step<Option<Event>> {
    Mutate(ctx, c, PostReq("/events/create", eventData), "events", ReadEvent)
  }

  function UpdateEvent(ctx: Ctx, c: Option<Cache.Store>, eventData: Json): Step<Option<Event>> {
    Mutate(ctx, c, PostReq("/events/update", eventData), "events", ReadEvent)
  }

  function DeleteEvent(ctx: Ctx, c: Option<Cache.Store>, eventData: Json): Step<()> {
    Mutate(ctx, c, PostReq("/events/delete", eventData), "events", Ignore)
  }

  function IdBody(id: string): Json {
    JObj([("id", JStr(id))])
  }

  function CreateTask(ctx: Ctx, c: Option<Cache.Store>, taskData: Json): Step<Option<Task>> {
    Mutate(ctx, c, PostReq("/tasks/create", taskData), "tasks", ReadTask)
  }

  function UpdateTask(ctx: Ctx, c: Option<Cache.Store>, taskData: Json): Step<Option<Task>> {
    Mutate(ctx, c, PostReq("/tasks/update", taskData), "tasks", ReadTask)
  }

  function CloseTask(ctx: Ctx, c: Option<Cache.Store>, taskId: string): Step<Option<Task>> {
    Mutate(ctx, c, PostReq("/tasks/close", IdBody(taskId)), "tasks", ReadTask)
  }

  function ReopenTask(ctx: Ctx, c: Option<Cache.Store>, taskId: string): Step<Option<Task>> {
    Mutate(ctx, c, PostReq("/tasks/reopen", IdBody(taskId)), "tasks", ReadTask)
  }

  function MoveTask(ctx: Ctx, c: Option<Cache.Store>, taskId: string, after: Option<string>, parent: Option<string>): Step<Option<Task>> {
    Mutate(ctx, c, PostReq("/tasks/move", JObj(MovePayload(taskId, after, parent))), "tasks", ReadTask)
  }

  function DeleteTask(ctx: Ctx, c: Option<Cache.Store>, taskId: string): Step<()> {
    Mutate(ctx, c, PostReq("/tasks/delete", IdBody(taskId)), "tasks", Ignore)
  }

  function CreateTag(ctx: Ctx, c: Option<Cache.Store>, tagData: Json): Step<Option<Tag>> {
    Mutate(ctx, c, PostReq("/tags/create", tagData), "tags", ReadTag)
  }

  function UpdateTag(ctx: Ctx, c: Option<Cache.Store>, tagData: Json): Step<Option<Tag>> {
    Mutate(ctx, c, PostReq("/tags/update", tagData), "tags", ReadTag)
  }

  function DeleteTag(ctx: Ctx, c: Option<Cache.Store>, tagId: string): Step<()> {
    Mutate(ctx, c, PostReq("/tags/delete", IdBody(tagId)), "tags", Ignore)
  }

  /** What a mutation does: it sends `req` and nothing else; a raised error
      keeps the cache and is passed on; otherwise the cache prefix is
      invalidated and the reply read. */
  ghost predicate Mutates<T>(ctx: Ctx, c: Option<Cache.Store>, r: Step<T>, req: Req, prefix: string, read: Json -> Result<T, Raised>) {
    && r.sent == [req]
    && (Send(ctx.origin, req).Failure? ==> r.cache == c && r.value == Failure(Send(ctx.origin, req).error))
    && (Send(ctx.origin, req).Success? ==> r.cache == CacheInvalidate(c, prefix) && r.value == read(Send(ctx.origin, req).value))
  }

  /** The event mutations post to their endpoint, drop the `events` cache
      entries and read the reply as an event; a deletion reads nothing. */
  lemma EventMutations(ctx: Ctx, c: Option<Cache.Store>, eventData: Json)
    ensures Mutates(ctx, c, CreateEvent(ctx, c, eventData), PostReq("/events/create", eventData), "events", ReadEvent)
    ensures Mutates(ctx, c, UpdateEvent(ctx, c, eventData), PostReq("/events/update", eventData), "events", ReadEvent)
    ensures Mutates(ctx, c, DeleteEvent(ctx, c, eventData), PostReq("/events/delete", eventData), "events", Ignore)
    ensures DeleteEvent(ctx, c, eventData).value.Success? <==> Send(ctx.origin, PostReq("/events/delete", eventData)).Success?
  {
  }

  /** The task mutations post to their endpoint, drop the `tasks` cache
      entries and read the reply as a task. */
  lemma TaskMutations(ctx: Ctx, c: Option<Cache.Store>, taskData: Json)
    ensures Mutates(ctx, c, CreateTask(ctx, c, taskData), PostReq("/tasks/create", taskData), "tasks", ReadTask)
    ensures Mutates(ctx, c, UpdateTask(ctx, c, taskData), PostReq("/tasks/update", taskData), "tasks", ReadTask)
  {
  }

  /** The by-id task mutations post `{"id": id}` (a move its payload) to
      their endpoint, drop the `tasks` cache entries and read the reply as a
      task; a deletion reads nothing. */
  lemma TaskByIdMutations(ctx: Ctx, c: Option<Cache.Store>, taskId: string, after: Option<string>, parent: Option<string>)
    ensures Mutates(ctx, c, CloseTask(ctx, c, taskId), PostReq("/tasks/close", IdBody(taskId)), "tasks", ReadTask)
    ensures Mutates(ctx, c, ReopenTask(ctx, c, taskId), PostReq("/tasks/reopen", IdBody(taskId)), "tasks", ReadTask)
    ensures Mutates(ctx, c, MoveTask(ctx, c, taskId, after, parent), PostReq("/tasks/move", JObj(MovePayload(taskId, after, parent))), "tasks", ReadTask)
    ensures Mutates(ctx, c, DeleteTask(ctx, c, taskId), PostReq("/tasks/delete", IdBody(taskId)), "tasks", Ignore)
    ensures DeleteTask(ctx, c, taskId).value.Success? <==> Send(ctx.origin, PostReq("/tasks/delete", IdBody(taskId))).Success?
  {
  }

  /** The tag mutations post to their endpoint, drop the `tags` cache
      entries and read the reply as a tag; a deletion reads nothing. */
  lemma TagMutations(ctx: Ctx, c: Option<Cache.Store>, tagData: Json, tagId: string)
    ensures Mutates(ctx, c, CreateTag(ctx, c, tagData), PostReq("/tags/create", tagData), "tags", ReadTag)
    ensures Mutates(ctx, c, UpdateTag(ctx, c, tagData), PostReq("/tags/update", tagData), "tags", ReadTag)
    ensures Mutates(ctx, c, DeleteTag(ctx, c, tagId), PostReq("/tags/delete", IdBody(tagId)), "tags", Ignore)
    ensures DeleteTag(ctx, c, tagId).value.Success? <==> Send(ctx.origin, PostReq("/tags/delete", IdBody(tagId))).Success?
  {
  }

  /** A mutation that goes through leaves every key under its prefix
      reading as a miss. */
  lemma MutationDropsPrefix<T>(ctx: Ctx, s: Cache.Store, req: Req, prefix: string, read: Json -> Result<T, Raised>, key: string, now: int)
    requires Send(ctx.origin, req).Success? && Cache.Under(key, prefix)
    ensures Cache.Get(Mutate(ctx, Some(s), req, prefix, read).cache.value, key, now) == JNull
  {
    Cache.InvalidateThenGet(s, prefix, key, now);
  }

  /** After a task mutation goes through, no cached task read survives, but
      the cached task-account list does. */
  lemma TaskMutationDropsTaskReads(ctx: Ctx, s: Cache.Store, taskId: string, key: string, now: int)
    requires Send(ctx.origin, PostReq("/tasks/close", IdBody(taskId))).Success?
    requires key == "tasks" || Text.StartsWith(key, "tasks/")
    ensures var after := CloseTask(ctx, Some(s), taskId).cache.value;
      && Cache.Get(after, key, now) == JNull
      && ("task_accounts" in s.meta ==> "task_accounts" in after.meta)
  {
    Cache.InvalidateThenGet(s, "tasks", key, now);
    if "task_accounts" in s.meta {
      Cache.TaskAccountsSurviveTasks(s);
    }
  }

  /** A mutation the server rejects leaves the cache as it was. */
  lemma RejectedMutationKeepsCache(ctx: Ctx, c: Option<Cache.Store>, eventData: Json)
    requires Send(ctx.origin, PostReq("/events/update", eventData)).Failure?
    ensures UpdateEvent(ctx, c, eventData).cache == c
    ensures UpdateEvent(ctx, c, eventData).value.Failure?
  {
  }

  // ----- Scheduling a task -----

  /** The event `schedule_task` creates for a task. */
  function ScheduleEventData(task: Task, taskId: string, start: string, calendarId: string, accountId: string,
                             durationMinutes: Option<int>, timezone: string): Fields
  {
    var title := if task.title != "" then task.title else "Untitled task";
    var duration :=
      if durationMinutes.Some? then "PT" + Text.IntToString(durationMinutes.value) + "M"
      else if task.estimatedDuration.Some? && task.estimatedDuration.value != "" then task.estimatedDuration.value
      else "PT30M";
    [("title", JStr(title)), ("start", JStr(start)), ("duration", JStr(duration)),
     ("calendarId", JStr(calendarId)), ("accountId", JStr(accountId)),
     ("showWithoutTime", JBool(false)), ("timeZone", JStr(timezone)),
     (MetadataAlias, JObj([("taskId", JStr(taskId))]))]
  }

  /** The created event is titled after the task (or "Untitled task"),
      lasts the explicit duration, else the task's estimate, else 30
      minutes, and links back to the task through its metadata. */
  lemma ScheduleEventDataSpec(task: Task, taskId: string, start: string, calendarId: string, accountId: string,
                              durationMinutes: Option<int>, timezone: string)
    ensures var d := ScheduleEventData(task, taskId, start, calendarId, accountId, durationMinutes, timezone);
      && Get(d, "title") == Some(JStr(if task.title == "" then "Untitled task" else task.title))
      && (durationMinutes.Some? ==> Get(d, "duration") == Some(JStr("PT" + Text.IntToString(durationMinutes.value) + "M")))
      && (durationMinutes.None? && task.estimatedDuration.Some? && task.estimatedDuration.value != "" ==>
            Get(d, "duration") == Some(JStr(task.estimatedDuration.value)))
      && (durationMinutes.None? && (task.estimatedDuration.None? || task.estimatedDuration.value == "") ==>
            Get(d, "duration") == Some(JStr("PT30M")))
      && Get(d, MetadataAlias) == Some(JObj([("taskId", JStr(taskId))]))
      && Get(d, "timeZone") == Some(JStr(timezone))
  {
    var d := ScheduleEventData(task, taskId, start, calendarId, accountId, durationMinutes, timezone);
    GetAt(d, 0, "title");
    GetAt(d, 2, "duration");
    GetAt(d, 6, "timeZone");
    GetAt(d, 7, MetadataAlias);
  }

  /** `schedule_task(...)`: reads the task (through the cache), then creates
      the linked event; an empty time zone falls back to the local one. */
  function ScheduleTask(ctx: Ctx, c: Option<Cache.Store>, taskId: string, start: string, calendarId: string, accountId: string,
                        durationMinutes: Option<int>, timezone: Option<string>): (r: Step<Option<Event>>)
    ensures GetTask(ctx, c, taskId).value.Failure? ==>
      && r.value == Failure(GetTask(ctx, c, taskId).value.error) && r.sent == GetTask(ctx, c, taskId).sent
      && r.cache == GetTask(ctx, c, taskId).cache
    ensures GetTask(ctx, c, taskId).value.Success? ==>
      var tz := if timezone.Some? && timezone.value != "" then timezone.value else ctx.localTz;
      r.sent == GetTask(ctx, c, taskId).sent +
        [PostReq("/events/create", JObj(ScheduleEventData(GetTask(ctx, c, taskId).value.value, taskId, start, calendarId, accountId, durationMinutes, tz)))]
    ensures GetTask(ctx, c, taskId).value.Success? ==>
      var s := GetTask(ctx, c, taskId);
      var tz := if timezone.Some? && timezone.value != "" then timezone.value else ctx.localTz;
      var q := PostReq("/events/create", JObj(ScheduleEventData(s.value.value, taskId, start, calendarId, accountId, durationMinutes, tz)));
      && (Send(ctx.origin, q).Success? ==>
            r.value == ExtractSingle(Send(ctx.origin, q).value, "event", EventFromJson) && r.cache == CacheInvalidate(s.cache, "events"))
      && (Send(ctx.origin, q).Failure? ==> r.value == Failure(Send(ctx.origin, q).error) && r.cache == s.cache)
  {
    var s := GetTask(ctx, c, taskId);
    match s.value
    case Failure(e) => Step(Failure(e), s.cache, s.sent)
    case Success(task) =>
      var tz := if timezone.Some? && timezone.value != "" then timezone.value else ctx.localTz;
      var created := CreateEvent(ctx, s.cache, JObj(ScheduleEventData(task, taskId, start, calendarId, accountId, durationMinutes, tz)));
      Step(created.value, created.cache, s.sent + created.sent)
  }
}

=== FILE: errors.dfy ===
/** The exception hierarchy of the CLI and the structured error object it
    prints. Each exception class is a `Kind` with a fixed machine-readable
    `error_type` and a class-level default list of suggestions; an instance
    carries a message and its own suggestions. */
module Errors {
  import opened Wrappers
  import opened Json

  datatype Kind =
    | Base            // MorgenError
    | Authentication  // AuthenticationError
    | RateLimit       // RateLimitError
    | NotFound        // NotFoundError
    | Api             // MorgenAPIError
    | Config          // ConfigError
    | GroupNotFound   // GroupNotFoundError

  datatype MorgenError = MorgenError(kind: Kind, message: string, suggestions: seq<string>)

  /** What a Python call can raise besides returning: one of the CLI's own
      errors, a click usage error, or a failure from outside the hierarchy
      (a pydantic validation error, a TypeError or AttributeError on a
      response of an unexpected shape). */
  datatype Raised =
    | Morgen(err: MorgenError)
    | Click(message: string)
    | Malformed(what: string)

  /** The class attribute `error_type`. */
  function ErrorType(k: Kind): string {
    match k
    case Base => "morgen_error"
    case Authentication => "authentication_error"
    case RateLimit => "rate_limit_error"
    case NotFound => "not_found"
    case Api => "api_error"
    case Config => "config_error"
    case GroupNotFound => "group_not_found"
  }

  /** The class attribute `suggestions`; classes that do not set it inherit
      the base class's empty list. */
  function DefaultSuggestions(k: Kind): seq<string> {
    match k
    case Authentication => [
      "Run `gm init` to create a config file",
      "Or set MORGEN_API_KEY in your environment",
      "Verify the key at https://platform.morgen.so/"
    ]
    case RateLimit => [
      "Wait for the Retry-After period before retrying",
      "Reduce request frequency",
      "Install Morgen desktop app for 5x higher rate limits (bearer token auth)"
    ]
    case Config => [
      "Run `gm init` to create a config file",
      "Or set MORGEN_API_KEY in your environment"
    ]
    case _ => []
  }

  /** `Kind(message, suggestions=...)`: an explicit list (even an empty one)
      replaces the class default, `None` keeps it. */
  function NewError(k: Kind, message: string, suggestions: Option<seq<string>>): (e: MorgenError)
    ensures e.kind == k && e.message == message
    ensures suggestions.Some? ==> e.suggestions == suggestions.value
    ensures suggestions.None? ==> e.suggestions == DefaultSuggestions(k)
  {
    MorgenError(k, message, if suggestions.Some? then suggestions.value else DefaultSuggestions(k))
  }

  /** Distinct classes report distinct `error_type`s, so a consumer of the
      structured error can tell them apart. */
  lemma ErrorTypesDistinct(k1: Kind, k2: Kind)
    ensures ErrorType(k1) == ErrorType(k2) <==> k1 == k2
  {
  }

  /** NotFoundError and MorgenAPIError carry no suggestions unless given. */
  lemma PlainErrorsHaveNoDefaultSuggestions(message: string)
    ensures NewError(NotFound, message, None).suggestions == []
    ensures NewError(Api, message, None).suggestions == []
    ensures NewError(GroupNotFound, message, None).suggestions == []
  {
  }

  /** What `output_error` writes and exits with. */
  datatype ErrorReport = ErrorReport(payload: Json, exitCode: int)

  function StrList(xs: seq<string>): (j: Json)
    ensures j.JArr? && |j.items| == |xs|
    ensures forall i :: 0 <= i < |xs| ==> j.items[i] == JStr(xs[i])
  {
    JArr(seq(|xs|, i requires 0 <= i < |xs| => JStr(xs[i])))
  }

  /** `output_error(error_type, message, suggestions, exit_code)`: the
      object `{"error": {"type", "message"[, "suggestions"]}}`, where the
      suggestions key appears only for a non-empty list. */
  function OutputError(errorType: string, message: string, suggestions: Option<seq<string>>, exitCode: int): (r: ErrorReport)
    ensures r.exitCode == exitCode
    ensures r.payload.JObj? && Keys(r.payload.fields) == ["error"]
    ensures var inner := r.payload.fields[0].1;
      && inner.JObj?
      && Get(inner.fields, "type") == Some(JStr(errorType))
      && Get(inner.fields, "message") == Some(JStr(message))
      && (Has(inner.fields, "suggestions") <==> suggestions.Some? && suggestions.value != [])
      && (Has(inner.fields, "suggestions") ==> Get(inner.fields, "suggestions") == Some(StrList(suggestions.value)))
  {
    var base := [("type", JStr(errorType)), ("message", JStr(message))];
    assert Keys(base) == ["type", "message"];
    var inner := if suggestions.Some? && suggestions.value != [] then base + [("suggestions", StrList(suggestions.value))] else base;
    assert Keys(inner) == Keys(base) + (if inner == base then [] else ["suggestions"]);
    GetAt(inner, 0, "type");
    GetAt(inner, 1, "message");
    assert inner != base ==> Get(inner, "suggestions") == Some(StrList(suggestions.value)) by {
      if inner != base { GetAt(inner, 2, "suggestions"); }
    }
    assert inner == base ==> Get(inner, "suggestions") == None by {
      if inner == base { GetAbsent(inner, "suggestions"); }
    }
    ErrorReport(JObj([("error", JObj(inner))]), exitCode)
  }

  /** The default exit code. */
  const DefaultExitCode := 1

  /** How every command reports a caught error: `output_error(e.error_type,
      str(e), e.suggestions)` with the default exit code. */
  function ReportError(e: MorgenError): (r: ErrorReport)
    ensures r.exitCode == 1
    ensures r.payload == OutputError(ErrorType(e.kind), e.message, Some(e.suggestions), DefaultExitCode).payload
    ensures r.payload.JObj? && Keys(r.payload.fields) == ["error"]
    ensures var inner := r.payload.fields[0].1;
      && inner.JObj?
      && Get(inner.fields, "type") == Some(JStr(ErrorType(e.kind)))
      && Get(inner.fields, "message") == Some(JStr(e.message))
      && (Has(inner.fields, "suggestions") <==> e.suggestions != [])
  {
    OutputError(ErrorType(e.kind), e.message, Some(e.suggestions), DefaultExitCode)
  }
}

=== FILE: groups.dfy ===
/** Calendar groups in the current command-line tool. The records and the
    key syntax are those of the older tool (`LegacyGroups`); the
    configuration also names the calendar that scheduled tasks go to, the
    unknown-group hint points at `gm init`, and an account can match by any
    of its listed emails. */
module Groups {
  import opened Wrappers
  import opened Json
  import opened Errors
  import Text
  import Models
  import L = LegacyGroups

  datatype MorgenConfig = MorgenConfig(
    defaultGroup: Option<string>,
    activeOnly: bool,
    groups: seq<(string, L.GroupConfig)>,
    taskCalendar: Option<string>,
    taskCalendarAccount: Option<string>)

  /** `MorgenConfig()`, what a missing configuration file yields. */
  const DefaultConfig := MorgenConfig(None, false, [], None, None)

  /** The groups part of the configuration, as the older tool reads it. */
  function Legacy(config: MorgenConfig): L.MorgenConfig {
    L.MorgenConfig(config.defaultGroup, config.activeOnly, config.groups)
  }

  /** The group a command resolves to, chosen as in the older tool. */
  function GroupName(config: MorgenConfig, group: Option<string>): (r: Option<string>)
    ensures group.Some? && group.value != "" ==> r == group
    ensures (group.None? || group == Some("")) ==> r == config.defaultGroup
  {
    L.GroupName(Legacy(config), group)
  }

  function UnknownGroupSuggestions(available: seq<string>): seq<string> {
    if |available| > 0 then ["Available groups: " + Text.Join(available, ", ")]
    else ["No groups configured — run `gm init`"]
  }

  /** `resolve_filter(config, group, all_calendars)`. */
  function ResolveFilter(config: MorgenConfig, group: Option<string>, allCalendars: bool): (r: Result<L.CalendarFilter, Raised>)
    ensures r.Success? ==> r.value.activeOnly == (config.activeOnly && !allCalendars)
    ensures group == Some("all") ==> r == Success(L.CalendarFilter(None, None, config.activeOnly && !allCalendars))
    ensures group != Some("all") && GroupName(config, group).None? ==>
      r == Success(L.CalendarFilter(None, None, config.activeOnly && !allCalendars))
    ensures group != Some("all") && GroupName(config, group).Some? ==>
      var name := GroupName(config, group).value;
      match L.Lookup(config.groups, name)
      case Some(gc) => r == Success(L.CalendarFilter(Some(gc.accounts), gc.calendars, config.activeOnly && !allCalendars))
      case None =>
        && r.Failure? && r.error.Morgen?
        && r.error.err == NewError(GroupNotFound, "Unknown group '" + name + "'",
             Some(UnknownGroupSuggestions(Text.Sort(Keys(config.groups)))))
  {
    var activeOnly := config.activeOnly && !allCalendars;
    if group == Some("all") then Success(L.CalendarFilter(None, None, activeOnly))
    else
      match GroupName(config, group)
      case None => Success(L.CalendarFilter(None, None, activeOnly))
      case Some(name) =>
        match L.Lookup(config.groups, name)
        case None =>
          Failure(Morgen(NewError(GroupNotFound, "Unknown group '" + name + "'",
            Some(UnknownGroupSuggestions(Text.Sort(Keys(config.groups)))))))
        case Some(gc) => Success(L.CalendarFilter(Some(gc.accounts), gc.calendars, activeOnly))
  }

  /** Only an explicit `--group all` is special: a configured default group
      called `all` is looked up like any other name. */
  lemma DefaultAllIsAName(config: MorgenConfig)
    requires config.defaultGroup == Some("all")
    requires "all" !in Keys(config.groups)
    ensures ResolveFilter(config, None, false).Failure?
    ensures ResolveFilter(config, Some("all"), false).Success?
  {
  }

  /** The two tools resolve the same configuration to the same filter; they
      differ only in the hint attached to an unknown group. */
  lemma AgreesWithLegacy(config: MorgenConfig, group: Option<string>, allCalendars: bool)
    ensures var legacy := L.ResolveFilter(Legacy(config), group, allCalendars);
      var current := ResolveFilter(config, group, allCalendars);
      && (current.Success? <==> legacy.Success?)
      && (current.Success? ==> current.value == legacy.value)
      && (current.Failure? ==> current.error.err.message == legacy.error.err.message)
  {
  }

  /** Python `x in container` for the `emails` member: equality with an
      element of a list, a substring of a string, a key of a dict; anything
      else raises a TypeError. */
  function PyIn(x: string, container: Json): (r: Result<bool, Raised>)
    ensures container.JArr? ==> r == Success(JStr(x) in container.items)
    ensures container.JStr? ==> r == Success(Text.Contains(container.s, x))
    ensures container.JObj? ==> r == Success(Has(container.fields, x))
    ensures (container.JNull? || container.JBool? || container.JInt?) ==> r.Failure?
  {
    match container
    case JArr(items) => Success(JStr(x) in items)
    case JStr(s) => Success(Text.Contains(s, x))
    case JObj(f) => Success(Has(f, x))
    case _ => Failure(Malformed("emails"))
  }

  /** `match_account(account, key)`: a provider part, when present, must
      equal `integrationId`; then the email part must equal the preferred
      email or be among the `emails` list (default empty). */
  function MatchAccount(account: Fields, key: string): (r: Result<bool, Raised>)
    ensures L.SplitKey(key).1.Some? && Get(account, "integrationId") != Some(JStr(L.SplitKey(key).1.value)) ==>
      r == Success(false)
    ensures (L.SplitKey(key).1.None? || Get(account, "integrationId") == Some(JStr(L.SplitKey(key).1.value))) ==>
      if Get(account, "preferredEmail") == Some(JStr(L.SplitKey(key).0)) then r == Success(true)
      else r == PyIn(L.SplitKey(key).0, GetOr(account, "emails", JArr([])))
  {
    var (email, provider) := L.SplitKey(key);
    if provider.Some? && Get(account, "integrationId") != Some(JStr(provider.value)) then Success(false)
    else if Get(account, "preferredEmail") == Some(JStr(email)) then Success(true)
    else PyIn(email, GetOr(account, "emails", JArr([])))
  }

  /** For an account whose `emails` is a list of strings (or absent), the
      match is: provider agrees, and the email is the preferred one or one
      of the listed ones. */
  lemma MatchAccountSpec(account: Fields, key: string)
    requires !Has(account, "emails") || Get(account, "emails").value.JArr?
    ensures MatchAccount(account, key).Success?
    ensures var (email, provider) := L.SplitKey(key);
      MatchAccount(account, key).value <==>
        && (provider.Some? ==> Get(account, "integrationId") == Some(JStr(provider.value)))
        && (Get(account, "preferredEmail") == Some(JStr(email))
            || JStr(email) in GetOr(account, "emails", JArr([])).items)
  {
  }

  /** A null preferred email still matches through the emails list. */
  lemma MatchesViaEmails(account: Fields, email: string)
    requires ':' !in email
    requires Get(account, "preferredEmail") == Some(JNull)
    requires Get(account, "emails") == Some(JArr([JStr(email)]))
    ensures MatchAccount(account, email) == Success(true)
  {
  }

  /** Everything the older matcher accepts, the newer one accepts too; when
      the account lists no emails they agree exactly. */
  lemma ExtendsLegacyMatch(account: Fields, key: string)
    ensures L.MatchAccount(account, key) ==> MatchAccount(account, key) == Success(true)
    ensures !Has(account, "emails") ==> MatchAccount(account, key) == Success(L.MatchAccount(account, key))
  {
  }

  /** The emails fallback never applies to an account the client has
      validated: the account record keeps no `emails` member, so matching
      its dump is the older preferred-email rule. */
  lemma DumpedAccountsMatchByPreferredEmail(a: Models.Account, key: string)
    ensures MatchAccount(Models.AccountToJson(a).fields, key) ==
      Success(L.MatchAccount(Models.AccountToJson(a).fields, key))
  {
    GetAbsent(Models.AccountToJson(a).fields, "emails");
    ExtendsLegacyMatch(Models.AccountToJson(a).fields, key);
  }
}

=== FILE: http.dfy ===
/** What both origin clients share: the request record, the mapping of an
    HTTP response to a value or an error, and the unwrapping of Morgen's
    response envelopes. The transport itself is a parameter (`Origin`). */
module Http {
  import opened Wrappers
  import opened Json
  import opened Errors
  import Text

  /** One HTTP request: verb (method), path, query parameters and optional JSON body. */
  datatype Req = Req(verb: string, path: string, params: Fields, body: Option<Json>)

  /** What the transport returns: the status code, the `Retry-After` header
      if present, the body as JSON (`None` when it does not parse) and the
      body as text. */
  datatype Response = Response(status: int, retryAfter: Option<string>, body: Option<Json>, text: string)

  /** The server, as seen by the client. */
  type Origin = Req -> Response

  function GetReq(path: string, params: Fields): Req {
    Req("GET", path, params, None)
  }

  function PostReq(path: string, body: Json): Req {
    Req("POST", path, [], Some(body))
  }

  /** The body of a task move: the id, then `after` and `parent` only when
      they are given. */
  function MovePayload(taskId: string, after: Option<string>, parent: Option<string>): Fields {
    [("id", JStr(taskId))]
      + (if after.Some? then [("after", JStr(after.value))] else [])
      + (if parent.Some? then [("parent", JStr(parent.value))] else [])
  }

  /** The move body names the task, and carries `after` and `parent`
      exactly when they are given, with their values. */
  lemma MovePayloadSpec(taskId: string, after: Option<string>, parent: Option<string>)
    ensures Get(MovePayload(taskId, after, parent), "id") == Some(JStr(taskId))
    ensures Has(MovePayload(taskId, after, parent), "after") <==> after.Some?
    ensures after.Some? ==> Get(MovePayload(taskId, after, parent), "after") == Some(JStr(after.value))
    ensures Has(MovePayload(taskId, after, parent), "parent") <==> parent.Some?
    ensures parent.Some? ==> Get(MovePayload(taskId, after, parent), "parent") == Some(JStr(parent.value))
  {
    var p := MovePayload(taskId, after, parent);
    GetAt(p, 0, "id");
    if after.Some? {
      GetAt(p, 1, "after");
    } else {
      GetAbsent(p, "after");
    }
    if parent.Some? {
      GetAt(p, if after.Some? then 2 else 1, "parent");
    } else {
      GetAbsent(p, "parent");
    }
  }

  /** The error class a failing status maps to, checked in the order
      401, 429, 404, any other status from 400 up. */
  function StatusKind(status: int): Option<Kind> {
    if status == 401 then Some(Authentication)
    else if status == 429 then Some(RateLimit)
    else if status == 404 then Some(NotFound)
    else if status >= 400 then Some(Api)
    else None
  }

  /** The `Retry-After` value quoted in a rate-limit error. */
  function RetryAfter(resp: Response): string {
    resp.retryAfter.GetOr("unknown")
  }

  /** `_request`'s response handling: errors by status, then `None` for 204,
      then the parsed body (a body that is not JSON raises). */
  function MapResponse(path: string, resp: Response): (r: Result<Json, Raised>)
    ensures StatusKind(resp.status).Some? ==>
      r.Failure? && r.error.Morgen? && r.error.err.kind == StatusKind(resp.status).value
    ensures resp.status == 401 ==> r == Failure(Morgen(NewError(Authentication, "Invalid or missing API key", None)))
    ensures resp.status == 429 ==>
      r.error.err.message == "Rate limit exceeded. Retry after " + RetryAfter(resp) + "s"
      && r.error.err.suggestions == ["Wait " + RetryAfter(resp) + " seconds before retrying",
                                     "Reduce request frequency (100 pts / 15 min)"]
    ensures resp.status == 404 ==> r.error.err.message == "Resource not found: " + path
    ensures StatusKind(resp.status) == Some(Api) ==>
      r.error.err.message == "API error " + Text.IntToString(resp.status) + ": " + resp.text
    ensures resp.status == 204 ==> r == Success(JNull)
    ensures StatusKind(resp.status).None? && resp.status != 204 ==>
      (r.Success? <==> resp.body.Some?) && (r.Success? ==> r.value == resp.body.value)
  {
    if resp.status == 401 then
      Failure(Morgen(NewError(Authentication, "Invalid or missing API key", None)))
    else if resp.status == 429 then
      var after := RetryAfter(resp);
      Failure(Morgen(NewError(RateLimit, "Rate limit exceeded. Retry after " + after + "s",
        Some(["Wait " + after + " seconds before retrying", "Reduce request frequency (100 pts / 15 min)"]))))
    else if resp.status == 404 then
      Failure(Morgen(NewError(NotFound, "Resource not found: " + path, None)))
    else if resp.status >= 400 then
      Failure(Morgen(NewError(Api, "API error " + Text.IntToString(resp.status) + ": " + resp.text, None)))
    else if resp.status == 204 then
      Success(JNull)
    else
      match resp.body
      case None => Failure(Malformed("response body"))
      case Some(j) => Success(j)
  }

  /** Sending a request through the origin. */
  function Send(origin: Origin, req: Req): Result<Json, Raised> {
    MapResponse(req.path, origin(req))
  }

  /** A request succeeds exactly when its status is below 400 and, unless it
      is 204, its body parses. */
  lemma SendSucceeds(origin: Origin, req: Req)
    ensures Send(origin, req).Success? <==>
      origin(req).status < 400 && (origin(req).status == 204 || origin(req).body.Some?)
  {
  }

  /** The raw list inside a list response, before validation: a bare array
      as it is; for an object, its `data` member (or the object itself),
      then that value's `key` member (default `[]`) when it is an object or
      the value itself when it is an array; anything else is `[]`. */
  function Envelope(data: Json, key: string): (r: Json)
    ensures data.JArr? ==> r == data
    ensures !data.JArr? && !data.JObj? ==> r == JArr([])
    ensures data.JObj? && !Has(data.fields, "data") ==>
      r == GetOr(data.fields, key, JArr([]))
    ensures data.JObj? && Has(data.fields, "data") ==>
      var inner := Get(data.fields, "data").value;
      && (inner.JObj? ==> r == GetOr(inner.fields, key, JArr([])))
      && (inner.JArr? ==> r == inner)
      && (!inner.JObj? && !inner.JArr? ==> r == JArr([]))
  {
    match data
    case JArr(_) => data
    case JObj(fields) =>
      var inner := GetOr(fields, "data", data);
      (match inner
       case JObj(f) => GetOr(f, key, JArr([]))
       case JArr(_) => inner
       case _ => JArr([]))
    case _ => JArr([])
  }

  /** The three envelope shapes the server uses all yield the list. */
  lemma EnvelopeShapes(key: string, xs: seq<Json>)
    requires key != "data"
    ensures Envelope(JArr(xs), key) == JArr(xs)
    ensures Envelope(JObj([("data", JArr(xs))]), key) == JArr(xs)
    ensures Envelope(JObj([("data", JObj([(key, JArr(xs))]))]), key) == JArr(xs)
    ensures Envelope(JObj([(key, JArr(xs))]), key) == JArr(xs)
    ensures Envelope(JObj([("data", JObj([]))]), key) == JArr([])
  {
    assert Get([(key, JArr(xs))], "data") == None;
  }

  /** `_extract_single`'s choice of the value to validate: `None` for `None`;
      for an object, its `data` member (or itself) and, when that is an
      object, its `key` member if present or else that object; the whole
      value otherwise. */
  function SingleEnvelope(data: Json, key: string): (r: Option<Json>)
    ensures data == JNull <==> r.None?
    ensures !data.JObj? && data != JNull ==> r == Some(data)
    ensures data.JObj? && !Has(data.fields, "data") ==>
      r == Some(GetOr(data.fields, key, data))
    ensures data.JObj? && Has(data.fields, "data") ==>
      var inner := Get(data.fields, "data").value;
      && (inner.JObj? ==> r == Some(GetOr(inner.fields, key, inner)))
      && (!inner.JObj? ==> r == Some(data))
  {
    match data
    case JNull => None
    case JObj(fields) =>
      var inner := GetOr(fields, "data", data);
      (match inner
       case JObj(f) => Some(if Has(f, key) then Get(f, key).value else inner)
       case _ => Some(data))
    case _ => Some(data)
  }

  /** The wrapped, the unwrapped and the bare single-item shapes yield the
      item. */
  lemma SingleEnvelopeShapes(key: string, item: Fields)
    requires key != "data" && !Has(item, "data") && !Has(item, key)
    ensures SingleEnvelope(JObj([("data", JObj([(key, JObj(item))]))]), key) == Some(JObj(item))
    ensures SingleEnvelope(JObj([("data", JObj(item))]), key) == Some(JObj(item))
    ensures SingleEnvelope(JObj(item), key) == Some(JObj(item))
  {
  }
}

=== FILE: json.dfy ===
/** JSON values as the Python code sees them after `json.loads`/`resp.json()`:
    `None`, booleans, integers, strings, lists and dicts. A dict is an ordered
    sequence of key/value pairs, so iteration order (which Python preserves)
    is part of the value. Floating-point numbers are not modelled. */
module Json {
  import opened Wrappers
  import Text

  datatype Json =
    | JNull
    | JBool(b: bool)
    | JInt(i: int)
    | JStr(s: string)
    | JArr(items: seq<Json>)
    | JObj(fields: seq<(string, Json)>)

  type Fields = seq<(string, Json)>

  /** The value Python's `==` and dict hashing see in a JSON scalar: `bool`
      is a subclass of `int`, so `True` is `1` and `False` is `0`. Other
      values are compared as they are. */
  function PyKey(j: Json): (r: Json)
    ensures !r.JBool?
    ensures !j.JBool? ==> r == j
    ensures j.JBool? ==> r == JInt(if j.b then 1 else 0)
  {
    match j
    case JBool(b) => JInt(if b then 1 else 0)
    case _ => j
  }

  /** Python `a == b` on the values the model compares. */
  predicate PyEq(a: Json, b: Json) {
    PyKey(a) == PyKey(b)
  }

  /** The keys of a dict (or of any list of named entries), in iteration
      order. */
  function Keys<V>(entries: seq<(string, V)>): (r: seq<string>)
    ensures |r| == |entries|
    ensures forall i :: 0 <= i < |entries| ==> r[i] == entries[i].0
  {
    if |entries| == 0 then [] else [entries[0].0] + Keys(entries[1..])
  }

  /** Python `d.get(k)`: the value stored under the first occurrence of `k`,
      if any. */
  function Get(fields: Fields, k: string): Option<Json>
  {
    if |fields| == 0 then None
    else if fields[0].0 == k then Some(fields[0].1)
    else Get(fields[1..], k)
  }

  /** Python `k in d`. */
  predicate Has(fields: Fields, k: string) {
    Get(fields, k).Some?
  }

  /** A key is present exactly when it is among the keys, and what `Get`
      finds is the value of an entry under that key. */
  lemma {:induction false} GetSpec(fields: Fields, k: string)
    ensures Has(fields, k) <==> k in Keys(fields)
    ensures Has(fields, k) ==> (k, Get(fields, k).value) in fields
  {
    if |fields| > 0 {
      GetSpec(fields[1..], k);
      assert Keys(fields) == [fields[0].0] + Keys(fields[1..]);
    }
  }

  /** A key under no entry is absent. */
  lemma {:induction false} GetAbsent(fields: Fields, k: string)
    requires forall j :: 0 <= j < |fields| ==> fields[j].0 != k
    ensures Get(fields, k) == None
  {
    if |fields| > 0 {
      GetAbsent(fields[1..], k);
    }
  }

  /** The first entry under a key is what `Get` finds. */
  lemma {:induction false} GetAt(fields: Fields, i: nat, k: string)
    requires i < |fields| && fields[i].0 == k
    requires forall j :: 0 <= j < i ==> fields[j].0 != k
    ensures Get(fields, k) == Some(fields[i].1)
  {
    if i > 0 {
      GetAt(fields[1..], i - 1, k);
    }
  }

  /** Python `d.get(k, default)`. */
  function GetOr(fields: Fields, k: string, default: Json): (r: Json)
    ensures !Has(fields, k) ==> r == default
    ensures Has(fields, k) ==> Some(r) == Get(fields, k)
  {
    Get(fields, k).GetOr(default)
  }

  /** Python `d[k] = v`: an existing key keeps its position, a new key is
      appended at the end. */
  function Put(fields: Fields, k: string, v: Json): (r: Fields)
    ensures Get(r, k) == Some(v)
    ensures forall k' :: k' != k ==> Get(r, k') == Get(fields, k')
    ensures Has(fields, k) ==> Keys(r) == Keys(fields)
    ensures !Has(fields, k) ==> Keys(r) == Keys(fields) + [k]
  {
    if |fields| == 0 then [(k, v)]
    else if fields[0].0 == k then [(k, v)] + fields[1..]
    else [fields[0]] + Put(fields[1..], k, v)
  }

  /** Two assignments to distinct keys: both read back, nothing else
      changes, and two new keys are appended in assignment order. */
  lemma PutTwo(fields: Fields, k1: string, v1: Json, k2: string, v2: Json)
    requires k1 != k2
    ensures var r := Put(Put(fields, k1, v1), k2, v2);
      && Get(r, k1) == Some(v1)
      && Get(r, k2) == Some(v2)
      && (forall k :: k != k1 && k != k2 ==> Get(r, k) == Get(fields, k))
      && (!Has(fields, k1) && !Has(fields, k2) ==> Keys(r) == Keys(fields) + [k1, k2])
  {
    var p := Put(fields, k1, v1);
    assert Get(p, k2) == Get(fields, k2);
  }

  /** No key occurs twice (every Python dict). */
  predicate NoDupKeys(fields: Fields) {
    forall i, j :: 0 <= i < j < |fields| ==> fields[i].0 != fields[j].0
  }

  /** Python truthiness (`if x:` / `bool(x)`) of a JSON value. */
  predicate Truthy(j: Json) {
    match j
    case JNull => false
    case JBool(b) => b
    case JInt(i) => i != 0
    case JStr(s) => s != ""
    case JArr(items) => items != []
    case JObj(fields) => fields != []
  }

  /** Python `a or b`: the first operand when it is truthy, else the second. */
  function Or(a: Json, b: Json): (r: Json)
    ensures Truthy(a) ==> r == a
    ensures !Truthy(a) ==> r == b
  {
    if Truthy(a) then a else b
  }

  /** The values yielded by Python's `for x in j` over a JSON value: a list's
      items, a dict's keys, a string's characters; other values are not
      iterable (a TypeError). */
  function Iterate(j: Json): (r: Option<seq<Json>>)
    ensures j.JArr? ==> r == Some(j.items)
    ensures (j.JNull? || j.JBool? || j.JInt?) ==> r.None?
  {
    match j
    case JArr(items) => Some(items)
    case JObj(fields) => Some(seq(|fields|, i requires 0 <= i < |fields| => JStr(fields[i].0)))
    case JStr(s) => Some(seq(|s|, i requires 0 <= i < |s| => JStr([s[i]])))
    case _ => None
  }

  /** `json.dumps(j, ensure_ascii=False)` with the default `", "` and `": "`
      separators. */
  function Encode(j: Json): string
    decreases j, 1
  {
    match j
    case JNull => "null"
    case JBool(b) => if b then "true" else "false"
    case JInt(i) => Text.IntToString(i)
    case JStr(s) => Quote(s)
    case JArr(items) => "[" + EncodeItems(j, 0) + "]"
    case JObj(fields) => "{" + EncodeFields(j, 0) + "}"
  }

  function EncodeItems(j: Json, from: nat): string
    requires j.JArr?
    decreases j, 0, |j.items| - from
  {
    if from >= |j.items| then ""
    else
      (if from == 0 then "" else ", ") + Encode(j.items[from]) + EncodeItems(j, from + 1)
  }

  function EncodeFields(j: Json, from: nat): string
    requires j.JObj?
    decreases j, 0, |j.fields| - from
  {
    if from >= |j.fields| then ""
    else
      assert j.fields[from] in j.fields;
      (if from == 0 then "" else ", ") + Quote(j.fields[from].0) + ": "
      + Encode(j.fields[from].1) + EncodeFields(j, from + 1)
  }

  /** A JSON string literal; control characters, quote and backslash escaped. */
  function Quote(s: string): string {
    "\"" + Escape(s) + "\""
  }

  function Escape(s: string): string {
    if |s| == 0 then ""
    else EscapeChar(s[0]) + Escape(s[1..])
  }

  function EscapeChar(c: char): string {
    if c == '"' then "\\\""
    else if c == '\\' then "\\\\"
    else if c == '\n' then "\\n"
    else if c == '\r' then "\\r"
    else if c == '\t' then "\\t"
    else if c == 8 as char then "\\b"
    else if c == 12 as char then "\\f"
    else if (c as int) < 32 then "\\u00" + [HexDigit(c as int / 16), HexDigit(c as int % 16)]
    else [c]
  }

  function HexDigit(d: nat): char
    requires d < 16
  {
    if d < 10 then ('0' as int + d) as char else ('a' as int + d - 10) as char
  }

  /** Number of bytes a character takes in UTF-8. */
  function Utf8Width(c: char): nat {
    if (c as int) < 0x80 then 1
    else if (c as int) < 0x800 then 2
    else if (c as int) < 0x10000 then 3
    else 4
  }

  /** Number of bytes of `s` in UTF-8: the size of a file written with it. */
  function Utf8Length(s: string): (n: nat)
    ensures n >= |s|
    ensures n <= 4 * |s|
  {
    if |s| == 0 then 0 else Utf8Width(s[0]) + Utf8Length(s[1..])
  }
}

=== FILE: legacy_client.dfy ===
/** The older origin client: the same requests and the same status mapping
    as `Client`, but no cache and no validation. List reads return the raw
    list found in the envelope; the deletions return nothing once the
    request succeeds, and every other call returns the raw response body
    (`null` for 204). */
module LegacyClient {
  import opened Wrappers
  import opened Json
  import opened Errors
  import opened Http
  import opened Models
  import Cache
  import C = Client

  /** A list read: the request, then the envelope's list under `key`. */
  function ListRead(origin: Origin, req: Req, key: string): (r: Result<Json, Raised>)
    ensures Send(origin, req).Failure? ==> r == Failure(Send(origin, req).error)
    ensures Send(origin, req).Success? ==> r == Success(Envelope(Send(origin, req).value, key))
  {
    var data :- Send(origin, req);
    Success(Envelope(data, key))
  }

  function ListAccounts(origin: Origin): Result<Json, Raised> {
    ListRead(origin, C.AccountsReq, "accounts")
  }

  function ListCalendars(origin: Origin): Result<Json, Raised> {
    ListRead(origin, C.CalendarsReq, "calendars")
  }

  function ListEvents(origin: Origin, accountId: string, calendarIds: seq<string>, start: string, end: string): Result<Json, Raised> {
    ListRead(origin, C.EventsReq(accountId, calendarIds, start, end), "events")
  }

  function ListTasks(origin: Origin, limit: int, updatedAfter: Option<string>): Result<Json, Raised> {
    ListRead(origin, GetReq("/tasks/list", C.TaskListParams(limit, updatedAfter)), "tasks")
  }

  function ListTags(origin: Origin): Result<Json, Raised> {
    ListRead(origin, C.TagsReq, "tags")
  }

  function GetTask(origin: Origin, taskId: string): Result<Json, Raised> {
    Send(origin, GetReq("/tasks/", [("id", JStr(taskId))]))
  }

  function GetTag(origin: Origin, tagId: string): Result<Json, Raised> {
    Send(origin, GetReq("/tags/", [("id", JStr(tagId))]))
  }

  function CreateEvent(origin: Origin, eventData: Json): Result<Json, Raised> {
    Send(origin, PostReq("/events/create", eventData))
  }

  function UpdateEvent(origin: Origin, eventData: Json): Result<Json, Raised> {
    Send(origin, PostReq("/events/update", eventData))
  }

  /** A response whose body is dropped: nothing, unless the request
      failed. */
  function Discard(response: Result<Json, Raised>): (r: Result<Json, Raised>)
    ensures r.Success? <==> response.Success?
    ensures r.Success? ==> r.value == JNull
    ensures r.Failure? ==> r == response
  {
    var _ :- response;
    Success(JNull)
  }

  /** The deletion is sent and its response body dropped: the call
      returns nothing unless the request fails. */
  function DeleteEvent(origin: Origin, eventData: Json): (r: Result<Json, Raised>)
    ensures r.Success? <==> Send(origin, PostReq("/events/delete", eventData)).Success?
    ensures r.Success? ==> r.value == JNull
    ensures r.Failure? ==> r == Send(origin, PostReq("/events/delete", eventData))
  {
    Discard(Send(origin, PostReq("/events/delete", eventData)))
  }

  function CreateTask(origin: Origin, taskData: Json): Result<Json, Raised> {
    Send(origin, PostReq("/tasks/create", taskData))
  }

  function UpdateTask(origin: Origin, taskData: Json): Result<Json, Raised> {
    Send(origin, PostReq("/tasks/update", taskData))
  }

  function CloseTask(origin: Origin, taskId: string): Result<Json, Raised> {
    Send(origin, PostReq("/tasks/close", C.IdBody(taskId)))
  }

  function ReopenTask(origin: Origin, taskId: string): Result<Json, Raised> {
    Send(origin, PostReq("/tasks/reopen", C.IdBody(taskId)))
  }

  function MoveTask(origin: Origin, taskId: string, after: Option<string>, parent: Option<string>): Result<Json, Raised> {
    Send(origin, PostReq("/tasks/move", JObj(MovePayload(taskId, after, parent))))
  }

  /** A deletion by id: `{"id": id}` is posted to `path` and the response
      body dropped, so the call returns nothing unless the request fails. */
  function DeleteById(origin: Origin, path: string, id: string): (r: Result<Json, Raised>)
    ensures r.Success? <==> Send(origin, PostReq(path, C.IdBody(id))).Success?
    ensures r.Success? ==> r.value == JNull
    ensures r.Failure? ==> r == Send(origin, PostReq(path, C.IdBody(id)))
  {
    Discard(Send(origin, PostReq(path, C.IdBody(id))))
  }

  function DeleteTask(origin: Origin, taskId: string): Result<Json, Raised> {
    DeleteById(origin, "/tasks/delete", taskId)
  }

  function CreateTag(origin: Origin, tagData: Json): Result<Json, Raised> {
    Send(origin, PostReq("/tags/create", tagData))
  }

  function UpdateTag(origin: Origin, tagData: Json): Result<Json, Raised> {
    Send(origin, PostReq("/tags/update", tagData))
  }

  function DeleteTag(origin: Origin, tagId: string): Result<Json, Raised> {
    DeleteById(origin, "/tags/delete", tagId)
  }

  /** The current client, with caching off, sends the older client's
      request and validates the raw list the older client returns. */
  lemma CurrentListValidatesLegacy<T>(ctx: C.Ctx, key: string, ttl: int, req: Req, envKey: string,
                                      parse: Json -> Result<T, Raised>, dump: T -> Json)
    ensures var current := C.CachedList(ctx, None, key, ttl, req, envKey, parse, dump);
      && current.sent == [req]
      && current.cache.None?
      && (ListRead(ctx.origin, req, envKey).Failure? ==> current.value == Failure(ListRead(ctx.origin, req, envKey).error))
      && (ListRead(ctx.origin, req, envKey).Success? ==> current.value == C.ValidateList(ListRead(ctx.origin, req, envKey).value, parse))
  {
  }

  /** Both clients read the account list from the same request and
      envelope key; the current one validates what the older one returns. */
  lemma AccountsAgree(ctx: C.Ctx)
    ensures C.ListAccounts(ctx, None).sent == [C.AccountsReq]
    ensures ListAccounts(ctx.origin).Failure? ==> C.ListAccounts(ctx, None).value == Failure(ListAccounts(ctx.origin).error)
    ensures ListAccounts(ctx.origin).Success? ==>
      C.ListAccounts(ctx, None).value == C.ValidateList(ListAccounts(ctx.origin).value, AccountFromJson)
  {
    CurrentListValidatesLegacy(ctx, "accounts", Cache.TtlAccounts, C.AccountsReq, "accounts", AccountFromJson, AccountToJson);
  }

  /** The same for calendars and tags. */
  lemma CalendarsAndTagsAgree(ctx: C.Ctx)
    ensures C.ListCalendars(ctx, None).sent == [C.CalendarsReq]
    ensures ListCalendars(ctx.origin).Failure? ==> C.ListCalendars(ctx, None).value == Failure(ListCalendars(ctx.origin).error)
    ensures ListCalendars(ctx.origin).Success? ==>
      C.ListCalendars(ctx, None).value == C.ValidateList(ListCalendars(ctx.origin).value, CalendarFromJson)
    ensures C.ListTags(ctx, None).sent == [C.TagsReq]
    ensures ListTags(ctx.origin).Failure? ==> C.ListTags(ctx, None).value == Failure(ListTags(ctx.origin).error)
    ensures ListTags(ctx.origin).Success? ==>
      C.ListTags(ctx, None).value == C.ValidateList(ListTags(ctx.origin).value, TagFromJson)
  {
    CurrentListValidatesLegacy(ctx, "calendars", Cache.TtlCalendars, C.CalendarsReq, "calendars", CalendarFromJson, CalendarToJson);
    CurrentListValidatesLegacy(ctx, "tags", Cache.TtlTags, C.TagsReq, "tags", TagFromJson, TagToJson);
  }

  /** The older client's writes send the current client's requests: where
      the older one returns the reply body, the current one reads it as a
      record; both fail alike; the older deletions return nothing. */
  lemma WritesAgree(ctx: C.Ctx, data: Json, id: string)
    ensures var legacy := CreateEvent(ctx.origin, data);
      C.CreateEvent(ctx, None, data).value == if legacy.Failure? then Failure(legacy.error) else C.ReadEvent(legacy.value)
    ensures var legacy := UpdateEvent(ctx.origin, data);
      C.UpdateEvent(ctx, None, data).value == if legacy.Failure? then Failure(legacy.error) else C.ReadEvent(legacy.value)
    ensures DeleteEvent(ctx.origin, data).Success? <==> C.DeleteEvent(ctx, None, data).value.Success?
    ensures var legacy := CreateTask(ctx.origin, data);
      C.CreateTask(ctx, None, data).value == if legacy.Failure? then Failure(legacy.error) else C.ReadTask(legacy.value)
    ensures var legacy := UpdateTask(ctx.origin, data);
      C.UpdateTask(ctx, None, data).value == if legacy.Failure? then Failure(legacy.error) else C.ReadTask(legacy.value)
    ensures var legacy := CloseTask(ctx.origin, id);
      C.CloseTask(ctx, None, id).value == if legacy.Failure? then Failure(legacy.error) else C.ReadTask(legacy.value)
    ensures var legacy := ReopenTask(ctx.origin, id);
      C.ReopenTask(ctx, None, id).value == if legacy.Failure? then Failure(legacy.error) else C.ReadTask(legacy.value)
    ensures DeleteTask(ctx.origin, id).Success? <==> C.DeleteTask(ctx, None, id).value.Success?
    ensures var legacy := CreateTag(ctx.origin, data);
      C.CreateTag(ctx, None, data).value == if legacy.Failure? then Failure(legacy.error) else C.ReadTag(legacy.value)
    ensures var legacy := UpdateTag(ctx.origin, data);
      C.UpdateTag(ctx, None, data).value == if legacy.Failure? then Failure(legacy.error) else C.ReadTag(legacy.value)
    ensures DeleteTag(ctx.origin, id).Success? <==> C.DeleteTag(ctx, None, id).value.Success?
  {
  }

  /** The older single reads send the current client's requests. */
  lemma SingleReadsAgree(ctx: C.Ctx, id: string)
    ensures C.GetTask(ctx, None, id).sent == [GetReq("/tasks/", [("id", JStr(id))])]
    ensures C.GetTag(ctx, None, id).sent == [GetReq("/tags/", [("id", JStr(id))])]
    ensures GetTask(ctx.origin, id).Failure? ==> C.GetTask(ctx, None, id).value == Failure(GetTask(ctx.origin, id).error)
    ensures GetTag(ctx.origin, id).Failure? ==> C.GetTag(ctx, None, id).value == Failure(GetTag(ctx.origin, id).error)
  {
  }

  /** The same for events: the request is identical whatever the cache key
      derived from it. */
  lemma EventsAgree(ctx: C.Ctx, accountId: string, calendarIds: seq<string>, start: string, end: string)
    ensures C.ListEvents(ctx, None, accountId, calendarIds, start, end).sent == [C.EventsReq(accountId, calendarIds, start, end)]
    ensures ListEvents(ctx.origin, accountId, calendarIds, start, end).Success? ==>
      C.ListEvents(ctx, None, accountId, calendarIds, start, end).value
        == C.ValidateList(ListEvents(ctx.origin, accountId, calendarIds, start, end).value, EventFromJson)
  {
    CurrentListValidatesLegacy(ctx, C.EventsKey(ctx.md5, accountId, calendarIds, start, end), Cache.TtlEvents,
      C.EventsReq(accountId, calendarIds, start, end), "events", EventFromJson, EventToJson);
  }

  /** The same for task listings, including the optional `updatedAfter`. */
  lemma TasksAgree(ctx: C.Ctx, limit: int, updatedAfter: Option<string>)
    ensures C.ListTasks(ctx, None, limit, updatedAfter).sent == [GetReq("/tasks/list", C.TaskListParams(limit, updatedAfter))]
    ensures ListTasks(ctx.origin, limit, updatedAfter).Success? ==>
      C.ListTasks(ctx, None, limit, updatedAfter).value == C.ValidateList(ListTasks(ctx.origin, limit, updatedAfter).value, TaskFromJson)
  {
    CurrentListValidatesLegacy(ctx, "tasks/list", Cache.TtlTasks, GetReq("/tasks/list", C.TaskListParams(limit, updatedAfter)),
      "tasks", TaskFromJson, TaskToJson);
  }

  /** Where they part: on an empty (204) reply the older `get_task` returns
      `null`, the current one raises "not found". */
  lemma GetTaskNoContent(ctx: C.Ctx, taskId: string)
    requires ctx.origin(GetReq("/tasks/", [("id", JStr(taskId))])).status == 204
    ensures GetTask(ctx.origin, taskId) == Success(JNull)
    ensures C.GetTask(ctx, None, taskId).value == Failure(Morgen(NewError(NotFound, "Task " + taskId + " not found", None)))
  {
  }

  /** A move fails in the current client exactly when it fails in the
      older one or its reply does not validate as a task; a request error is
      passed on unchanged. */
  lemma MoveFailsAlike(ctx: C.Ctx, taskId: string, after: Option<string>, parent: Option<string>)
    ensures var legacy := MoveTask(ctx.origin, taskId, after, parent);
      C.MoveTask(ctx, None, taskId, after, parent).value.Failure? <==>
        legacy.Failure? || C.ReadTask(legacy.value).Failure?
    ensures MoveTask(ctx.origin, taskId, after, parent).Failure? ==>
      C.MoveTask(ctx, None, taskId, after, parent).value == Failure(MoveTask(ctx.origin, taskId, after, parent).error)
  {
  }
}

=== FILE: legacy_groups.dfy ===
/** Calendar groups in the older command-line tool: named sets of account
    keys and calendar names, and the resolution of the command-line options
    into a calendar filter. An account key is `"email"` or
    `"email:provider"`. */
module LegacyGroups {
  import opened Wrappers
  import opened Json
  import opened Errors
  import Text

  /** A named group: the account keys it covers and, optionally, a whitelist
      of calendar names. */
  datatype GroupConfig = GroupConfig(accounts: seq<string>, calendars: Option<seq<string>>)

  /** The groups section of the configuration; `groups` keeps the file's
      order, one entry per name. */
  datatype MorgenConfig = MorgenConfig(defaultGroup: Option<string>, activeOnly: bool, groups: seq<(string, GroupConfig)>)

  /** What to restrict event listings to; `None` means no restriction. */
  datatype CalendarFilter = CalendarFilter(accountKeys: Option<seq<string>>, calendarNames: Option<seq<string>>, activeOnly: bool)

  /** `config.groups.get(name)`. */
  function Lookup(groups: seq<(string, GroupConfig)>, name: string): (r: Option<GroupConfig>)
    ensures r.Some? <==> name in Keys(groups)
    ensures r.Some? ==> (name, r.value) in groups
  {
    if |groups| == 0 then None
    else if groups[0].0 == name then Some(groups[0].1)
    else
      assert Keys(groups) == [groups[0].0] + Keys(groups[1..]);
      Lookup(groups[1..], name)
  }

  /** The group a command resolves to: the explicit `--group` unless it is
      absent or empty, else the configured default. */
  function GroupName(config: MorgenConfig, group: Option<string>): (r: Option<string>)
    ensures group.Some? && group.value != "" ==> r == group
    ensures (group.None? || group == Some("")) ==> r == config.defaultGroup
  {
    if group.Some? && group.value != "" then group else config.defaultGroup
  }

  /** The suggestion attached to an unknown group, given the sorted names. */
  function UnknownGroupSuggestions(available: seq<string>): seq<string> {
    if |available| > 0 then ["Available groups: " + Text.Join(available, ", ")]
    else ["No groups configured in .config.toml"]
  }

  /** `resolve_filter(config, group, all_calendars)`. */
  function ResolveFilter(config: MorgenConfig, group: Option<string>, allCalendars: bool): (r: Result<CalendarFilter, Raised>)
    ensures r.Success? ==> r.value.activeOnly == (config.activeOnly && !allCalendars)
    ensures group == Some("all") ==> r == Success(CalendarFilter(None, None, config.activeOnly && !allCalendars))
    ensures group != Some("all") && GroupName(config, group).None? ==>
      r == Success(CalendarFilter(None, None, config.activeOnly && !allCalendars))
    ensures group != Some("all") && GroupName(config, group).Some? ==>
      var name := GroupName(config, group).value;
      match Lookup(config.groups, name)
      case Some(gc) => r == Success(CalendarFilter(Some(gc.accounts), gc.calendars, config.activeOnly && !allCalendars))
      case None =>
        && r.Failure? && r.error.Morgen?
        && r.error.err == NewError(GroupNotFound, "Unknown group '" + name + "'",
             Some(UnknownGroupSuggestions(Text.Sort(Keys(config.groups)))))
  {
    var activeOnly := config.activeOnly && !allCalendars;
    if group == Some("all") then Success(CalendarFilter(None, None, activeOnly))
    else
      match GroupName(config, group)
      case None => Success(CalendarFilter(None, None, activeOnly))
      case Some(name) =>
        match Lookup(config.groups, name)
        case None =>
          Failure(Morgen(NewError(GroupNotFound, "Unknown group '" + name + "'",
            Some(UnknownGroupSuggestions(Text.Sort(Keys(config.groups)))))))
        case Some(gc) => Success(CalendarFilter(Some(gc.accounts), gc.calendars, activeOnly))
  }

  /** A filter restricts accounts only when it came from a named group. */
  lemma UnrestrictedUnlessGrouped(config: MorgenConfig, group: Option<string>, allCalendars: bool)
    requires ResolveFilter(config, group, allCalendars).Success?
    ensures var f := ResolveFilter(config, group, allCalendars).value;
      f.accountKeys.Some? <==> group != Some("all") && GroupName(config, group).Some?
  {
  }

  /** `key.split(":", 1)`: the email part and the optional provider part. */
  function SplitKey(key: string): (r: (string, Option<string>))
    ensures ':' !in r.0
    ensures r.1.None? <==> ':' !in key
    ensures r.1.None? ==> r.0 == key
    ensures r.1.Some? ==> key == r.0 + ":" + r.1.value
  {
    Text.SplitFirst(key, ':')
  }

  /** `match_account(account, key)`: the preferred email must equal the
      email part, and a provider part, when present, must equal the
      account's `integrationId`. */
  function MatchAccount(account: Fields, key: string): (r: bool)
    ensures r <==>
      Get(account, "preferredEmail") == Some(JStr(SplitKey(key).0))
      && (SplitKey(key).1.Some? ==> Get(account, "integrationId") == Some(JStr(SplitKey(key).1.value)))
  {
    var (email, provider) := SplitKey(key);
    if Get(account, "preferredEmail") != Some(JStr(email)) then false
    else if provider.Some? && Get(account, "integrationId") != Some(JStr(provider.value)) then false
    else true
  }

  /** A key without a provider part matches whatever the account's
      provider is. */
  lemma EmailOnlyKeyIgnoresProvider(account: Fields, email: string, provider: Json)
    requires ':' !in email
    ensures MatchAccount(Put(account, "integrationId", provider), email) == MatchAccount(account, email)
  {
  }
}

=== FILE: models.dfy ===
/** The typed records the client validates responses into, with their
    defaults. Validation (`Model.model_validate`) ignores unknown keys,
    rejects a missing required field or a value of the wrong JSON type, and
    fills every absent optional field with its default; dumping
    (`model_dump()`) writes every field back, `None` as `null`. Only the
    fields the rest of the program reads are modelled. */
module Models {
  import opened Wrappers
  import opened Json
  import opened Errors
  import Seqs

  // ----- Field readers (one per pydantic field shape) -----

  /** A required `str` field. */
  function ReqStr(o: Fields, k: string): (r: Result<string, Raised>)
    ensures r.Success? <==> Get(o, k).Some? && Get(o, k).value.JStr?
    ensures r.Success? ==> Get(o, k) == Some(JStr(r.value))
  {
    match Get(o, k)
    case Some(JStr(s)) => Success(s)
    case _ => Failure(Malformed(k))
  }

  /** A `str | None = None` field. */
  function OptStr(o: Fields, k: string): (r: Result<Option<string>, Raised>)
    ensures (Get(o, k).None? || Get(o, k) == Some(JNull)) ==> r == Success(None)
    ensures r.Success? && r.value.Some? ==> Get(o, k) == Some(JStr(r.value.value))
  {
    match Get(o, k)
    case None => Success(None)
    case Some(JNull) => Success(None)
    case Some(JStr(s)) => Success(Some(s))
    case _ => Failure(Malformed(k))
  }

  /** A `str = default` field (`None` is not accepted). */
  function DefStr(o: Fields, k: string, default: string): (r: Result<string, Raised>)
    ensures Get(o, k).None? ==> r == Success(default)
    ensures Get(o, k).Some? && r.Success? ==> Get(o, k) == Some(JStr(r.value))
  {
    match Get(o, k)
    case None => Success(default)
    case Some(JStr(s)) => Success(s)
    case _ => Failure(Malformed(k))
  }

  /** A `bool | None = None` field. */
  function OptBool(o: Fields, k: string): (r: Result<Option<bool>, Raised>)
    ensures (Get(o, k).None? || Get(o, k) == Some(JNull)) ==> r == Success(None)
  {
    match Get(o, k)
    case None => Success(None)
    case Some(JNull) => Success(None)
    case Some(JBool(b)) => Success(Some(b))
    case _ => Failure(Malformed(k))
  }

  /** An `int | None = None` field. */
  function OptInt(o: Fields, k: string): (r: Result<Option<int>, Raised>)
    ensures (Get(o, k).None? || Get(o, k) == Some(JNull)) ==> r == Success(None)
  {
    match Get(o, k)
    case None => Success(None)
    case Some(JNull) => Success(None)
    case Some(JInt(i)) => Success(Some(i))
    case _ => Failure(Malformed(k))
  }

  /** Every element is a string. */
  predicate AllStr(items: seq<Json>) {
    forall i :: 0 <= i < |items| ==> items[i].JStr?
  }

  /** Every element is an object. */
  predicate AllObj(items: seq<Json>) {
    forall i :: 0 <= i < |items| ==> items[i].JObj?
  }

  /** A `list[str] = []` field. */
  function StrListField(o: Fields, k: string): (r: Result<seq<string>, Raised>)
    ensures Get(o, k).None? ==> r == Success([])
  {
    match Get(o, k)
    case None => Success([])
    case Some(JArr(items)) =>
      if AllStr(items) then Success(seq(|items|, i requires 0 <= i < |items| => items[i].s))
      else Failure(Malformed(k))
    case _ => Failure(Malformed(k))
  }

  /** A `list[dict[str, Any]] = []` field. */
  function ObjListField(o: Fields, k: string): (r: Result<seq<Fields>, Raised>)
    ensures Get(o, k).None? ==> r == Success([])
  {
    match Get(o, k)
    case None => Success([])
    case Some(JArr(items)) =>
      if AllObj(items) then Success(seq(|items|, i requires 0 <= i < |items| => items[i].fields))
      else Failure(Malformed(k))
    case _ => Failure(Malformed(k))
  }

  /** A `dict[str, Any] = {}` field. */
  function ObjField(o: Fields, k: string): (r: Result<Fields, Raised>)
    ensures Get(o, k).None? ==> r == Success([])
  {
    match Get(o, k)
    case None => Success([])
    case Some(JObj(f)) => Success(f)
    case _ => Failure(Malformed(k))
  }

  /** A `dict[str, Any] | None = None` field. */
  function OptObjField(o: Fields, k: string): (r: Result<Option<Fields>, Raised>)
    ensures (Get(o, k).None? || Get(o, k) == Some(JNull)) ==> r == Success(None)
  {
    match Get(o, k)
    case None => Success(None)
    case Some(JNull) => Success(None)
    case Some(JObj(f)) => Success(Some(f))
    case _ => Failure(Malformed(k))
  }

  // ----- Writers (model_dump) -----

  function OptStrJson(x: Option<string>): Json {
    if x.Some? then JStr(x.value) else JNull
  }

  function OptBoolJson(x: Option<bool>): Json {
    if x.Some? then JBool(x.value) else JNull
  }

  function OptIntJson(x: Option<int>): Json {
    if x.Some? then JInt(x.value) else JNull
  }

  function OptObjJson(x: Option<Fields>): Json {
    if x.Some? then JObj(x.value) else JNull
  }

  function StrListJson(xs: seq<string>): (j: Json)
    ensures j.JArr? && |j.items| == |xs| && AllStr(j.items)
    ensures forall i :: 0 <= i < |xs| ==> j.items[i] == JStr(xs[i])
  {
    JArr(seq(|xs|, i requires 0 <= i < |xs| => JStr(xs[i])))
  }

  function ObjListJson(xs: seq<Fields>): (j: Json)
    ensures j.JArr? && |j.items| == |xs| && AllObj(j.items)
    ensures forall i :: 0 <= i < |xs| ==> j.items[i] == JObj(xs[i])
  {
    JArr(seq(|xs|, i requires 0 <= i < |xs| => JObj(xs[i])))
  }

  /** A dict argument: model_validate of anything else fails. */
  function AsObject(j: Json): (r: Result<Fields, Raised>)
    ensures r.Success? <==> j.JObj?
    ensures j.JObj? ==> r.value == j.fields
  {
    if j.JObj? then Success(j.fields) else Failure(Malformed("object"))
  }

  // ----- Account -----

  datatype Account = Account(
    id: string,
    name: Option<string>,
    preferredEmail: Option<string>,
    integrationId: Option<string>,
    integrationGroups: seq<string>)

  function AccountFromJson(j: Json): (r: Result<Account, Raised>)
  {
    var o :- AsObject(j);
    var id :- ReqStr(o, "id");
    var name :- OptStr(o, "name");
    var pe :- OptStr(o, "preferredEmail");
    var ii :- OptStr(o, "integrationId");
    var groups :- StrListField(o, "integrationGroups");
    Success(Account(id, name, pe, ii, groups))
  }

  function AccountToJson(a: Account): Json {
    JObj([
      ("id", JStr(a.id)),
      ("name", OptStrJson(a.name)),
      ("preferredEmail", OptStrJson(a.preferredEmail)),
      ("integrationId", OptStrJson(a.integrationId)),
      ("integrationGroups", StrListJson(a.integrationGroups))])
  }

  /** An account can serve calendar views. */
  predicate CalendarCapable(a: Account) {
    "calendars" in a.integrationGroups
  }

  /** An account is an external task source. */
  predicate TaskCapable(a: Account) {
    "tasks" in a.integrationGroups
  }

  // ----- Calendar -----

  datatype Calendar = Calendar(
    id: string,
    calendarId: Option<string>,
    accountId: Option<string>,
    name: Option<string>,
    writable: Option<bool>,
    isActiveByDefault: Option<bool>,
    myRights: Json)

  function CalendarFromJson(j: Json): (r: Result<Calendar, Raised>)
  {
    var o :- AsObject(j);
    var id :- ReqStr(o, "id");
    var cid :- OptStr(o, "calendarId");
    var aid :- OptStr(o, "accountId");
    var name :- OptStr(o, "name");
    var w :- OptBool(o, "writable");
    var active :- OptBool(o, "isActiveByDefault");
    Success(Calendar(id, cid, aid, name, w, active, GetOr(o, "myRights", JNull)))
  }

  function CalendarToJson(c: Calendar): Json {
    JObj([
      ("id", JStr(c.id)),
      ("calendarId", OptStrJson(c.calendarId)),
      ("accountId", OptStrJson(c.accountId)),
      ("name", OptStrJson(c.name)),
      ("writable", OptBoolJson(c.writable)),
      ("isActiveByDefault", OptBoolJson(c.isActiveByDefault)),
      ("myRights", c.myRights)])
  }

  // ----- Event -----

  datatype Event = Event(
    id: string,
    title: Option<string>,
    start: Option<string>,
    duration: Option<string>,
    calendarId: Option<string>,
    accountId: Option<string>,
    participants: Option<Fields>,
    locations: Option<Fields>,
    metadata: Option<Fields>)

  /** The wire name of the vendor metadata field. */
  const MetadataAlias := "morgen.so:metadata"

  function EventFromJson(j: Json): (r: Result<Event, Raised>)
  {
    var o :- AsObject(j);
    var id :- ReqStr(o, "id");
    var title :- OptStr(o, "title");
    var start :- OptStr(o, "start");
    var duration :- OptStr(o, "duration");
    var cid :- OptStr(o, "calendarId");
    var aid :- OptStr(o, "accountId");
    var ps :- OptObjField(o, "participants");
    var ls :- OptObjField(o, "locations");
    // populate_by_name: the alias is read first, the field name otherwise
    var meta :- OptObjField(o, if Has(o, MetadataAlias) then MetadataAlias else "morgen_metadata");
    Success(Event(id, title, start, duration, cid, aid, ps, ls, meta))
  }

  /** `model_dump(by_alias=True)`. */
  function EventToJson(e: Event): Json {
    JObj([
      ("id", JStr(e.id)),
      ("title", OptStrJson(e.title)),
      ("start", OptStrJson(e.start)),
      ("duration", OptStrJson(e.duration)),
      ("calendarId", OptStrJson(e.calendarId)),
      ("accountId", OptStrJson(e.accountId)),
      ("participants", OptObjJson(e.participants)),
      ("locations", OptObjJson(e.locations)),
      (MetadataAlias, OptObjJson(e.metadata))])
  }

  // ----- Task -----

  datatype Task = Task(
    id: string,
    title: string,
    progress: Option<string>,
    priority: Option<int>,
    due: Option<string>,
    tags: seq<string>,
    taskListId: Option<string>,
    estimatedDuration: Option<string>,
    integrationId: string,
    accountId: Option<string>,
    labels: seq<Fields>,
    links: Fields,
    earliestStart: Option<string>)

  /** The integration id of tasks that come from no external account. */
  const NativeSource := "morgen"

  function TaskFromJson(j: Json): (r: Result<Task, Raised>)
  {
    var o :- AsObject(j);
    var id :- ReqStr(o, "id");
    var title :- DefStr(o, "title", "");
    var progress :- OptStr(o, "progress");
    var priority :- OptInt(o, "priority");
    var due :- OptStr(o, "due");
    var tags :- StrListField(o, "tags");
    var listId :- OptStr(o, "taskListId");
    var est :- OptStr(o, "estimatedDuration");
    var integration :- DefStr(o, "integrationId", NativeSource);
    var aid :- OptStr(o, "accountId");
    var labels :- ObjListField(o, "labels");
    var links :- ObjField(o, "links");
    var es :- OptStr(o, "earliestStart");
    Success(Task(id, title, progress, priority, due, tags, listId, est, integration, aid, labels, links, es))
  }

  function TaskToJson(t: Task): Json {
    JObj([
      ("id", JStr(t.id)),
      ("title", JStr(t.title)),
      ("progress", OptStrJson(t.progress)),
      ("priority", OptIntJson(t.priority)),
      ("due", OptStrJson(t.due)),
      ("tags", StrListJson(t.tags)),
      ("taskListId", OptStrJson(t.taskListId)),
      ("estimatedDuration", OptStrJson(t.estimatedDuration)),
      ("integrationId", JStr(t.integrationId)),
      ("accountId", OptStrJson(t.accountId)),
      ("labels", ObjListJson(t.labels)),
      ("links", JObj(t.links)),
      ("earliestStart", OptStrJson(t.earliestStart))])
  }

  // ----- LabelDef, Space, Tag, TaskList -----

  datatype LabelDef = LabelDef(id: string, display: Option<string>, kind: Option<string>, values: seq<Fields>)

  function LabelDefFromJson(j: Json): (r: Result<LabelDef, Raised>)
  {
    var o :- AsObject(j);
    var id :- ReqStr(o, "id");
    var display :- OptStr(o, "label");
    var kind :- OptStr(o, "type");
    var values :- ObjListField(o, "values");
    Success(LabelDef(id, display, kind, values))
  }

  function LabelDefToJson(d: LabelDef): Json {
    JObj([
      ("id", JStr(d.id)),
      ("label", OptStrJson(d.display)),
      ("type", OptStrJson(d.kind)),
      ("values", ObjListJson(d.values))])
  }

  datatype Space = Space(id: string, name: Option<string>)

  function SpaceFromJson(j: Json): (r: Result<Space, Raised>)
  {
    var o :- AsObject(j);
    var id :- ReqStr(o, "id");
    var name :- OptStr(o, "name");
    Success(Space(id, name))
  }

  datatype Tag = Tag(id: string, name: string, color: Option<string>)

  function TagFromJson(j: Json): (r: Result<Tag, Raised>)
  {
    var o :- AsObject(j);
    var id :- ReqStr(o, "id");
    var name :- ReqStr(o, "name");
    var color :- OptStr(o, "color");
    Success(Tag(id, name, color))
  }

  function TagToJson(t: Tag): Json {
    JObj([("id", JStr(t.id)), ("name", JStr(t.name)), ("color", OptStrJson(t.color))])
  }

  datatype TaskList = TaskList(id: string, name: string)

  function TaskListFromJson(j: Json): (r: Result<TaskList, Raised>)
  {
    var o :- AsObject(j);
    var id :- ReqStr(o, "id");
    var name :- ReqStr(o, "name");
    Success(TaskList(id, name))
  }

  /** The compound result of listing tasks across sources. */
  datatype TaskListResponse = TaskListResponse(tasks: seq<Task>, labelDefs: seq<LabelDef>, spaces: seq<Space>)

  /** `TaskListResponse()`: three empty lists. */
  const EmptyTaskListResponse := TaskListResponse([], [], [])

  // ----- Reading a field at a known position -----

  /** `id` is the only key of the object. */
  lemma OnlyKey(id: string, k: string)
    requires k != "id"
    ensures Get([("id", JStr(id))], k) == None
  {
    GetAbsent([("id", JStr(id))], k);
  }

  lemma ReqStrAt(o: Fields, i: nat, k: string, x: string)
    requires i < |o| && o[i] == (k, JStr(x))
    requires forall j :: 0 <= j < i ==> o[j].0 != k
    ensures ReqStr(o, k) == Success(x) && DefStr(o, k, "") == Success(x)
    ensures DefStr(o, k, NativeSource) == Success(x)
  {
    GetAt(o, i, k);
  }

  lemma OptStrAt(o: Fields, i: nat, k: string, x: Option<string>)
    requires i < |o| && o[i] == (k, OptStrJson(x))
    requires forall j :: 0 <= j < i ==> o[j].0 != k
    ensures OptStr(o, k) == Success(x)
  {
    GetAt(o, i, k);
  }

  lemma OptBoolAt(o: Fields, i: nat, k: string, x: Option<bool>)
    requires i < |o| && o[i] == (k, OptBoolJson(x))
    requires forall j :: 0 <= j < i ==> o[j].0 != k
    ensures OptBool(o, k) == Success(x)
  {
    GetAt(o, i, k);
  }

  lemma OptIntAt(o: Fields, i: nat, k: string, x: Option<int>)
    requires i < |o| && o[i] == (k, OptIntJson(x))
    requires forall j :: 0 <= j < i ==> o[j].0 != k
    ensures OptInt(o, k) == Success(x)
  {
    GetAt(o, i, k);
  }

  lemma OptObjAt(o: Fields, i: nat, k: string, x: Option<Fields>)
    requires i < |o| && o[i] == (k, OptObjJson(x))
    requires forall j :: 0 <= j < i ==> o[j].0 != k
    ensures OptObjField(o, k) == Success(x) && Has(o, k)
  {
    GetAt(o, i, k);
  }

  lemma ObjAt(o: Fields, i: nat, k: string, x: Fields)
    requires i < |o| && o[i] == (k, JObj(x))
    requires forall j :: 0 <= j < i ==> o[j].0 != k
    ensures ObjField(o, k) == Success(x)
  {
    GetAt(o, i, k);
  }

  lemma AnyAt(o: Fields, i: nat, k: string, x: Json)
    requires i < |o| && o[i] == (k, x)
    requires forall j :: 0 <= j < i ==> o[j].0 != k
    ensures GetOr(o, k, JNull) == x
  {
    GetAt(o, i, k);
  }

  lemma StrListAt(o: Fields, i: nat, k: string, xs: seq<string>)
    requires i < |o| && o[i] == (k, StrListJson(xs))
    requires forall j :: 0 <= j < i ==> o[j].0 != k
    ensures StrListField(o, k) == Success(xs)
  {
    GetAt(o, i, k);
    var items := StrListJson(xs).items;
    assert seq(|items|, i requires 0 <= i < |items| => items[i].s) == xs;
  }

  lemma ObjListAt(o: Fields, i: nat, k: string, xs: seq<Fields>)
    requires i < |o| && o[i] == (k, ObjListJson(xs))
    requires forall j :: 0 <= j < i ==> o[j].0 != k
    ensures ObjListField(o, k) == Success(xs)
  {
    GetAt(o, i, k);
    var items := ObjListJson(xs).items;
    assert seq(|items|, i requires 0 <= i < |items| => items[i].fields) == xs;
  }

  // ----- Properties -----

  /** Only `id` is required on a task; every other field takes its default,
      in particular the native integration id. */
  lemma TaskDefaults(id: string)
    ensures TaskFromJson(JObj([("id", JStr(id))])) ==
      Success(Task(id, "", None, None, None, [], None, None, NativeSource, None, [], [], None))
  {
    var o := [("id", JStr(id))];
    ReqStrAt(o, 0, "id", id);
    OnlyKey(id, "title");
    OnlyKey(id, "progress");
    OnlyKey(id, "priority");
    OnlyKey(id, "due");
    OnlyKey(id, "tags");
    OnlyKey(id, "taskListId");
    OnlyKey(id, "estimatedDuration");
    OnlyKey(id, "integrationId");
    OnlyKey(id, "accountId");
    OnlyKey(id, "labels");
    OnlyKey(id, "links");
    OnlyKey(id, "earliestStart");
  }

  /** `id` is required on every record, and `name` on a tag as well: a dict
      without them does not validate, whatever else it holds. */
  lemma RequiredFields(o: Fields)
    ensures !Has(o, "id") ==>
      && AccountFromJson(JObj(o)).Failure?
      && CalendarFromJson(JObj(o)).Failure?
      && EventFromJson(JObj(o)).Failure?
      && TaskFromJson(JObj(o)).Failure?
      && TagFromJson(JObj(o)).Failure?
    ensures !Has(o, "name") ==> TagFromJson(JObj(o)).Failure?
  {
  }

  /** A task without an id does not validate. */
  lemma TaskRequiresId(title: string)
    ensures TaskFromJson(JObj([("title", JStr(title))])).Failure?
  {
    GetAbsent([("title", JStr(title))], "id");
  }

  /** An account that declares no integration groups is neither a calendar
      nor a task source. */
  lemma AccountDefaults(id: string)
    ensures AccountFromJson(JObj([("id", JStr(id))])) == Success(Account(id, None, None, None, []))
    ensures !CalendarCapable(Account(id, None, None, None, []))
    ensures !TaskCapable(Account(id, None, None, None, []))
  {
    var o := [("id", JStr(id))];
    ReqStrAt(o, 0, "id", id);
    OnlyKey(id, "name");
    OnlyKey(id, "preferredEmail");
    OnlyKey(id, "integrationId");
    OnlyKey(id, "integrationGroups");
  }

  /** A tag needs both its id and its name. */
  lemma TagRequiresName(id: string)
    ensures TagFromJson(JObj([("id", JStr(id))])).Failure?
    ensures TagFromJson(JObj([("id", JStr(id)), ("name", JStr("x"))])) == Success(Tag(id, "x", None))
  {
    ReqStrAt([("id", JStr(id))], 0, "id", id);
    OnlyKey(id, "name");
    var o := [("id", JStr(id)), ("name", JStr("x"))];
    ReqStrAt(o, 0, "id", id);
    ReqStrAt(o, 1, "name", "x");
    GetAbsent(o, "color");
  }

  lemma AccountFromFields(a: Account, o: Fields)
    requires ReqStr(o, "id") == Success(a.id)
    requires OptStr(o, "name") == Success(a.name)
    requires OptStr(o, "preferredEmail") == Success(a.preferredEmail)
    requires OptStr(o, "integrationId") == Success(a.integrationId)
    requires StrListField(o, "integrationGroups") == Success(a.integrationGroups)
    ensures AccountFromJson(JObj(o)) == Success(a)
  {
  }

  /** Dumped records validate back to themselves, so a cached dump reads
      back as the records that were stored. */
  lemma AccountRoundTrip(a: Account)
    ensures AccountFromJson(AccountToJson(a)) == Success(a)
  {
    var o := AccountToJson(a).fields;
    ReqStrAt(o, 0, "id", a.id);
    OptStrAt(o, 1, "name", a.name);
    OptStrAt(o, 2, "preferredEmail", a.preferredEmail);
    OptStrAt(o, 3, "integrationId", a.integrationId);
    StrListAt(o, 4, "integrationGroups", a.integrationGroups);
    AccountFromFields(a, o);
  }

  lemma CalendarFromFields(c: Calendar, o: Fields)
    requires ReqStr(o, "id") == Success(c.id)
    requires OptStr(o, "calendarId") == Success(c.calendarId)
    requires OptStr(o, "accountId") == Success(c.accountId)
    requires OptStr(o, "name") == Success(c.name)
    requires OptBool(o, "writable") == Success(c.writable)
    requires OptBool(o, "isActiveByDefault") == Success(c.isActiveByDefault)
    requires GetOr(o, "myRights", JNull) == c.myRights
    ensures CalendarFromJson(JObj(o)) == Success(c)
  {
  }

  lemma CalendarRoundTrip(c: Calendar)
    ensures CalendarFromJson(CalendarToJson(c)) == Success(c)
  {
    var o := CalendarToJson(c).fields;
    ReqStrAt(o, 0, "id", c.id);
    OptStrAt(o, 1, "calendarId", c.calendarId);
    OptStrAt(o, 2, "accountId", c.accountId);
    OptStrAt(o, 3, "name", c.name);
    OptBoolAt(o, 4, "writable", c.writable);
    OptBoolAt(o, 5, "isActiveByDefault", c.isActiveByDefault);
    AnyAt(o, 6, "myRights", c.myRights);
    CalendarFromFields(c, o);
  }

  lemma EventFromFields(e: Event, o: Fields)
    requires ReqStr(o, "id") == Success(e.id)
    requires OptStr(o, "title") == Success(e.title)
    requires OptStr(o, "start") == Success(e.start)
    requires OptStr(o, "duration") == Success(e.duration)
    requires OptStr(o, "calendarId") == Success(e.calendarId)
    requires OptStr(o, "accountId") == Success(e.accountId)
    requires OptObjField(o, "participants") == Success(e.participants)
    requires OptObjField(o, "locations") == Success(e.locations)
    requires Has(o, MetadataAlias)
    requires OptObjField(o, MetadataAlias) == Success(e.metadata)
    ensures EventFromJson(JObj(o)) == Success(e)
  {
  }

  lemma EventHeadFields(e: Event)
    ensures var o := EventToJson(e).fields;
      && ReqStr(o, "id") == Success(e.id)
      && OptStr(o, "title") == Success(e.title)
      && OptStr(o, "start") == Success(e.start)
      && OptStr(o, "duration") == Success(e.duration)
  {
    var o := EventToJson(e).fields;
    ReqStrAt(o, 0, "id", e.id);
    OptStrAt(o, 1, "title", e.title);
    OptStrAt(o, 2, "start", e.start);
    OptStrAt(o, 3, "duration", e.duration);
  }

  lemma EventTailFields(e: Event)
    ensures var o := EventToJson(e).fields;
      && OptStr(o, "calendarId") == Success(e.calendarId)
      && OptStr(o, "accountId") == Success(e.accountId)
      && OptObjField(o, "participants") == Success(e.participants)
      && OptObjField(o, "locations") == Success(e.locations)
      && Has(o, MetadataAlias)
      && OptObjField(o, MetadataAlias) == Success(e.metadata)
  {
    var o := EventToJson(e).fields;
    OptStrAt(o, 4, "calendarId", e.calendarId);
    OptStrAt(o, 5, "accountId", e.accountId);
    OptObjAt(o, 6, "participants", e.participants);
    OptObjAt(o, 7, "locations", e.locations);
    OptObjAt(o, 8, MetadataAlias, e.metadata);
  }

  lemma EventRoundTrip(e: Event)
    ensures EventFromJson(EventToJson(e)) == Success(e)
  {
    EventHeadFields(e);
    EventTailFields(e);
    EventFromFields(e, EventToJson(e).fields);
  }

  lemma TaskFromFields(t: Task, o: Fields)
    requires ReqStr(o, "id") == Success(t.id)
    requires DefStr(o, "title", "") == Success(t.title)
    requires OptStr(o, "progress") == Success(t.progress)
    requires OptInt(o, "priority") == Success(t.priority)
    requires OptStr(o, "due") == Success(t.due)
    requires StrListField(o, "tags") == Success(t.tags)
    requires OptStr(o, "taskListId") == Success(t.taskListId)
    requires OptStr(o, "estimatedDuration") == Success(t.estimatedDuration)
    requires DefStr(o, "integrationId", NativeSource) == Success(t.integrationId)
    requires OptStr(o, "accountId") == Success(t.accountId)
    requires ObjListField(o, "labels") == Success(t.labels)
    requires ObjField(o, "links") == Success(t.links)
    requires OptStr(o, "earliestStart") == Success(t.earliestStart)
    ensures TaskFromJson(JObj(o)) == Success(t)
  {
  }

  lemma TaskFields1(t: Task)
    ensures var o := TaskToJson(t).fields;
      && ReqStr(o, "id") == Success(t.id)
      && DefStr(o, "title", "") == Success(t.title)
      && OptStr(o, "progress") == Success(t.progress)
      && OptInt(o, "priority") == Success(t.priority)
  {
    var o := TaskToJson(t).fields;
    ReqStrAt(o, 0, "id", t.id);
    ReqStrAt(o, 1, "title", t.title);
    OptStrAt(o, 2, "progress", t.progress);
    OptIntAt(o, 3, "priority", t.priority);
  }

  lemma TaskFields2(t: Task)
    ensures var o := TaskToJson(t).fields;
      && OptStr(o, "due") == Success(t.due)
      && StrListField(o, "tags") == Success(t.tags)
      && OptStr(o, "taskListId") == Success(t.taskListId)
      && OptStr(o, "estimatedDuration") == Success(t.estimatedDuration)
  {
    var o := TaskToJson(t).fields;
    OptStrAt(o, 4, "due", t.due);
    StrListAt(o, 5, "tags", t.tags);
    OptStrAt(o, 6, "taskListId", t.taskListId);
    OptStrAt(o, 7, "estimatedDuration", t.estimatedDuration);
  }

  lemma TaskFields3(t: Task)
    ensures var o := TaskToJson(t).fields;
      && DefStr(o, "integrationId", NativeSource) == Success(t.integrationId)
      && OptStr(o, "accountId") == Success(t.accountId)
      && ObjListField(o, "labels") == Success(t.labels)
      && ObjField(o, "links") == Success(t.links)
      && OptStr(o, "earliestStart") == Success(t.earliestStart)
  {
    var o := TaskToJson(t).fields;
    ReqStrAt(o, 8, "integrationId", t.integrationId);
    OptStrAt(o, 9, "accountId", t.accountId);
    ObjListAt(o, 10, "labels", t.labels);
    ObjAt(o, 11, "links", t.links);
    OptStrAt(o, 12, "earliestStart", t.earliestStart);
  }

  lemma TaskRoundTrip(t: Task)
    ensures TaskFromJson(TaskToJson(t)) == Success(t)
  {
    TaskFields1(t);
    TaskFields2(t);
    TaskFields3(t);
    TaskFromFields(t, TaskToJson(t).fields);
  }

  lemma TagRoundTrip(t: Tag)
    ensures TagFromJson(TagToJson(t)) == Success(t)
  {
    var o := TagToJson(t).fields;
    ReqStrAt(o, 0, "id", t.id);
    ReqStrAt(o, 1, "name", t.name);
    OptStrAt(o, 2, "color", t.color);
  }
}

=== FILE: output.dfy ===
/** Enrichment and projection of records before they are printed: display
    strings for JSCalendar participants and locations, source metadata for
    tasks from external integrations, field selection, and the shortening of
    long ids. Every transform builds new values (the inputs are immutable
    here, so "does not mutate its input" holds by construction). A Python
    `TypeError` or `AttributeError` on a value of the wrong shape is
    `Malformed`. */
module Output {
  import opened Wrappers
  import opened Json
  import opened Errors
  import Text
  import Seqs
  import Models

  /** `x.get(k, default)`, which needs `x` to be a dict. */
  function DictGet(x: Json, k: string, default: Json): (r: Result<Json, Raised>)
    ensures r.Success? <==> x.JObj?
    ensures x.JObj? ==> r.value == GetOr(x.fields, k, default)
  {
    if x.JObj? then Success(GetOr(x.fields, k, default)) else Failure(Malformed("no get()"))
  }

  /** `for x in j`, which needs `j` to be iterable. */
  function Items(j: Json): (r: Result<seq<Json>, Raised>)
    ensures r.Success? <==> Iterate(j).Some?
    ensures j.JArr? ==> r == Success(j.items)
  {
    match Iterate(j)
    case None => Failure(Malformed("not iterable"))
    case Some(items) => Success(items)
  }

  // ----- Display strings -----

  /** The values of a dict, in order. */
  function Values(fields: Fields): (r: seq<Json>)
    ensures |r| == |fields|
    ensures forall i :: 0 <= i < |fields| ==> r[i] == fields[i].1
  {
    seq(|fields|, i requires 0 <= i < |fields| => fields[i].1)
  }

  /** `[pick(v) for v in values if pick(v) is not None]`. */
  function Collect(values: seq<Json>, pick: Json -> Option<Json>): (r: seq<Json>)
    ensures |r| <= |values|
  {
    if |values| == 0 then []
    else (if pick(values[0]).Some? then [pick(values[0]).value] else []) + Collect(values[1..], pick)
  }

  lemma {:induction false} CollectConcat(a: seq<Json>, b: seq<Json>, pick: Json -> Option<Json>)
    ensures Collect(a + b, pick) == Collect(a, pick) + Collect(b, pick)
    decreases |a|
  {
    if |a| == 0 {
      assert a + b == b;
    } else {
      var head := if pick(a[0]).Some? then [pick(a[0]).value] else [];
      assert (a + b)[0] == a[0];
      assert (a + b)[1..] == a[1..] + b;
      assert Collect(a + b, pick) == head + Collect(a[1..] + b, pick);
      CollectConcat(a[1..], b, pick);
      assert Collect(a, pick) == head + Collect(a[1..], pick);
    }
  }

  /** `", ".join(names)`: every name must be a string. */
  function JoinNames(names: seq<Json>): (r: Result<string, Raised>)
    ensures r.Success? <==> forall i :: 0 <= i < |names| ==> names[i].JStr?
    ensures |names| == 0 ==> r == Success("")
    ensures |names| == 1 && names[0].JStr? ==> r == Success(names[0].s)
  {
    if |names| == 0 then Success("")
    else if !names[0].JStr? then Failure(Malformed("join of a non-string"))
    else if |names| == 1 then Success(names[0].s)
    else
      match JoinNames(names[1..])
      case Failure(e) =>
        assert exists i :: 0 <= i < |names| && !names[i].JStr? by {
          var i :| 0 <= i < |names[1..]| && !names[1..][i].JStr?;
          assert !names[i + 1].JStr?;
        }
        Failure(e)
      case Success(rest) =>
        assert forall i :: 1 <= i < |names| ==> names[i] == names[1..][i - 1];
        Success(names[0].s + ", " + rest)
  }

  /** A display over a JSCalendar map (`participants` or `locations`): ""
      for `None` or an empty map, otherwise the names its values contribute
      joined with ", ". */
  function FormatDisplay(j: Json, pick: Json -> Option<Json>): (r: Result<string, Raised>)
    ensures !Truthy(j) ==> r == Success("")
    ensures Truthy(j) && !j.JObj? ==> r.Failure?
  {
    if !Truthy(j) then Success("")
    else if !j.JObj? then Failure(Malformed("no values()"))
    else JoinNames(Collect(Values(j.fields), pick))
  }

  /** What a participant contributes: nothing for a value that is not a dict
      or for a resource (a room, equipment); otherwise its `name`, or failing
      that its `email`, when not empty. */
  function ParticipantName(p: Json): (r: Option<Json>)
    ensures r.Some? ==> p.JObj? && Get(p.fields, "kind") != Some(JStr("resource")) && Truthy(r.value)
    ensures p.JObj? && Get(p.fields, "kind") != Some(JStr("resource")) ==>
      && (Truthy(GetOr(p.fields, "name", JNull)) ==> r == Some(GetOr(p.fields, "name", JNull)))
      && (!Truthy(GetOr(p.fields, "name", JNull)) && Truthy(GetOr(p.fields, "email", JStr(""))) ==>
            r == Some(GetOr(p.fields, "email", JStr(""))))
      && (!Truthy(GetOr(p.fields, "name", JNull)) && !Truthy(GetOr(p.fields, "email", JStr(""))) ==> r.None?)
  {
    if !p.JObj? || Get(p.fields, "kind") == Some(JStr("resource")) then None
    else
      var name := Or(GetOr(p.fields, "name", JNull), GetOr(p.fields, "email", JStr("")));
      if Truthy(name) then Some(name) else None
  }

  /** What a location contributes: its `name`, when it is a dict with a
      non-empty name. */
  function LocationName(loc: Json): (r: Option<Json>)
    ensures r.Some? <==> loc.JObj? && Truthy(GetOr(loc.fields, "name", JStr("")))
    ensures r.Some? ==> r.value == GetOr(loc.fields, "name", JStr(""))
  {
    if loc.JObj? && Truthy(GetOr(loc.fields, "name", JStr(""))) then Some(GetOr(loc.fields, "name", JStr(""))) else None
  }

  /** `format_participants(participants)`. */
  function FormatParticipants(participants: Json): Result<string, Raised> {
    FormatDisplay(participants, ParticipantName)
  }

  /** `format_locations(locations)`. */
  function FormatLocations(locations: Json): Result<string, Raised> {
    FormatDisplay(locations, LocationName)
  }

  /** A resource participant changes nothing in the display, wherever it
      is added. */
  lemma ResourcesNotListed(participants: Fields, key: string, resource: Fields)
    requires Get(resource, "kind") == Some(JStr("resource"))
    ensures FormatParticipants(JObj(participants + [(key, JObj(resource))])) == FormatParticipants(JObj(participants))
  {
    var f := participants + [(key, JObj(resource))];
    assert Values(f) == Values(participants) + [JObj(resource)];
    assert FormatParticipants(JObj(f)) == JoinNames(Collect(Values(f), ParticipantName));
    CollectConcat(Values(participants), [JObj(resource)], ParticipantName);
    assert ParticipantName(JObj(resource)).None?;
    assert Collect([JObj(resource)], ParticipantName) == [] by {
      assert [JObj(resource)][1..] == [];
    }
    assert Collect(Values(f), ParticipantName) == Collect(Values(participants), ParticipantName);
    if |participants| == 0 {
      assert Collect(Values(participants), ParticipantName) == [];
      assert FormatParticipants(JObj(participants)) == Success("");
    } else {
      assert FormatParticipants(JObj(participants)) == JoinNames(Collect(Values(participants), ParticipantName));
    }
  }

  /** Names are listed in map order, each participant by name or else by
      email, and resources are skipped. */
  lemma ParticipantsExample()
    ensures FormatParticipants(JObj([
      ("a", JObj([("name", JStr("Alice"))])),
      ("r", JObj([("kind", JStr("resource")), ("name", JStr("Room 1"))])),
      ("b", JObj([("email", JStr("bob@example.com"))]))])) == Success("Alice, bob@example.com")
  {
    var alice := JObj([("name", JStr("Alice"))]);
    var room := JObj([("kind", JStr("resource")), ("name", JStr("Room 1"))]);
    var bob := JObj([("email", JStr("bob@example.com"))]);
    var fields := [("a", alice), ("r", room), ("b", bob)];
    assert Values(fields) == [alice, room, bob];
    FormatDisplayObj(fields, ParticipantName);
    ExampleCollected();
    ExampleJoined();
  }

  /** A non-empty map's display joins what its values contribute. */
  lemma FormatDisplayObj(fields: Fields, pick: Json -> Option<Json>)
    requires |fields| > 0
    ensures FormatDisplay(JObj(fields), pick) == JoinNames(Collect(Values(fields), pick))
  {
  }

  /** The example's values contribute Alice's name and Bob's email. */
  lemma ExampleCollected()
    ensures Collect([JObj([("name", JStr("Alice"))]),
                     JObj([("kind", JStr("resource")), ("name", JStr("Room 1"))]),
                     JObj([("email", JStr("bob@example.com"))])], ParticipantName)
         == [JStr("Alice"), JStr("bob@example.com")]
  {
    var alice := JObj([("name", JStr("Alice"))]);
    var room := JObj([("kind", JStr("resource")), ("name", JStr("Room 1"))]);
    var bob := JObj([("email", JStr("bob@example.com"))]);
    ExampleNames();
    var values := [alice, room, bob];
    assert Collect([bob], ParticipantName) == [JStr("bob@example.com")] by {
      assert [bob][1..] == [];
    }
    assert Collect([room, bob], ParticipantName) == [JStr("bob@example.com")] by {
      assert [room, bob][1..] == [bob];
    }
    assert values[1..] == [room, bob];
  }

  /** Two names are joined with ", ". */
  lemma ExampleJoined()
    ensures JoinNames([JStr("Alice"), JStr("bob@example.com")]) == Success("Alice, bob@example.com")
  {
    var names := [JStr("Alice"), JStr("bob@example.com")];
    assert names[1..] == [JStr("bob@example.com")];
    assert JoinNames(names) == Success("Alice" + ", " + "bob@example.com");
    assert "Alice" + ", " + "bob@example.com" == "Alice, bob@example.com";
  }

  /** Each participant of the example on its own: a name, a resource, an
      email. */
  lemma ExampleNames()
    ensures ParticipantName(JObj([("name", JStr("Alice"))])) == Some(JStr("Alice"))
    ensures ParticipantName(JObj([("kind", JStr("resource")), ("name", JStr("Room 1"))])) == None
    ensures ParticipantName(JObj([("email", JStr("bob@example.com"))])) == Some(JStr("bob@example.com"))
  {
    var alice := JObj([("name", JStr("Alice"))]);
    var room := JObj([("kind", JStr("resource")), ("name", JStr("Room 1"))]);
    var bob := JObj([("email", JStr("bob@example.com"))]);
    GetAbsent(alice.fields, "kind");
    GetAt(alice.fields, 0, "name");
    GetAt(room.fields, 0, "kind");
    GetAbsent(bob.fields, "kind");
    GetAbsent(bob.fields, "name");
    GetAt(bob.fields, 0, "email");
  }

  /** The two display fields an event gains. */
  datatype EventDisplay = EventDisplay(participants: string, locations: string)

  function EventDisplayOf(event: Fields): Result<EventDisplay, Raised> {
    var ps :- FormatParticipants(GetOr(event, "participants", JNull));
    var ls :- FormatLocations(GetOr(event, "locations", JNull));
    Success(EventDisplay(ps, ls))
  }

  /** An event with its two display fields set: every other key keeps its
      value, and new keys come last. */
  function WithDisplay(event: Fields, d: EventDisplay): (e: Fields)
    ensures Get(e, "participants_display") == Some(JStr(d.participants))
    ensures Get(e, "location_display") == Some(JStr(d.locations))
    ensures forall k :: k != "participants_display" && k != "location_display" ==> Get(e, k) == Get(event, k)
    ensures !Has(event, "participants_display") && !Has(event, "location_display") ==>
      Keys(e) == Keys(event) + ["participants_display", "location_display"]
  {
    PutTwo(event, "participants_display", JStr(d.participants), "location_display", JStr(d.locations));
    Put(Put(event, "participants_display", JStr(d.participants)), "location_display", JStr(d.locations))
  }

  /** One enriched event: a copy with the two display fields set. */
  function EnrichEvent(event: Fields): Result<Fields, Raised> {
    var d :- EventDisplayOf(event);
    Success(WithDisplay(event, d))
  }

  /** `enrich_events(events)`: one enriched copy per event, in order. */
  function EnrichEvents(events: seq<Fields>): (r: Result<seq<Fields>, Raised>)
    ensures r.Success? ==> |r.value| == |events|
    ensures r.Success? ==> forall i :: 0 <= i < |events| ==> EnrichEvent(events[i]) == Success(r.value[i])
    ensures r.Failure? <==> exists i :: 0 <= i < |events| && EventDisplayOf(events[i]).Failure?
  {
    Seqs.MapAll(events, EnrichEvent)
  }

  /** An enriched event is its input plus the two display fields: every
      other key keeps its value, and the new keys come last. */
  lemma EnrichEventSpec(event: Fields)
    requires EnrichEvent(event).Success?
    ensures var e := EnrichEvent(event).value;
      var d := EventDisplayOf(event).value;
      && Get(e, "participants_display") == Some(JStr(d.participants))
      && Get(e, "location_display") == Some(JStr(d.locations))
      && (forall k :: k != "participants_display" && k != "location_display" ==> Get(e, k) == Get(event, k))
      && (!Has(event, "participants_display") && !Has(event, "location_display") ==>
            Keys(e) == Keys(event) + ["participants_display", "location_display"])
  {
    assert EnrichEvent(event).value == WithDisplay(event, EventDisplayOf(event).value);
  }

  // ----- Tasks -----

  /** `_resolve_label(labels, label_id)`: the `value` of the first label
      whose `id` is `label_id` (`None` when it has none), else `None`. */
  function ResolveLabel(labels: seq<Json>, labelId: string): (r: Result<Json, Raised>)
    ensures (forall i :: 0 <= i < |labels| ==> labels[i].JObj?) ==> r.Success?
    ensures (forall i :: 0 <= i < |labels| ==> labels[i].JObj? && !HasLabelId(labels[i], labelId)) ==> r == Success(JNull)
  {
    if |labels| == 0 then Success(JNull)
    else
      var id :- DictGet(labels[0], "id", JNull);
      if id == JStr(labelId) then DictGet(labels[0], "value", JNull)
      else ResolveLabel(labels[1..], labelId)
  }

  /** A label (a dict) that carries the id. */
  predicate HasLabelId(l: Json, labelId: string) {
    l.JObj? && Get(l.fields, "id") == Some(JStr(labelId))
  }

  /** The first label with the id decides, provided the labels before it are
      dicts; with no such label the result is `None`. */
  lemma {:induction false} ResolveLabelFirst(labels: seq<Json>, labelId: string, i: nat)
    requires i <= |labels|
    requires forall j :: 0 <= j < i ==> labels[j].JObj? && !HasLabelId(labels[j], labelId)
    ensures i < |labels| && HasLabelId(labels[i], labelId) ==>
      ResolveLabel(labels, labelId) == Success(GetOr(labels[i].fields, "value", JNull))
    ensures i == |labels| ==> ResolveLabel(labels, labelId) == Success(JNull)
    decreases i
  {
    if i > 0 {
      ResolveLabelFirst(labels[1..], labelId, i - 1);
    }
  }

  /** The `label` of the first entry of `values` whose `value` equals
      `value` under Python's `==`. */
  function FindValue(values: seq<Json>, value: Json): (r: Result<Option<Json>, Raised>)
    ensures r == Success(None) <==> forall i :: 0 <= i < |values| ==> values[i].JObj? && !PyEq(GetOr(values[i].fields, "value", JNull), value)
  {
    if |values| == 0 then Success(None)
    else
      var v :- DictGet(values[0], "value", JNull);
      if PyEq(v, value) then
        Success(Some(GetOr(values[0].fields, "label", JNull)))
      else
        var rest := FindValue(values[1..], value);
        assert rest == Success(None) <==> forall i :: 1 <= i < |values| ==> values[i].JObj? && !PyEq(GetOr(values[i].fields, "value", JNull), value) by {
          assert forall i :: 1 <= i < |values| ==> values[i] == values[1..][i - 1];
        }
        rest
  }

  /** The first entry whose `value` is the value decides, provided the
      entries before it are dicts with other values. */
  lemma {:induction false} FindValueFirst(values: seq<Json>, value: Json, i: nat)
    requires i < |values|
    requires forall j :: 0 <= j < i ==> values[j].JObj? && !PyEq(GetOr(values[j].fields, "value", JNull), value)
    requires values[i].JObj? && PyEq(GetOr(values[i].fields, "value", JNull), value)
    ensures FindValue(values, value) == Success(Some(GetOr(values[i].fields, "label", JNull)))
    decreases i
  {
    if i > 0 {
      FindValueFirst(values[1..], value, i - 1);
    }
  }

  /** The search of `_resolve_label_display` over the definitions. */
  function DisplayIn(defs: seq<Json>, value: Json, labelId: string): (r: Result<Json, Raised>)
  {
    if |defs| == 0 then Success(value)
    else
      var id :- DictGet(defs[0], "id", JNull);
      if id != JStr(labelId) then DisplayIn(defs[1..], value, labelId)
      else
        var items :- Items(GetOr(defs[0].fields, "values", JArr([])));
        var found :- FindValue(items, value);
        if found.Some? then Success(found.value) else DisplayIn(defs[1..], value, labelId)
  }

  /** `_resolve_label_display(label_value, label_defs, label_id)`: `None`
      stays `None`; otherwise the display label of the first definition with
      the id that lists the value, else the value itself. */
  function ResolveLabelDisplay(value: Json, defs: seq<Json>, labelId: string): (r: Result<Json, Raised>)
    ensures value == JNull ==> r == Success(JNull)
  {
    if value == JNull then Success(JNull) else DisplayIn(defs, value, labelId)
  }

  /** A definition that does not carry the id. */
  predicate OtherDef(d: Json, labelId: string) {
    d.JObj? && GetOr(d.fields, "id", JNull) != JStr(labelId)
  }

  /** The `values` a definition lists, when they can be iterated. */
  function DefValues(d: Fields): Option<seq<Json>> {
    Iterate(GetOr(d, "values", JArr([])))
  }

  /** A definition the search passes over: another id, or the id with
      values none of which is the value. */
  predicate PassesOver(d: Json, value: Json, labelId: string) {
    || OtherDef(d, labelId)
    || (d.JObj? && GetOr(d.fields, "id", JNull) == JStr(labelId) &&
        DefValues(d.fields).Some? && FindValue(DefValues(d.fields).value, value) == Success(None))
  }

  /** A definition for the id that lists the value; `display` is the label
      of the first entry listing it. */
  predicate MapsValue(d: Json, value: Json, labelId: string, display: Json) {
    && d.JObj? && GetOr(d.fields, "id", JNull) == JStr(labelId)
    && DefValues(d.fields).Some? && FindValue(DefValues(d.fields).value, value) == Success(Some(display))
  }

  /** The first definition for the id that lists a non-`None` value gives
      its display, provided the definitions before it are passed over; when
      every definition is passed over the value is its own display. */
  lemma {:induction false} DisplayFirst(value: Json, defs: seq<Json>, labelId: string, i: nat, display: Json)
    requires i <= |defs|
    requires forall j :: 0 <= j < i ==> PassesOver(defs[j], value, labelId)
    ensures value != JNull && i < |defs| && MapsValue(defs[i], value, labelId, display) ==>
      ResolveLabelDisplay(value, defs, labelId) == Success(display)
    ensures value != JNull && i == |defs| ==> ResolveLabelDisplay(value, defs, labelId) == Success(value)
    decreases i
  {
    if i > 0 && value != JNull {
      DisplayFirst(value, defs[1..], labelId, i - 1, display);
    }
  }

  /** With no definition for the id, the raw value is the display. */
  lemma {:induction false} DisplayFallsBack(value: Json, defs: seq<Json>, labelId: string)
    requires forall i :: 0 <= i < |defs| ==> OtherDef(defs[i], labelId)
    ensures ResolveLabelDisplay(value, defs, labelId) == Success(value)
    decreases |defs|
  {
    if |defs| > 0 && value != JNull {
      DisplayFallsBack(value, defs[1..], labelId);
    }
  }

  /** A definition for the id whose values list the value maps it to that
      entry's label. */
  lemma DisplayMapsListedValue(value: Json, defs: seq<Json>, labelId: string, display: Json)
    requires value != JNull && |defs| > 0 && defs[0].JObj?
    requires defs[0].fields == [("id", JStr(labelId)), ("values", JArr([JObj([("value", value), ("label", display)])]))]
    ensures ResolveLabelDisplay(value, defs, labelId) == Success(display)
  {
    var entry := [("value", value), ("label", display)];
    GetAt(defs[0].fields, 0, "id");
    GetAt(defs[0].fields, 1, "values");
    GetAt(entry, 0, "value");
    GetAt(entry, 1, "label");
  }

  /** The label ids that carry a status, in order of preference. */
  const StatusLabelIds := ["state", "notion%3A%2F%2Fprojects%2Fstatus_property"]

  /** The `source_status` loop: the first status label with a value decides. */
  function StatusFrom(labels: seq<Json>, defs: seq<Json>, ids: seq<string>): (r: Result<Json, Raised>)
    ensures |ids| == 0 ==> r == Success(JNull)
  {
    if |ids| == 0 then Success(JNull)
    else
      var raw :- ResolveLabel(labels, ids[0]);
      if raw != JNull then ResolveLabelDisplay(raw, defs, ids[0])
      else StatusFrom(labels, defs, ids[1..])
  }

  /** The first status id whose label resolves to a value decides, through
      that id's definitions; when every id resolves to `None` the status is
      `None`. A label list that cannot be searched fails. */
  lemma {:induction false} StatusFromFirst(labels: seq<Json>, defs: seq<Json>, ids: seq<string>, k: nat)
    requires k <= |ids|
    requires forall j :: 0 <= j < k ==> ResolveLabel(labels, ids[j]) == Success(JNull)
    ensures k < |ids| && ResolveLabel(labels, ids[k]).Success? && ResolveLabel(labels, ids[k]).value != JNull ==>
      StatusFrom(labels, defs, ids) == ResolveLabelDisplay(ResolveLabel(labels, ids[k]).value, defs, ids[k])
    ensures k < |ids| && ResolveLabel(labels, ids[k]).Failure? ==> StatusFrom(labels, defs, ids).Failure?
    ensures k == |ids| ==> StatusFrom(labels, defs, ids) == Success(JNull)
    decreases k
  {
    if k > 0 {
      StatusFromFirst(labels, defs, ids[1..], k - 1);
    }
  }

  /** Neither status label present: the status is `None`. */
  lemma NoStatusLabels(labels: seq<Json>, defs: seq<Json>)
    requires forall i :: 0 <= i < |labels| ==> labels[i].JObj? && !HasLabelId(labels[i], StatusLabelIds[0]) && !HasLabelId(labels[i], StatusLabelIds[1])
    ensures StatusFrom(labels, defs, StatusLabelIds) == Success(JNull)
  {
    ResolveLabelFirst(labels, StatusLabelIds[0], |labels|);
    ResolveLabelFirst(labels, StatusLabelIds[1], |labels|);
    assert StatusLabelIds[1..] == [StatusLabelIds[1]];
  }

  /** The first `state` label, when it has a value, wins over any Notion
      status label, wherever that sits. */
  lemma StateWins(labels: seq<Json>, defs: seq<Json>, i: nat)
    requires i < |labels| && HasLabelId(labels[i], "state")
    requires forall j :: 0 <= j < i ==> labels[j].JObj? && !HasLabelId(labels[j], "state")
    requires GetOr(labels[i].fields, "value", JNull) != JNull
    ensures StatusFrom(labels, defs, StatusLabelIds) ==
      ResolveLabelDisplay(GetOr(labels[i].fields, "value", JNull), defs, "state")
  {
    ResolveLabelFirst(labels, "state", i);
    StatusFromFirst(labels, defs, StatusLabelIds, 0);
  }

  /** With no `state` label, the first Notion status label with a value
      gives the status. */
  lemma NotionStatusWithoutState(labels: seq<Json>, defs: seq<Json>, i: nat)
    requires forall j :: 0 <= j < |labels| ==> labels[j].JObj? && !HasLabelId(labels[j], "state")
    requires i < |labels| && HasLabelId(labels[i], StatusLabelIds[1])
    requires forall j :: 0 <= j < i ==> !HasLabelId(labels[j], StatusLabelIds[1])
    requires GetOr(labels[i].fields, "value", JNull) != JNull
    ensures StatusFrom(labels, defs, StatusLabelIds) ==
      ResolveLabelDisplay(GetOr(labels[i].fields, "value", JNull), defs, StatusLabelIds[1])
  {
    ResolveLabelFirst(labels, "state", |labels|);
    ResolveLabelFirst(labels, StatusLabelIds[1], i);
    StatusFromFirst(labels, defs, StatusLabelIds, 1);
  }

  /** The id → name table of the tags with both an `id` and a `name`; a
      later tag overrides an earlier one with an equal id. Keys are stored
      as Python hashes them, so `True` and `1` are one key. */
  function TagTable(tags: seq<Fields>): map<Json, Json>
    decreases |tags|
  {
    if |tags| == 0 then map[]
    else
      var m := TagTable(tags[..|tags| - 1]);
      var t := tags[|tags| - 1];
      if Has(t, "id") && Has(t, "name") then m[PyKey(Get(t, "id").value) := Get(t, "name").value] else m
  }

  /** Reference: the name of the last tag with both keys whose id equals
      `id`. */
  function LastName(tags: seq<Fields>, id: Json): Option<Json> {
    if |tags| == 0 then None
    else
      var later := LastName(tags[1..], id);
      if later.Some? then later
      else if Has(tags[0], "id") && Has(tags[0], "name") && PyEq(Get(tags[0], "id").value, id) then Get(tags[0], "name")
      else None
  }

  lemma {:induction false} LastNameSnoc(tags: seq<Fields>, t: Fields, id: Json)
    ensures LastName(tags + [t], id) ==
      if Has(t, "id") && Has(t, "name") && PyEq(Get(t, "id").value, id) then Get(t, "name") else LastName(tags, id)
    decreases |tags|
  {
    if |tags| > 0 {
      assert (tags + [t])[1..] == tags[1..] + [t];
      LastNameSnoc(tags[1..], t, id);
    } else {
      assert LastName([], id) == None;
      assert ([] + [t])[1..] == [];
    }
  }

  /** The table knows an id exactly when some tag with both keys has an
      equal id, and gives the last such tag's name. */
  lemma {:induction false} TagTableSpec(tags: seq<Fields>, id: Json)
    ensures PyKey(id) in TagTable(tags) <==> LastName(tags, id).Some?
    ensures PyKey(id) in TagTable(tags) ==> Some(TagTable(tags)[PyKey(id)]) == LastName(tags, id)
    decreases |tags|
  {
    if |tags| > 0 {
      var init := tags[..|tags| - 1];
      TagTableSpec(init, id);
      assert tags == init + [tags[|tags| - 1]];
      LastNameSnoc(init, tags[|tags| - 1], id);
    }
  }

  /** `[table[tid] for tid in tag_ids if tid in table]`, each id looked up
      as Python hashes it. */
  function TagNames(tagIds: seq<Json>, table: map<Json, Json>): (r: seq<Json>)
    ensures |r| <= |tagIds|
    ensures forall x :: x in r ==> exists tid :: tid in tagIds && PyKey(tid) in table && table[PyKey(tid)] == x
    ensures (forall i :: 0 <= i < |tagIds| ==> PyKey(tagIds[i]) in table) ==>
      |r| == |tagIds| && forall i :: 0 <= i < |tagIds| ==> r[i] == table[PyKey(tagIds[i])]
  {
    if |tagIds| == 0 then []
    else
      var rest := TagNames(tagIds[1..], table);
      assert forall x :: x in rest ==> exists tid :: tid in tagIds && PyKey(tid) in table && table[PyKey(tid)] == x by {
        forall x | x in rest ensures exists tid :: tid in tagIds && PyKey(tid) in table && table[PyKey(tid)] == x {
          var tid :| tid in tagIds[1..] && PyKey(tid) in table && table[PyKey(tid)] == x;
          assert tid in tagIds;
        }
      }
      if PyKey(tagIds[0]) in table then [table[PyKey(tagIds[0])]] + rest else rest
  }

  /** One id gives its name when the table knows it and nothing otherwise. */
  lemma TagNamesOne(tid: Json, table: map<Json, Json>)
    ensures TagNames([tid], table) == if PyKey(tid) in table then [table[PyKey(tid)]] else []
  {
    assert [tid][1..] == [];
  }

  /** The names of a concatenation are the concatenated names: each id is
      looked up on its own and the request order is kept. */
  lemma {:induction false} TagNamesConcat(a: seq<Json>, b: seq<Json>, table: map<Json, Json>)
    ensures TagNames(a + b, table) == TagNames(a, table) + TagNames(b, table)
    decreases |a|
  {
    if |a| > 0 {
      assert (a + b)[1..] == a[1..] + b;
      assert (a + b)[0] == a[0];
      TagNamesConcat(a[1..], b, table);
    } else {
      assert a + b == b;
    }
  }

  /** Dropping unknown ids keeps the known ones in request order. */
  lemma TagNamesDropUnknown(known: Json, unknown: Json, table: map<Json, Json>)
    requires PyKey(known) in table && PyKey(unknown) !in table
    ensures TagNames([unknown, known, unknown], table) == [table[PyKey(known)]]
  {
    assert TagNames([unknown], table) == [] by {
      assert [unknown][1..] == [];
    }
    assert TagNames([known, unknown], table) == [table[PyKey(known)]] by {
      assert [known, unknown][1..] == [unknown];
    }
    assert [unknown, known, unknown][1..] == [known, unknown];
  }

  /** Python's `True == 1`: a task tagged `true` gets the name of the tag
      whose id is `1`, and a status label of value `1` finds the definition
      entry of value `true`. */
  lemma BoolIsOneExample()
    ensures TagNames([JBool(true)], TagTable([[("id", JInt(1)), ("name", JStr("a"))]])) == [JStr("a")]
    ensures FindValue([JObj([("value", JBool(true)), ("label", JStr("Done"))])], JInt(1)) == Success(Some(JStr("Done")))
  {
    var tags: seq<Fields> := [[("id", JInt(1)), ("name", JStr("a"))]];
    assert tags[..0] == [];
    assert TagTable(tags) == map[JInt(1) := JStr("a")];
    TagNamesOne(JBool(true), TagTable(tags));
  }

  /** The five fields a task gains. */
  datatype TaskSource = TaskSource(source: Json, url: Json, id: Json, status: Json, tagNames: seq<Json>)

  /** `links.original.href`, or `None` when there is no (non-empty)
      `original` link. */
  function SourceUrl(task: Fields): (r: Result<Json, Raised>)
    ensures !Has(task, "links") ==> r == Success(JNull)
    ensures Has(task, "links") && !GetOr(task, "links", JNull).JObj? ==> r.Failure?
    ensures GetOr(task, "links", JObj([])).JObj? ==>
      var links := GetOr(task, "links", JObj([])).fields;
      var original := GetOr(links, "original", JObj([]));
      && (!Truthy(original) ==> r == Success(JNull))
      && (Truthy(original) && original.JObj? ==> r == Success(GetOr(original.fields, "href", JNull)))
      && (Truthy(original) && !original.JObj? ==> r.Failure?)
  {
    var original :- DictGet(GetOr(task, "links", JObj([])), "original", JObj([]));
    if Truthy(original) then DictGet(original, "href", JNull) else Success(JNull)
  }

  /** A task linked to its original gets that link's `href`; an empty or
      missing `original` gives no link. */
  lemma SourceUrlOfLink(href: Json, rest: Fields)
    requires !Has(rest, "href")
    ensures SourceUrl([("links", JObj([("original", JObj([("href", href)] + rest))]))]) == Success(href)
    ensures SourceUrl([("links", JObj([("original", JObj([]))]))]) == Success(JNull)
    ensures SourceUrl([("links", JObj([]))]) == Success(JNull)
  {
  }

  /** The source fields of one task: its integration (default "morgen"),
      the original link, the identifier label, the status, and the names of
      its known tags. */
  function TaskSourceOf(task: Fields, defs: seq<Json>, table: map<Json, Json>): (r: Result<TaskSource, Raised>)
    ensures r.Success? ==> r.value.source == GetOr(task, "integrationId", JStr(Models.NativeSource))
  {
    var url :- SourceUrl(task);
    var labels :- Items(GetOr(task, "labels", JArr([])));
    var id :- ResolveLabel(labels, "identifier");
    var status :- StatusFrom(labels, defs, StatusLabelIds);
    var tagIds :- Items(GetOr(task, "tags", JArr([])));
    Success(TaskSource(GetOr(task, "integrationId", JStr(Models.NativeSource)), url, id, status, TagNames(tagIds, table)))
  }

  /** The task with the five source fields set; every other key keeps its
      value. */
  function WithSource(task: Fields, s: TaskSource): (r: Fields)
    ensures Get(r, "source") == Some(s.source)
    ensures Get(r, "source_url") == Some(s.url)
    ensures Get(r, "source_id") == Some(s.id)
    ensures Get(r, "source_status") == Some(s.status)
    ensures Get(r, "tag_names") == Some(JArr(s.tagNames))
    ensures forall k :: !SourceKey(k) ==> Get(r, k) == Get(task, k)
  {
    var t1 := Put(task, "source", s.source);
    var t2 := Put(t1, "source_url", s.url);
    var t3 := Put(t2, "source_id", s.id);
    var t4 := Put(t3, "source_status", s.status);
    var t5 := Put(t4, "tag_names", JArr(s.tagNames));
    PutsFrame(task, s);
    t5
  }

  /** Each of the five assignments survives the later ones, and keys
      outside them keep their values. */
  lemma PutsFrame(task: Fields, s: TaskSource)
    ensures var t5 := Put(Put(Put(Put(Put(task, "source", s.source), "source_url", s.url), "source_id", s.id),
                              "source_status", s.status), "tag_names", JArr(s.tagNames));
      && Get(t5, "source") == Some(s.source)
      && Get(t5, "source_url") == Some(s.url)
      && Get(t5, "source_id") == Some(s.id)
      && Get(t5, "source_status") == Some(s.status)
      && forall k :: !SourceKey(k) ==> Get(t5, k) == Get(task, k)
  {
    var t1 := Put(task, "source", s.source);
    var t2 := Put(t1, "source_url", s.url);
    var t3 := Put(t2, "source_id", s.id);
    var t4 := Put(t3, "source_status", s.status);
    var t5 := Put(t4, "tag_names", JArr(s.tagNames));
    assert Get(t4, "source_status") == Some(s.status);
    assert Get(t5, "source_status") == Some(s.status) by { assert "tag_names" != "source_status"; }
    assert Get(t3, "source_id") == Some(s.id);
    assert Get(t5, "source_id") == Some(s.id) by {
      assert "source_status" != "source_id";
      assert "tag_names" != "source_id";
    }
    assert Get(t2, "source_url") == Some(s.url);
    assert Get(t5, "source_url") == Some(s.url) by {
      assert "source_id" != "source_url";
      assert "source_status" != "source_url";
      assert "tag_names" != "source_url";
    }
    assert Get(t1, "source") == Some(s.source);
    assert Get(t5, "source") == Some(s.source) by {
      assert "source_url" != "source";
      assert "source_id" != "source";
      assert "source_status" != "source";
      assert "tag_names" != "source";
    }
    forall k | !SourceKey(k) ensures Get(t5, k) == Get(task, k) {
      calc {
        Get(t5, k);
        Get(t4, k);
        Get(t3, k);
        Get(t2, k);
        Get(t1, k);
        Get(task, k);
      }
    }
  }

  /** The keys `enrich_tasks` sets. */
  predicate SourceKey(k: string) {
    k == "source" || k == "source_url" || k == "source_id" || k == "source_status" || k == "tag_names"
  }

  /** One enriched task: a copy with the source fields set. */
  function EnrichTask(task: Fields, defs: seq<Json>, table: map<Json, Json>): Result<Fields, Raised> {
    var s :- TaskSourceOf(task, defs, table);
    Success(WithSource(task, s))
  }

  /** `enrich_tasks(tasks, label_defs=..., tags=...)`; a `None` list is the
      empty list. */
  function EnrichTasks(tasks: seq<Fields>, labelDefs: seq<Json>, tags: seq<Fields>): (r: Result<seq<Fields>, Raised>)
    ensures r.Success? ==> |r.value| == |tasks|
    ensures r.Success? ==> forall i :: 0 <= i < |tasks| ==>
      && TaskSourceOf(tasks[i], labelDefs, TagTable(tags)).Success?
      && r.value[i] == WithSource(tasks[i], TaskSourceOf(tasks[i], labelDefs, TagTable(tags)).value)
    ensures r.Failure? <==> exists i :: 0 <= i < |tasks| && TaskSourceOf(tasks[i], labelDefs, TagTable(tags)).Failure?
  {
    var table := TagTable(tags);
    Seqs.MapAll(tasks, t => EnrichTask(t, labelDefs, table))
  }

  /** A task without labels, links or tags (a plain native task) gets source
      "morgen" and nothing else. */
  lemma NativeTaskSource(defs: seq<Json>, table: map<Json, Json>)
    ensures TaskSourceOf([("id", JStr("t1"))], defs, table) == Success(TaskSource(JStr(Models.NativeSource), JNull, JNull, JNull, []))
  {
    var task := [("id", JStr("t1"))];
    GetAbsent(task, "links");
    GetAbsent(task, "labels");
    GetAbsent(task, "tags");
    GetAbsent(task, "integrationId");
    GetAbsent([], "original");
    assert SourceUrl(task) == Success(JNull);
    assert Items(JArr([])) == Success([]);
    assert ResolveLabel([], "identifier") == Success(JNull);
    assert StatusFrom([], defs, StatusLabelIds) == Success(JNull) by {
      assert ResolveLabel([], StatusLabelIds[0]) == Success(JNull);
      assert ResolveLabel([], StatusLabelIds[1]) == Success(JNull);
      assert StatusLabelIds[1..][1..] == [];
    }
    assert TagNames([], table) == [];
  }

  // ----- Field selection -----

  /** `_pick(d, fields)`: the entries whose key is listed, in the dict's
      order. */
  function Pick(d: Fields, fields: seq<string>): (r: Fields)
    ensures forall p :: p in r <==> p in d && p.0 in fields
  {
    Seqs.Filter(d, Listed(fields))
  }

  /** The condition of `_pick`'s comprehension. */
  function Listed(fields: seq<string>): ((string, Json)) -> bool {
    (p: (string, Json)) => p.0 in fields
  }

  /** A listed key reads as before, an unlisted key is gone. */
  lemma {:induction false} PickGet(d: Fields, fields: seq<string>, k: string)
    ensures Get(Pick(d, fields), k) == if k in fields then Get(d, k) else None
    decreases |d|
  {
    if |d| > 0 {
      var rest := Pick(d[1..], fields);
      assert Pick(d, fields) == (if d[0].0 in fields then [d[0]] else []) + rest;
      PickGet(d[1..], fields, k);
      if d[0].0 in fields {
        assert ([d[0]] + rest)[0] == d[0];
        assert ([d[0]] + rest)[1..] == rest;
      } else {
        assert Pick(d, fields) == rest;
      }
    }
  }

  lemma PickIdempotent(d: Fields, fields: seq<string>)
    ensures Pick(Pick(d, fields), fields) == Pick(d, fields)
  {
    Seqs.FilterIdempotent(d, Listed(fields));
  }

  /** `_pick` on a value that must be a dict. */
  function PickJson(j: Json, fields: seq<string>): (r: Result<Json, Raised>)
    ensures r.Success? <==> j.JObj?
    ensures j.JObj? ==> r.value == JObj(Pick(j.fields, fields))
  {
    if j.JObj? then Success(JObj(Pick(j.fields, fields))) else Failure(Malformed("no items()"))
  }

  /** Every item is a dict and `picked` holds, item by item, its picked
      form. */
  predicate PickedAll(items: seq<Json>, picked: seq<Json>, fields: seq<string>) {
    && |picked| == |items|
    && forall i :: 0 <= i < |items| ==> items[i].JObj? && picked[i] == JObj(Pick(items[i].fields, fields))
  }

  /** All the items are dicts, which `_pick` needs. */
  predicate AllDicts(items: seq<Json>) {
    forall i :: 0 <= i < |items| ==> items[i].JObj?
  }

  /** `select_fields(data, fields)`: a paged result keeps its other keys
      and has each of its `results` picked, a bare dict is picked, a list
      has each item picked, anything else passes through. Picking fails on
      an item that is not a dict. */
  function SelectFields(data: Json, fields: seq<string>): (r: Result<Json, Raised>)
    ensures !data.JObj? && !data.JArr? ==> r == Success(data)
    ensures data.JObj? && !Has(data.fields, "results") ==> r == Success(JObj(Pick(data.fields, fields)))
    ensures data.JObj? && Has(data.fields, "results") && r.Success? ==>
      r.value.JObj? && forall k :: k != "results" ==> Get(r.value.fields, k) == Get(data.fields, k)
    ensures data.JObj? && Has(data.fields, "results") ==>
      var results := Iterate(Get(data.fields, "results").value);
      && (r.Success? <==> results.Some? && AllDicts(results.value))
      && (r.Success? ==> exists picked :: Get(r.value.fields, "results") == Some(JArr(picked)) && PickedAll(results.value, picked, fields))
    ensures data.JArr? ==> (r.Success? <==> AllDicts(data.items))
    ensures data.JArr? && r.Success? ==> r.value.JArr? && PickedAll(data.items, r.value.items, fields)
  {
    match data
    case JObj(f) =>
      if Has(f, "results") then
        var items :- Items(Get(f, "results").value);
        var picked :- Seqs.MapAll(items, j => PickJson(j, fields));
        Success(JObj(Put(f, "results", JArr(picked))))
      else Success(JObj(Pick(f, fields)))
    case JArr(items) =>
      var picked :- Seqs.MapAll(items, j => PickJson(j, fields));
      Success(JArr(picked))
    case _ => Success(data)
  }

  /** Picking every item of a list twice is picking once. */
  lemma PickAllIdempotent(items: seq<Json>, fields: seq<string>)
    requires Seqs.MapAll(items, j => PickJson(j, fields)).Success?
    ensures var picked := Seqs.MapAll(items, j => PickJson(j, fields)).value;
      Seqs.MapAll(picked, j => PickJson(j, fields)) == Success(picked)
  {
    var picked := Seqs.MapAll(items, j => PickJson(j, fields)).value;
    forall i | 0 <= i < |picked| ensures PickJson(picked[i], fields) == Success(picked[i]) {
      assert PickJson(items[i], fields) == Success(picked[i]);
      PickIdempotent(items[i].fields, fields);
    }
    var again := Seqs.MapAll(picked, j => PickJson(j, fields));
    assert again.Success?;
    assert again.value == picked;
  }

  /** Selecting the same fields again changes nothing. */
  lemma SelectFieldsIdempotent(data: Json, fields: seq<string>)
    requires SelectFields(data, fields).Success?
    ensures SelectFields(SelectFields(data, fields).value, fields) == SelectFields(data, fields)
  {
    match data
    case JObj(f) =>
      if Has(f, "results") {
        var items := Items(Get(f, "results").value).value;
        PickAllIdempotent(items, fields);
        var picked := Seqs.MapAll(items, j => PickJson(j, fields)).value;
        PutPut(f, "results", JArr(picked));
      } else {
        PickGet(f, fields, "results");
        PickIdempotent(f, fields);
      }
    case JArr(items) =>
      PickAllIdempotent(items, fields);
    case _ =>
  }

  /** Writing the same value twice is writing it once. */
  lemma {:induction false} PutPut(f: Fields, k: string, v: Json)
    ensures Put(Put(f, k, v), k, v) == Put(f, k, v)
    decreases |f|
  {
    if |f| > 0 && f[0].0 != k {
      PutPut(f[1..], k, v);
    }
  }

  // ----- Id shortening -----

  /** `k == "id" or k.endswith("Id")`. */
  predicate IsIdKey(k: string) {
    k == "id" || Text.EndsWith(k, "Id")
  }

  /** An id value that `truncate_ids` replaces. */
  predicate TooLong(k: string, v: Json, length: int) {
    IsIdKey(k) && v.JStr? && |v.s| > length
  }

  /** A dict entry `truncate_ids` keeps as it is. */
  predicate Scalar(k: string, v: Json, length: int) {
    !TooLong(k, v, length) && !v.JArr? && !v.JObj?
  }

  /** `truncate_ids(data, length)`, with `digest` the SHA-256 hex digest. */
  function TruncateIds(data: Json, length: int, digest: string -> string): (r: Json)
    ensures !data.JArr? && !data.JObj? ==> r == data
    ensures data.JArr? ==> r.JArr? && |r.items| == |data.items|
    ensures data.JObj? ==>
      && r.JObj? && |r.fields| == |data.fields|
      && (forall i :: 0 <= i < |data.fields| ==> r.fields[i].0 == data.fields[i].0)
      && (forall i :: 0 <= i < |data.fields| && TooLong(data.fields[i].0, data.fields[i].1, length) ==>
            r.fields[i].1 == JStr(Text.Prefix(digest(data.fields[i].1.s), length)))
      && (forall i :: 0 <= i < |data.fields| && Scalar(data.fields[i].0, data.fields[i].1, length) ==>
            r.fields[i].1 == data.fields[i].1)
    decreases data, 1
  {
    match data
    case JArr(items) =>
      JArr(seq(|items|, i requires 0 <= i < |items| => TruncateIds(items[i], length, digest)))
    case JObj(fields) =>
      JObj(seq(|fields|, i requires 0 <= i < |fields| =>
        (fields[i].0, TruncateField(fields[i].0, fields[i].1, length, digest))))
    case _ => data
  }

  /** One entry of a dict under `truncate_ids`. */
  function TruncateField(k: string, v: Json, length: int, digest: string -> string): (r: Json)
    decreases v, 2
  {
    if TooLong(k, v, length) then JStr(Text.Prefix(digest(v.s), length))
    else if v.JArr? || v.JObj? then TruncateIds(v, length, digest)
    else v
  }

  /** Shortening twice is shortening once: a replaced id is no longer than
      `length`, so the second pass leaves it alone. */
  lemma {:induction false} TruncateIdsIdempotent(data: Json, length: int, digest: string -> string)
    requires length >= 0
    ensures TruncateIds(TruncateIds(data, length, digest), length, digest) == TruncateIds(data, length, digest)
    decreases data
  {
    match data
    case JArr(items) =>
      var once := TruncateIds(data, length, digest);
      forall i | 0 <= i < |items|
        ensures TruncateIds(once.items[i], length, digest) == once.items[i]
      {
        TruncateIdsIdempotent(items[i], length, digest);
      }
    case JObj(fields) =>
      var once := TruncateIds(data, length, digest);
      forall i | 0 <= i < |fields|
        ensures TruncateField(once.fields[i].0, once.fields[i].1, length, digest) == once.fields[i].1
      {
        var (k, v) := fields[i];
        assert once.fields[i] == (k, TruncateField(k, v, length, digest));
        if TooLong(k, v, length) {
          assert |once.fields[i].1.s| <= length;
        } else if v.JArr? || v.JObj? {
          TruncateIdsIdempotent(v, length, digest);
        }
      }
      assert TruncateIds(once, length, digest).fields == once.fields;
    case _ =>
  }

  /** No id anywhere in `j`, at any depth, is longer than `length`. */
  predicate NoLongIds(j: Json, length: int)
    decreases j
  {
    match j
    case JArr(items) => forall i :: 0 <= i < |items| ==> NoLongIds(items[i], length)
    case JObj(fields) => forall i :: 0 <= i < |fields| ==>
      !TooLong(fields[i].0, fields[i].1, length) && NoLongIds(fields[i].1, length)
    case _ => true
  }

  /** The shortening reaches every nested list and dict: afterwards no id at
      any depth is longer than `length`. */
  lemma {:induction false} TruncatedIdsAreShort(data: Json, length: int, digest: string -> string)
    requires length >= 0
    ensures NoLongIds(TruncateIds(data, length, digest), length)
    decreases data
  {
    match data
    case JArr(items) =>
      var once := TruncateIds(data, length, digest);
      forall i | 0 <= i < |items| ensures NoLongIds(once.items[i], length) {
        TruncatedIdsAreShort(items[i], length, digest);
      }
    case JObj(fields) =>
      var once := TruncateIds(data, length, digest);
      forall i | 0 <= i < |fields|
        ensures !TooLong(once.fields[i].0, once.fields[i].1, length) && NoLongIds(once.fields[i].1, length)
      {
        var (k, v) := fields[i];
        assert once.fields[i] == (k, TruncateField(k, v, length, digest));
        if TooLong(k, v, length) {
          assert |once.fields[i].1.s| <= length;
        } else if v.JArr? || v.JObj? {
          TruncatedIdsAreShort(v, length, digest);
        }
      }
    case _ =>
  }
}

=== FILE: seqs.dfy ===
/** List comprehensions with a condition (`[x for x in xs if p(x)]`). */
module Seqs {
  import opened Wrappers

  function Filter<T(!new)>(xs: seq<T>, p: T -> bool): (r: seq<T>)
    ensures |r| <= |xs|
    ensures forall x :: x in r <==> x in xs && p(x)
    ensures forall i :: 0 <= i < |r| ==> p(r[i])
  {
    if |xs| == 0 then []
    else (if p(xs[0]) then [xs[0]] else []) + Filter(xs[1..], p)
  }

  /** Filtering distributes over concatenation, so the survivors keep their
      relative order. */
  lemma {:induction false} FilterConcat<T(!new)>(a: seq<T>, b: seq<T>, p: T -> bool)
    ensures Filter(a + b, p) == Filter(a, p) + Filter(b, p)
    decreases |a|
  {
    if |a| > 0 {
      assert (a + b)[1..] == a[1..] + b;
      FilterConcat(a[1..], b, p);
    } else {
      assert a + b == b;
    }
  }

  /** One step of the comprehension: the head is kept exactly when it
      passes. */
  lemma FilterCons<T(!new)>(x: T, xs: seq<T>, p: T -> bool)
    ensures Filter([x] + xs, p) == (if p(x) then [x] else []) + Filter(xs, p)
  {
    assert ([x] + xs)[1..] == xs;
  }

  /** Extending the list extends the survivors by the new element exactly
      when it passes. */
  lemma FilterSnoc<T(!new)>(xs: seq<T>, x: T, p: T -> bool)
    ensures Filter(xs + [x], p) == Filter(xs, p) + (if p(x) then [x] else [])
  {
    FilterConcat(xs, [x], p);
    FilterCons(x, [], p);
    assert [x] + [] == [x];
  }

  /** Every element that passes is kept and every element kept passes: with
      an always-true condition nothing is lost. */
  lemma {:induction false} FilterAll<T(!new)>(xs: seq<T>, p: T -> bool)
    requires forall i :: 0 <= i < |xs| ==> p(xs[i])
    ensures Filter(xs, p) == xs
    decreases |xs|
  {
    if |xs| > 0 {
      FilterAll(xs[1..], p);
      assert Filter(xs, p) == [xs[0]] + Filter(xs[1..], p);
      assert xs == [xs[0]] + xs[1..];
    }
  }

  /** `[f(x) for x in xs]` where `f` may raise: the first failure wins. */
  function MapAll<A, B, E>(xs: seq<A>, f: A -> Result<B, E>): (r: Result<seq<B>, E>)
    ensures r.Success? ==> |r.value| == |xs|
    ensures r.Success? ==> forall i :: 0 <= i < |xs| ==> f(xs[i]) == Success(r.value[i])
    ensures r.Failure? <==> exists i :: 0 <= i < |xs| && f(xs[i]).Failure?
    ensures r.Failure? ==>
      exists i :: 0 <= i < |xs| && f(xs[i]) == Failure(r.error) && forall j :: 0 <= j < i ==> f(xs[j]).Success?
  {
    if |xs| == 0 then Success([])
    else
      match f(xs[0])
      case Failure(e) => Failure(e)
      case Success(y) =>
        match MapAll(xs[1..], f)
        case Failure(e) =>
          assert exists i :: 0 <= i < |xs| && f(xs[i]) == Failure(e) && forall j :: 0 <= j < i ==> f(xs[j]).Success? by {
            var i :| 0 <= i < |xs[1..]| && f(xs[1..][i]) == Failure(e) && forall j :: 0 <= j < i ==> f(xs[1..][j]).Success?;
            assert f(xs[i + 1]) == Failure(e);
            forall j | 0 <= j < i + 1 ensures f(xs[j]).Success? {
              if j > 0 { assert xs[j] == xs[1..][j - 1]; }
            }
          }
          Failure(e)
        case Success(ys) =>
          assert forall i :: 1 <= i < |xs| ==> f(xs[i]) == Success(ys[i - 1]) by {
            forall i | 1 <= i < |xs| ensures f(xs[i]) == Success(ys[i - 1]) {
              assert xs[i] == xs[1..][i - 1];
            }
          }
          Success([y] + ys)
  }

  /** Filtering twice with the same condition is filtering once. */
  lemma {:induction false} FilterIdempotent<T(!new)>(xs: seq<T>, p: T -> bool)
    ensures Filter(Filter(xs, p), p) == Filter(xs, p)
  {
    FilterAll(Filter(xs, p), p);
  }
}

=== FILE: text.dfy ===
/** String and sequence helpers with Python's semantics: slicing, `startswith`,
    `in` on strings, `split(c, 1)`, `index(c, start)`, `str.join`, `lower()`,
    code-point string ordering and decimal rendering of integers. */
module Text {
  import opened Wrappers

  /** Python `s.startswith(p)`. */
  predicate StartsWith(s: string, p: string) {
    p <= s
  }

  /** Python `s.endswith(suffix)`. */
  predicate EndsWith(s: string, suffix: string) {
    |suffix| <= |s| && s[|s| - |suffix|..] == suffix
  }

  /** Python `sub in s` for strings (substring containment). */
  predicate Contains(s: string, sub: string)
    decreases |s|
  {
    StartsWith(s, sub) || (|s| > 0 && Contains(s[1..], sub))
  }

  /** `sub` occurs in `s` starting at offset `i`. */
  predicate OccursAt(s: string, sub: string, i: int) {
    0 <= i <= |s| - |sub| && s[i..i + |sub|] == sub
  }

  /** `Contains` holds exactly when `sub` occurs at some offset of `s`. */
  lemma {:induction false} ContainsAt(s: string, sub: string)
    ensures Contains(s, sub) <==> exists i :: OccursAt(s, sub, i)
    decreases |s|
  {
    if |s| > 0 {
      ContainsAt(s[1..], sub);
      if Contains(s[1..], sub) {
        var i :| OccursAt(s[1..], sub, i);
        assert OccursAt(s, sub, i + 1);
      }
      if sub <= s {
        assert OccursAt(s, sub, 0);
      }
      if exists i :: OccursAt(s, sub, i) {
        var i :| OccursAt(s, sub, i);
        if i > 0 {
          assert OccursAt(s[1..], sub, i - 1);
        } else {
          assert sub <= s;
        }
      }
    } else {
      if exists i :: OccursAt(s, sub, i) {
        var i :| OccursAt(s, sub, i);
        assert sub == [];
      }
      if Contains(s, sub) {
        assert OccursAt(s, sub, 0);
      }
    }
  }

  /** Python `s[:n]` (a negative `n` counts from the end). */
  function Prefix<T>(s: seq<T>, n: int): (r: seq<T>)
    ensures r <= s
    ensures n >= 0 ==> |r| == if n < |s| then n else |s|
    ensures n < 0 ==> |r| == if |s| + n > 0 then |s| + n else 0
  {
    if n >= 0 then
      (if n < |s| then s[..n] else s)
    else
      (if |s| + n > 0 then s[..|s| + n] else [])
  }

  /** Python `s[n:]` for a non-negative `n`. */
  function Suffix<T>(s: seq<T>, n: nat): (r: seq<T>)
    ensures |r| == if n < |s| then |s| - n else 0
    ensures n < |s| ==> r == s[n..]
  {
    if n < |s| then s[n..] else []
  }

  /** Python `s.index(c, start)` / `c in s[start:]`: the first position at or
      after `start` holding `c`, if any. */
  function IndexFrom(s: string, c: char, start: nat): (r: Option<nat>)
    ensures r.Some? ==> start <= r.value < |s| && s[r.value] == c
    ensures r.Some? ==> forall j :: start <= j < r.value ==> s[j] != c
    ensures r.None? ==> forall j :: start <= j < |s| ==> s[j] != c
    decreases |s| - start
  {
    if start >= |s| then None
    else if s[start] == c then Some(start)
    else IndexFrom(s, c, start + 1)
  }

  /** Python `key.split(c, 1)`: the part before the first `c`, and the part
      after it when `c` occurs. */
  function SplitFirst(s: string, c: char): (r: (string, Option<string>))
    ensures r.1.None? ==> r.0 == s && c !in s
    ensures r.1.Some? ==> s == r.0 + [c] + r.1.value && c !in r.0
  {
    match IndexFrom(s, c, 0)
    case None => (s, None)
    case Some(i) =>
      assert s == s[..i] + [c] + s[i + 1..];
      (s[..i], Some(s[i + 1..]))
  }

  /** Python `key.replace(c, rep)` for a one-character pattern. */
  function ReplaceChar(s: string, c: char, rep: string): (r: string)
    ensures c !in rep ==> c !in r
    ensures forall x :: x in r ==> x in s || x in rep
    ensures c !in s ==> r == s
  {
    if |s| == 0 then ""
    else (if s[0] == c then rep else [s[0]]) + ReplaceChar(s[1..], c, rep)
  }

  /** Python `sep.join(xs)`. */
  function Join(xs: seq<string>, sep: string): (r: string)
    ensures |xs| == 0 ==> r == ""
    ensures |xs| == 1 ==> r == xs[0]
  {
    if |xs| == 0 then ""
    else if |xs| == 1 then xs[0]
    else xs[0] + sep + Join(xs[1..], sep)
  }

  /** Python `lower()` restricted to ASCII letters. */
  function Lower(s: string): (r: string)
    ensures |r| == |s|
    ensures forall i :: 0 <= i < |s| ==> ('A' <= s[i] <= 'Z' ==> r[i] == (s[i] as int + 32) as char)
    ensures forall i :: 0 <= i < |s| ==> (!('A' <= s[i] <= 'Z') ==> r[i] == s[i])
  {
    if |s| == 0 then ""
    else [if 'A' <= s[0] <= 'Z' then (s[0] as int + 32) as char else s[0]] + Lower(s[1..])
  }

  lemma {:induction false} LowerIdempotent(s: string)
    ensures Lower(Lower(s)) == Lower(s)
  {
    var l := Lower(s);
    var ll := Lower(l);
    forall i | 0 <= i < |s|
      ensures ll[i] == l[i]
    {
    }
  }

  /** Python's `<` on strings: code-point lexicographic order. */
  predicate LexLess(a: string, b: string)
    decreases |a|
  {
    if |a| == 0 then |b| > 0
    else if |b| == 0 then false
    else if a[0] == b[0] then LexLess(a[1..], b[1..])
    else a[0] < b[0]
  }

  /** Python's `<=` on strings. */
  predicate LexLe(a: string, b: string) {
    a == b || LexLess(a, b)
  }

  lemma {:induction false} LexLessIrreflexive(a: string)
    ensures !LexLess(a, a)
    decreases |a|
  {
    if |a| > 0 {
      LexLessIrreflexive(a[1..]);
    }
  }

  lemma {:induction false} LexLessAsymmetric(a: string, b: string)
    ensures LexLess(a, b) ==> !LexLess(b, a)
    decreases |a|
  {
    if |a| > 0 && |b| > 0 && a[0] == b[0] {
      LexLessAsymmetric(a[1..], b[1..]);
    }
  }

  lemma {:induction false} LexLessTransitive(a: string, b: string, c: string)
    requires LexLess(a, b) && LexLess(b, c)
    ensures LexLess(a, c)
    decreases |a|
  {
    if |a| > 0 && a[0] == b[0] && b[0] == c[0] {
      LexLessTransitive(a[1..], b[1..], c[1..]);
    }
  }

  lemma {:induction false} LexTotal(a: string, b: string)
    ensures a == b || LexLess(a, b) || LexLess(b, a)
    decreases |a|
  {
    if |a| > 0 && |b| > 0 && a[0] == b[0] {
      LexTotal(a[1..], b[1..]);
      if a[1..] == b[1..] {
        assert a == [a[0]] + a[1..] && b == [b[0]] + b[1..];
      }
    }
  }

  lemma LexLeTransitive(a: string, b: string, c: string)
    requires LexLe(a, b) && LexLe(b, c)
    ensures LexLe(a, c)
  {
    if a != b && b != c {
      LexLessTransitive(a, b, c);
    }
  }

  lemma LexLeAntisymmetric(a: string, b: string)
    requires LexLe(a, b) && LexLe(b, a)
    ensures a == b
  {
    LexLessAsymmetric(a, b);
  }

  lemma LexLeTotal(a: string, b: string)
    ensures LexLe(a, b) || LexLe(b, a)
  {
    LexTotal(a, b);
  }

  // ----- Sorting strings (Python `sorted` on a list of str) -----

  predicate SortedStrings(xs: seq<string>) {
    forall i, j :: 0 <= i < j < |xs| ==> LexLe(xs[i], xs[j])
  }

  /** Inserting into a sorted list keeps it sorted. */
  function Insert(x: string, xs: seq<string>): (r: seq<string>)
    requires SortedStrings(xs)
    ensures SortedStrings(r)
    ensures multiset(r) == multiset(xs) + multiset{x}
    decreases |xs|
  {
    if |xs| == 0 then [x]
    else if LexLe(x, xs[0]) then
      InsertFront(x, xs);
      [x] + xs
    else
      var rest := Insert(x, xs[1..]);
      InsertBehind(x, xs, rest);
      [xs[0]] + rest
  }

  /** An element no greater than the head goes in front. */
  lemma InsertFront(x: string, xs: seq<string>)
    requires SortedStrings(xs) && |xs| > 0 && LexLe(x, xs[0])
    ensures SortedStrings([x] + xs)
  {
    forall j | 0 < j < |xs| ensures LexLe(x, xs[j]) {
      LexLeTransitive(x, xs[0], xs[j]);
    }
  }

  /** An element above the head goes into the tail, behind the head. */
  lemma InsertBehind(x: string, xs: seq<string>, rest: seq<string>)
    requires SortedStrings(xs) && |xs| > 0 && !LexLe(x, xs[0])
    requires SortedStrings(rest) && multiset(rest) == multiset(xs[1..]) + multiset{x}
    ensures SortedStrings([xs[0]] + rest)
    ensures multiset([xs[0]] + rest) == multiset(xs) + multiset{x}
  {
    LexLeTotal(x, xs[0]);
    assert xs == [xs[0]] + xs[1..];
    forall j | 0 <= j < |rest| ensures LexLe(xs[0], rest[j]) {
      var y := rest[j];
      assert y in multiset(rest);
      if y != x {
        assert y in multiset(xs[1..]);
        var k :| 0 <= k < |xs[1..]| && xs[1..][k] == y;
        assert xs[k + 1] == y;
      }
    }
  }

  /** Python `sorted(xs)`: an insertion sort; the result is ordered and a
      permutation of the input. */
  function Sort(xs: seq<string>): (r: seq<string>)
    ensures SortedStrings(r)
    ensures multiset(r) == multiset(xs)
    ensures |r| == |xs|
  {
    if |xs| == 0 then []
    else
      assert xs == [xs[0]] + xs[1..];
      Insert(xs[0], Sort(xs[1..]))
  }

  /** The head of an ordered list is below every element. */
  lemma HeadIsLeast(xs: seq<string>, y: string)
    requires SortedStrings(xs) && y in xs
    ensures LexLe(xs[0], y)
  {
    var i :| 0 <= i < |xs| && xs[i] == y;
    if i > 0 {
      assert LexLe(xs[0], xs[i]);
    }
  }

  /** Two ordered lists with the same elements are equal. */
  lemma {:induction false} SortedUnique(a: seq<string>, b: seq<string>)
    requires SortedStrings(a) && SortedStrings(b)
    requires multiset(a) == multiset(b)
    ensures a == b
    decreases |a|
  {
    assert |a| == |multiset(a)| == |multiset(b)| == |b|;
    if |a| > 0 {
      SameFirst(a, b);
      assert a == [a[0]] + a[1..];
      assert b == [b[0]] + b[1..];
      assert multiset(a[1..]) == multiset(a) - multiset{a[0]};
      assert multiset(b[1..]) == multiset(b) - multiset{b[0]};
      SortedUnique(a[1..], b[1..]);
    }
  }

  /** Such lists begin with the same string. */
  lemma SameFirst(a: seq<string>, b: seq<string>)
    requires SortedStrings(a) && SortedStrings(b) && |a| > 0 && |b| > 0
    requires multiset(a) == multiset(b)
    ensures a[0] == b[0]
  {
    assert a[0] in multiset(b);
    assert b[0] in multiset(a);
    HeadIsLeast(b, a[0]);
    HeadIsLeast(a, b[0]);
    LexLeAntisymmetric(a[0], b[0]);
  }

  /** `sorted` depends only on the elements, not on their order. */
  lemma SortPermutationInvariant(a: seq<string>, b: seq<string>)
    requires multiset(a) == multiset(b)
    ensures Sort(a) == Sort(b)
  {
    SortedUnique(Sort(a), Sort(b));
  }

  function DigitChar(d: nat): (c: char)
    requires d < 10
    ensures '0' <= c <= '9'
  {
    ('0' as int + d) as char
  }

  /** Python `str(n)` for a natural number. */
  function NatToString(n: nat): (r: string)
    ensures |r| > 0
    ensures forall i :: 0 <= i < |r| ==> '0' <= r[i] <= '9'
    ensures n > 0 ==> r[0] != '0'
    decreases n
  {
    if n < 10 then [DigitChar(n)]
    else NatToString(n / 10) + [DigitChar(n % 10)]
  }

  /** Python `str(i)` for any integer. */
  function IntToString(i: int): (r: string)
    ensures i >= 0 ==> r == NatToString(i)
    ensures i < 0 ==> r == "-" + NatToString(-i)
  {
    if i >= 0 then NatToString(i) else "-" + NatToString(-i)
  }

  predicate IsDigits(s: string) {
    forall i :: 0 <= i < |s| ==> '0' <= s[i] <= '9'
  }

  /** The value of a string of decimal digits (Python `int(s)`); callers
      check `IsDigits` first, and other strings give a meaningless value. */
  function ParseNat(s: string): int
  {
    if |s| == 0 then 0
    else 10 * ParseNat(s[..|s| - 1]) + (s[|s| - 1] as int - '0' as int)
  }

  /** Reading back a rendered number gives the number. */
  lemma {:induction false} ParseNatToString(n: nat)
    ensures IsDigits(NatToString(n))
    ensures ParseNat(NatToString(n)) == n
    decreases n
  {
    if n >= 10 {
      ParseNatToString(n / 10);
      var s := NatToString(n);
      assert s[..|s| - 1] == NatToString(n / 10);
    }
  }
}

=== FILE: time_utils.dfy ===
/** Human-readable durations (`format_duration_human`). */
module TimeUtils {
  import opened Wrappers
  import Text

  /** `format_duration_human(minutes)`: plain minutes below an hour (any
      negative count included), whole hours, or hours and minutes. */
  function FormatDurationHuman(minutes: int): (r: string)
    ensures |r| >= 2
    ensures minutes < 60 ==> r == Text.IntToString(minutes) + "m"
    ensures minutes >= 60 && minutes % 60 == 0 ==> r == Text.NatToString(minutes / 60) + "h"
    ensures minutes >= 60 && minutes % 60 != 0 ==>
      0 < minutes % 60 < 60 && r == Text.NatToString(minutes / 60) + "h" + Text.NatToString(minutes % 60) + "m"
  {
    if minutes < 60 then Text.IntToString(minutes) + "m"
    else
      var hours := minutes / 60;
      var remaining := minutes % 60;
      if remaining == 0 then Text.NatToString(hours) + "h"
      else Text.NatToString(hours) + "h" + Text.NatToString(remaining) + "m"
  }

  /** The three display shapes, stated from the hours and minutes a count
      is made of rather than from the division that splits it. */
  lemma FormatShapes(hours: nat, rest: nat)
    requires rest < 60
    ensures hours == 0 ==> FormatDurationHuman(rest) == Text.NatToString(rest) + "m"
    ensures hours > 0 && rest == 0 ==> FormatDurationHuman(60 * hours) == Text.NatToString(hours) + "h"
    ensures hours > 0 && rest > 0 ==>
      FormatDurationHuman(60 * hours + rest) == Text.NatToString(hours) + "h" + Text.NatToString(rest) + "m"
  {
    var n := 60 * hours + rest;
    assert n / 60 == hours && n % 60 == rest;
  }

  /** A non-empty run of decimal digits. */
  predicate Number(s: string) {
    |s| > 0 && Text.IsDigits(s)
  }

  /** Reading a duration back: `<n>m`, `-<n>m`, `<h>h` or `<h>h<m>m`. */
  function ParseDuration(s: string): (r: Option<int>)
  {
    if |s| == 0 then None
    else
      var body := s[..|s| - 1];
      if s[|s| - 1] == 'h' then
        if Number(body) then Some(60 * Text.ParseNat(body)) else None
      else if s[|s| - 1] != 'm' then None
      else
        match Text.SplitFirst(body, 'h')
        case (hours, Some(mins)) =>
          if Number(hours) && Number(mins) then Some(60 * Text.ParseNat(hours) + Text.ParseNat(mins)) else None
        case (_, None) =>
          if Number(body) then Some(Text.ParseNat(body))
          else if |body| > 1 && body[0] == '-' && Number(body[1..]) then Some(-(Text.ParseNat(body[1..]) as int))
          else None
  }

  /** The display can be read back: the mixed form splits the count into
      whole hours and a remainder between 1 and 59. */
  lemma ParseFormat(minutes: int)
    ensures ParseDuration(FormatDurationHuman(minutes)) == Some(minutes)
  {
    if minutes < 60 {
      ParseBelowHour(minutes);
    } else {
      ParseFromHour(minutes);
    }
  }

  lemma ParseBelowHour(minutes: int)
    requires minutes < 60
    ensures ParseDuration(FormatDurationHuman(minutes)) == Some(minutes)
  {
    if minutes < 0 {
      ParseNegative(-minutes);
    } else {
      ParseMinutes(minutes);
    }
  }

  lemma ParseFromHour(minutes: int)
    requires minutes >= 60
    ensures ParseDuration(FormatDurationHuman(minutes)) == Some(minutes)
  {
    var h, m := minutes / 60, minutes % 60;
    assert minutes == 60 * h + m;
    if m == 0 {
      ParseHours(h);
    } else {
      ParseMixed(h, m);
    }
  }

  lemma ParseNegative(n: nat)
    requires n > 0
    ensures ParseDuration("-" + Text.NatToString(n) + "m") == Some(-(n as int))
  {
    var d := Text.NatToString(n);
    var s := "-" + d + "m";
    Text.ParseNatToString(n);
    assert s[..|s| - 1] == "-" + d;
    assert ("-" + d)[1..] == d;
    assert !Number("-" + d) by {
      assert ("-" + d)[0] == '-';
    }
    NoHour("-" + d);
  }

  lemma ParseMinutes(n: nat)
    ensures ParseDuration(Text.NatToString(n) + "m") == Some(n)
  {
    var d := Text.NatToString(n);
    var s := d + "m";
    Text.ParseNatToString(n);
    assert s[..|s| - 1] == d;
    NoHour(d);
  }

  lemma ParseHours(h: nat)
    ensures ParseDuration(Text.NatToString(h) + "h") == Some(60 * h)
  {
    var d := Text.NatToString(h);
    var s := d + "h";
    Text.ParseNatToString(h);
    assert s[..|s| - 1] == d;
  }

  lemma ParseMixed(h: nat, m: nat)
    ensures ParseDuration(Text.NatToString(h) + "h" + Text.NatToString(m) + "m") == Some(60 * h + m)
  {
    var hs := Text.NatToString(h);
    var ms := Text.NatToString(m);
    var s := hs + "h" + ms + "m";
    Text.ParseNatToString(h);
    Text.ParseNatToString(m);
    assert s[..|s| - 1] == hs + "h" + ms;
    assert 'h' !in hs by {
      forall i | 0 <= i < |hs| ensures hs[i] != 'h' { }
    }
    SplitAtFirst(hs, ms);
  }

  /** A string of digits, possibly signed, has no `h`. */
  lemma NoHour(s: string)
    requires forall i :: 0 <= i < |s| ==> s[i] == '-' || '0' <= s[i] <= '9'
    ensures Text.SplitFirst(s, 'h') == (s, None)
  {
  }

  /** Splitting `h + "h" + m` at its first `h` recovers the parts when `h`
      has none. */
  lemma SplitAtFirst(h: string, m: string)
    requires 'h' !in h
    ensures Text.SplitFirst(h + "h" + m, 'h') == (h, Some(m))
  {
    var s := h + "h" + m;
    var r := Text.SplitFirst(s, 'h');
    assert s[|h|] == 'h';
    assert 'h' in s;
    assert s == r.0 + ['h'] + r.1.value;
    assert |r.0| == |h|;
    assert r.0 == s[..|h|] == h;
    assert r.1.value == s[|h| + 1..] == m;
  }

  /** Distinct durations display differently. */
  lemma FormatInjective(a: int, b: int)
    requires FormatDurationHuman(a) == FormatDurationHuman(b)
    ensures a == b
  {
    ParseFormat(a);
    ParseFormat(b);
  }
}

=== FILE: wrappers.dfy ===
/** Failure-compatible helper datatypes used throughout the model: an
    optional value (Python's `X | None`) and a success-or-error result
    (a Python call that either returns or raises). */
module Wrappers {

  datatype Option<+T> = None | Some(value: T) {

    predicate IsFailure() {
      None?
    }

    function PropagateFailure<U>(): Option<U>
      requires None?
    {
      None
    }

    function Extract(): T
      requires Some?
    {
      value
    }

    /** The wrapped value, or `default` when there is none. */
    function GetOr(default: T): T {
      match this
      case Some(v) => v
      case None => default
    }
  }

  datatype Result<+R, +E> = Success(value: R) | Failure(error: E) {

    predicate IsFailure() {
      Failure?
    }

    function PropagateFailure<U>(): Result<U, E>
      requires Failure?
    {
      Failure(error)
    }

    function Extract(): R
      requires Success?
    {
      value
    }
  }
}
